=== FILE: README.md ===
# LearnOpenGL core, modelled in Dafny

This project models the CPU-side logic of the LearnOpenGL tutorial code and of the
headers it ships, and proves properties of that logic:

- **the compute-shader demo**: the per-texel kernel of `computeShader.cs`, the image
  store and a dispatch over the texture (`ComputeShader`);
- **GLM**: `round.inl`'s power-of-two and multiple rounding, including 32-bit
  unsigned wrap-around (`Round`); the 3- and 4-argument `min`/`max` and the NaN-skipping
  `fmin`/`fmax`/`fclamp` (`MinMax`); the texture-coordinate wraps (`Wrap`); `std::hash`
  specialisations built on `hash_combine` (`GlmHash`); `tvec2` indexing and operators
  (`GlmVec2`);
- **the LearnOpenGL headers**: `entity.h`'s transforms, frustum planes, bounding volumes
  and scene graph (`Scene`); `model.h`'s mesh, texture and bounding-box processing
  (`ModelLoading`); `bone.h`'s key-frame search and interpolation (`Bones`);
- **the Breakout game**: the particle pool of `particle_generator.cpp` (`Particles`) and
  the named-resource maps of `resource_manager.cpp` (`Resources`);
- **irrKlang's value headers**: stream formats (`AudioFormat`), `equalsfloat`
  (`IrrTypes`), engine option flags (`EngineOptions`), reference counting
  (`RefCounting`) and integer `vec3d` (`Vec3d`);
- **the demos' input logic**: the GLFW key array (`Glfw`), the debounced key callback
  shared by the HDR and SSAO demos (`DebouncedKeys`), HDR's toggle and exposure
  (`HdrDemo`), SSAO's kernel, noise and draw mode (`Ssao`), the single and multiple
  area-light demos (`AreaLight`, `MultipleAreaLights`) and the GL error and debug-output
  reporters (`Debugging`).

Floats are modelled as reals. Integer widths, C++ truncating division and unsigned
wrap-around are written out explicitly (`CInt`). OpenGL, GLFW, Assimp, the random engines,
the camera and the matrix and quaternion library become function or sequence parameters.
Steps that fail in the source return an `Option` or a `Result` (`Wrappers`). Undefined
behaviour is excluded by preconditions instead: division by zero, an index out of range,
negating `INT_MIN`, and the particle search past the end of its pool. "## Left out" names
each member that does this.

## Model

| member | source | states |
|---|---|---|
| ComputeShader.Kernel | src/8.guest/2022/5.computeshader_helloworld/computeShader.cs:21-29 | every invocation writes blue 0 and alpha 1; red lies in [0, 1000 / extent) because GLSL `mod` keeps the numerator in [0, 1000) even for negative `t`; green lies in [0, 1) |
| ComputeShader.GreenMonotone | src/8.guest/2022/5.computeshader_helloworld/computeShader.cs:29 | green is 0 on row 0 and strictly increasing in the row |
| ComputeShader.RedPeriodic | src/8.guest/2022/5.computeshader_helloworld/computeShader.cs:24-28 | red repeats in time with period 10 (width over speed) |
| ComputeShader.ChannelIndependence | src/8.guest/2022/5.computeshader_helloworld/computeShader.cs:28-29 | red does not depend on the row; green depends on neither the column nor the time |
| ComputeShader.KernelExamples | src/8.guest/2022/5.computeshader_helloworld/computeShader.cs:24-29 | on a 1000 x 1000 grid at t = 0 texel (500, 250) gets (0.5, 0.25, 0, 1); at t = 9 texel (500, 0) has red 0.4 |
| ComputeShader.ImageStore | src/8.guest/2022/5.computeshader_helloworld/computeShader.cs:30 | `imageStore` writes the one texel at the invocation's coordinate and leaves every other texel and the image shape unchanged |
| ComputeShader.StoresCommute | src/8.guest/2022/5.computeshader_helloworld/computeShader.cs:23-30 | stores at distinct texels commute, so the order in which invocations run does not change the image |
| ComputeShader.Dispatch | src/8.guest/2022/5.computeshader_helloworld/computeShader.cs:3-31 | running every invocation of a (10·gx) x (10·gy) dispatch leaves each texel holding the kernel's value for its own coordinate |
| RealMath.GlslModRange | src/8.guest/2022/5.computeshader_helloworld/computeShader.cs:28 | for a positive modulus GLSL `mod` lands in [0, y) and differs from its argument by a whole multiple of y |
| RealMath.GlslModPeriodic | src/8.guest/2022/5.computeshader_helloworld/computeShader.cs:28 | adding a whole multiple of the modulus leaves GLSL `mod` unchanged |
| Round.FindMsbSpec | includes/glm/gtc/round.inl:249 | `1 << findMSB(v)` is the largest power of two not above a non-zero `v` |
| Round.IsPowerOfTwoCorrect | includes/glm/gtc/round.inl:214-219 | the bit test `!(v & (v - 1))` holds exactly for 0 and for the words with one bit set |
| Round.IsPowerOfTwoSignedEven | includes/glm/gtc/round.inl:214-219 | on signed values the test goes through `abs`, so `v` and `-v` agree, and a non-negative value gets the unsigned answer |
| Round.CeilPowerOfTwo | includes/glm/gtc/round.inl:48-66 | unsigned rounding: 0 gives 0; for 1 ≤ x ≤ 2^31 the result is the least power of two at or above x (half of it lies below x); above 2^31 the result wraps to 0 |
| Round.CeilPowerOfTwoSigned | includes/glm/gtc/round.inl:26-46 | signed rounding: 0 gives 0, and a non-negative value rounds as in the unsigned version |
| Round.CeilPowerOfTwoSignedIsProduct | includes/glm/gtc/round.inl:33-44 | the model's case split on the sign equals the source's multiplication of the smeared `abs(x)` by `sign(x)` |
| Round.CeilPowerOfTwoSignedOdd | includes/glm/gtc/round.inl:26-46 | signed rounding is odd: rounding `-x` gives minus the rounding of `x` |
| Round.FloorPowerOfTwoSpec | includes/glm/gtc/round.inl:246-250 | 0 stays 0; otherwise the result is a power of two at most `v` and above `v >> 1`, i.e. the greatest power of two not above `v` |
| Round.FloorCeilBracket | includes/glm/gtc/round.inl:231-250 | below 2^31 a non-power lies strictly between its floor and ceiling powers of two, which are consecutive powers |
| Round.NearerSpec | includes/glm/gtc/round.inl:269 | the final choice takes `next` exactly when it is strictly nearer, so ties go to `prev` |
| Round.RoundPowerOfTwoSpec | includes/glm/gtc/round.inl:261-270 | below 2^31 a power of two is kept and any other value goes to the nearer of its floor and ceiling powers of two |
| Round.FloorPowerOfTwoSignedAgrees | includes/glm/gtc/round.inl:214-250 | for a non-negative signed value, `floorPowerOfTwo` through the `abs` test gives the same word as the unsigned instance |
| Round.FloorPowerOfTwoSignedKeepsNegatedPowers | includes/glm/gtc/round.inl:214-250 | the signed instance returns every negated power of two (`-4`, `INT_MIN`) unchanged, where the unsigned instance sends the same word to `0x80000000` |
| Round.IsMultipleCorrect | includes/glm/gtc/round.inl:281-297 | the C++ test `v % m == 0` agrees with divisibility whatever the signs of `v` and `m` |
| Round.CeilMultipleSpec | includes/glm/gtc/round.inl:95-109 | signed integer `ceilMultiple` with a positive multiple returns the least multiple at or above the source, for positive and non-positive sources under truncating `%` |
| Round.FloorMultipleSpec | includes/glm/gtc/round.inl:127-157 | integer `floorMultiple` with a positive multiple returns the greatest multiple at or below the source, negative sources included |
| Round.RoundMultipleIsFloor | includes/glm/gtc/round.inl:178-208 | integer `roundMultiple` is defined exactly as `floorMultiple`, so it returns the greatest multiple at or below the source, not the nearest |
| Round.CeilMultipleInt32Iff | includes/glm/gtc/round.inl:95-109 | on `int`, the C++ computation of `ceilMultiple` stays free of signed overflow exactly when the source is not `INT_MIN` and the least multiple fits in 32 bits, so there the unbounded result is the program's |
| Round.FloorMultipleInt32Iff | includes/glm/gtc/round.inl:143-157 | on `int`, `floorMultiple` (and `roundMultiple`, which has the same body) stays free of signed overflow exactly when the greatest multiple at or below the source fits in 32 bits |
| Round.MultipleOverflowExamples | includes/glm/gtc/round.inl:95-157 | `ceilMultiple(INT_MAX, 2)` needs 2^31, `ceilMultiple(INT_MIN, 3)` negates `INT_MIN`, and `floorMultiple(INT_MIN, 3)` falls below `INT_MIN`: each overflows in C++ |
| Round.CeilMultipleUnsignedZeroSource | includes/glm/gtc/round.inl:84-93 | as written, unsigned `ceilMultiple(0u, 3u)` wraps `0 - 1` and returns 2, which is not a multiple of 3 |
| Round.CeilMultipleUnsignedFixedSpec | includes/glm/gtc/round.inl:84-93 | with a zero source handled as the signed version handles it, the unsigned rounding returns the least multiple at or above the source whenever that fits in 32 bits |
| Round.FloorMultipleUnsignedSpec | includes/glm/gtc/round.inl:127-141 | unsigned `floorMultiple` cannot wrap and returns the greatest multiple at or below the source |
| Scene.ComputeModelMatrix | includes/learnopengl/entity.h:38-48 | both overloads clear the dirty flag, keep position, rotation and scale, and store the parent's global matrix times the local TRS matrix (the local one alone for a root) |
| Scene.SetLocalPosition | includes/learnopengl/entity.h:50-54 | the setter stores the position and marks the transform dirty; rotation, scale and the cached matrix are untouched |
| Scene.SetLocalRotation | includes/learnopengl/entity.h:56-60 | the setter stores the rotation and marks the transform dirty; nothing else changes |
| Scene.SetLocalScale | includes/learnopengl/entity.h:62-66 | the setter stores the scale and marks the transform dirty; nothing else changes |
| Scene.ComputeModelMatrixRoot | includes/learnopengl/entity.h:38-48 | a root computes the same matrix as a child of an identity parent, and recomputing a clean root is idempotent |
| Scene.SetThenCompute | includes/learnopengl/entity.h:38-66 | a setter followed by a recompute gives a clean transform whose matrix is built from the new value and the two untouched ones |
| Scene.GlobalPositionOfChild | includes/learnopengl/entity.h:68-112 | a child's global position is its local position carried through the parent's matrix; forward is minus backward |
| Scene.MakePlane | includes/learnopengl/entity.h:132-136 | the plane built from a point and a normal has the normalised normal and passes through the point |
| Scene.PlaneOffset | includes/learnopengl/entity.h:125-141 | the signed distance of a point offset by `d` from the defining point is the normal's dot product with `d`; the default plane measures height |
| Scene.IsOnFrustumAllFaces | includes/learnopengl/entity.h:161-169 | a volume is on the frustum exactly when it is on or in front of each of the six faces |
| Scene.SquareIsCubicAabb | includes/learnopengl/entity.h:219-224 | the cube test agrees with the box test for a box whose three extents equal the cube's |
| Scene.AabbFromMinMax | includes/learnopengl/entity.h:264-266 | the constructor's centre and extents reproduce `min` and `max`, and the extents are non-negative exactly when `min <= max` on each axis |
| Scene.Vertices | includes/learnopengl/entity.h:272-285 | there are eight corners, the first at `center - extents` and the last at `center + extents` |
| Scene.AabbPlaneTestExact | includes/learnopengl/entity.h:287-294 | a box with non-negative extents passes a plane exactly when one of its eight corners lies on or in front of it |
| Scene.GlobalAabb | includes/learnopengl/entity.h:296-318 | the world box is centred at the transformed centre and has non-negative extents |
| Scene.GlobalSquare | includes/learnopengl/entity.h:226-248 | the world cube is centred at the transformed centre and its half-size is at least each of the world box's extents |
| Scene.GlobalAabbIdentity | includes/learnopengl/entity.h:296-318 | under the identity matrix a box with non-negative extents is its own world box |
| Scene.GlobalAabbContainsCorners | includes/learnopengl/entity.h:296-318 | the world box is conservative: every corner of the model box, carried through the transform, lies inside it |
| Scene.SquareCoversAabb | includes/learnopengl/entity.h:226-256 | the cube test under a transform never culls what the box test of the same cube keeps |
| Scene.Accumulate | includes/learnopengl/entity.h:349-360 | the running min/max pair only widens, and every visited point lies between the final min and max |
| Scene.AccumulateAttained | includes/learnopengl/entity.h:349-360 | each coordinate of the final min and max is either the starting value or some visited point's |
| Scene.ModelBounds | includes/learnopengl/entity.h:349-360 | the two nested loops over meshes and vertices compute the running pair over all vertices in order |
| Scene.GenerateAabbAsWritten | includes/learnopengl/entity.h:345-363 | as written, the box still contains every vertex |
| Scene.GenerateAabbAsWrittenLoose | includes/learnopengl/entity.h:348 | as written, a model whose only vertex is (-1, -1, -1) gets a box whose upper corner is `FLT_MIN` on each axis, not the vertex |
| Scene.GenerateAabb | includes/learnopengl/entity.h:345-363 | with `maxAABB` starting at `-FLT_MAX` the box contains every vertex |
| Scene.GenerateAabbTight | includes/learnopengl/entity.h:345-363 | with that start and at least one vertex in float range, each face of the box touches some vertex, so the box is the tightest one |
| Scene.NewEntity | includes/learnopengl/entity.h:400-404 | a new entity is dirty, has no children and carries the box `generateAABB` builds as written, which contains all of its model's vertices |
| Scene.NewEntityLoose | includes/learnopengl/entity.h:348 | through the constructor the loose start shows: a model of the single vertex (-1, -1, -1) gives an entity box whose upper corner is `FLT_MIN` |
| Scene.NewEntityFixed | includes/learnopengl/entity.h:400-404 | the constructor with the corrected box: dirty, childless, containing every vertex |
| Scene.NewEntityFixedTight | includes/learnopengl/entity.h:345-364 | with the corrected start each face of a new entity's box touches a vertex, and the entity differs from the as-written one only in its box |
| Scene.AddChild | includes/learnopengl/entity.h:434-439 | the new child goes last; the existing children, the transform and the box are unchanged |
| Scene.ForceUpdateConsistent | includes/learnopengl/entity.h:455-466 | a forced update leaves the whole subtree clean, each node holding its parent's global matrix times its local one |
| Scene.UpdateConsistent | includes/learnopengl/entity.h:441-453 | from any tree whose clean nodes under clean ancestors hold correct matrices, the dirty-flag update gives the same consistent tree a forced one would |
| Scene.UpdateStable | includes/learnopengl/entity.h:441-453 | on a clean, consistent tree the update changes nothing |
| Scene.UpdateLeavesNoneDirty | includes/learnopengl/entity.h:441-466 | whatever the flags held before, no node is dirty after the update |
| Scene.VisibleAtMostSize | includes/learnopengl/entity.h:469-483 | the number of visible entities is at most the number of entities in the tree |
| Scene.DrawCounts | includes/learnopengl/entity.h:469-483 | the walk adds the number of visible entities to `display` and the number of entities to `total`, modulo 2^32 |
| ModelLoading.EndsWith | includes/learnopengl/model.h:352-356 | `ends_with` holds exactly when `ending` is no longer than `value` and equals its tail |
| ModelLoading.EndsWithIffConcat | includes/learnopengl/model.h:352-356 | `ends_with` holds exactly when `value` is some string followed by `ending` |
| ModelLoading.FindLastOf | includes/learnopengl/model.h:378 | `find_last_of` returns a position holding the character with none after it, and `npos` exactly when the character is absent |
| ModelLoading.Directory | includes/learnopengl/model.h:378 | the directory is a prefix of the path |
| ModelLoading.DirectoryJoinRoundTrip | includes/learnopengl/model.h:206-207 | splitting a path at its last backslash and joining the parts with a backslash gives the path back; without a backslash the directory is the whole path |
| ModelLoading.DirectoryOfJoin | includes/learnopengl/model.h:206-207 | the directory of a joined path is the directory it was joined to, for a file name without backslashes |
| ModelLoading.LoadFlagsSpec | includes/learnopengl/model.h:213-220 | an image is loaded exactly for the `.png`, `.jpg`, `.dds` and `.tga` extensions, and both branches pass the same `force_channels` value, `SOIL_LOAD_RGBA` |
| ModelLoading.TextureFromFileIgnoresDirectory | includes/learnopengl/model.h:203-220 | only the file's own extension decides the load; the directory it is joined to never matters |
| ModelLoading.DecimalRoundTrip | includes/learnopengl/model.h:83-95 | the digits the string stream writes for a counter read back as the counter |
| ModelLoading.DecimalInjective | includes/learnopengl/model.h:83-95 | different counters are written as different strings |
| ModelLoading.DrawSamplers | includes/learnopengl/model.h:71-99 | the loop of `Draw` with its four counters yields, texture by texture, the sampler name `type` + rank among earlier textures of that type and the unit equal to the position |
| ModelLoading.CounterStep | includes/learnopengl/model.h:80-96 | one iteration steps only the counter of the texture's own type and appends that texture's sampler |
| ModelLoading.SamplerNamesDistinct | includes/learnopengl/model.h:71-99 | each texture unit is the texture's position, and two textures of the same known type get different sampler names |
| ModelLoading.ConvertVertex | includes/learnopengl/model.h:434-469 | a converted vertex is the Assimp position with x and z negated, the normal exactly when the mesh has normals, and the first texture coordinates or (0, 0) |
| ModelLoading.FlipInvolution | includes/learnopengl/model.h:439-441 | negating x and z twice gives the position back |
| ModelLoading.AppendFaceIndices | includes/learnopengl/model.h:473-482 | the face loop appends every face's indices, face by face, in order |
| ModelLoading.FaceIndexPosition | includes/learnopengl/model.h:473-482 | index `j` of face `f` lands right after the indices of all earlier faces |
| ModelLoading.LoadMaterialTextures | includes/learnopengl/model.h:564-579 | one texture per material path, in order, each with the given type name and its path |
| ModelLoading.ProcessMesh | includes/learnopengl/model.h:431-512 | `processMesh` extends the three scratch vectors (vertices by exactly the mesh's vertex count, with flipped positions) and returns a mesh holding their new contents |
| ModelLoading.AfterProcessMesh | includes/learnopengl/model.h:410-428 | `afterProcessMesh` empties the three scratch vectors |
| ModelLoading.MeshStepFresh | includes/learnopengl/model.h:393-402 | from empty scratch vectors each mesh step appends exactly the mesh built from that mesh alone and empties the scratch again |
| ModelLoading.ProcessNodeFresh | includes/learnopengl/model.h:388-408 | walking a subtree from empty scratch vectors appends one mesh per mesh reference, in depth-first order, each built from its own data |
| ModelLoading.NodeBoxIsFold | includes/learnopengl/model.h:516-550 | the recursive bounding-box walk computes the same box as one min/max fold over every transformed, flipped vertex of the subtree in visiting order |
| ModelLoading.SceneBox | includes/learnopengl/model.h:552-560 | `get_bounding_box` returns a box containing every transformed vertex, never tighter than the starting ±1e10 pair allows |
| ModelLoading.SceneBoxTight | includes/learnopengl/model.h:552-560 | a scene without vertices keeps the inverted start box; with vertices inside ±1e10 each face of the box touches some vertex |
| ModelLoading.LoadModelSpec | includes/learnopengl/model.h:359-385 | a successful load holds one mesh per mesh reference in depth-first order, the directory of the path, and a box around every transformed vertex |
| Bones.NewBone | includes/learnopengl/bone.h:34-73 | the constructor copies the three key arrays in channel order, records counts equal to their lengths, keeps name and id, and starts from the identity transform |
| Bones.KeyIndexFrom | includes/learnopengl/bone.h:88-96 | the search loop returns the first index whose successor's time stamp lies ahead of `t`, and falls through to the `assert(0)` exactly when no later key lies ahead |
| Bones.KeyIndexSpec | includes/learnopengl/bone.h:88-116 | `GetPositionIndex`, `GetRotationIndex` and `GetScaleIndex` return `i` exactly when `i` is that first index, and fail exactly when no key after the first lies ahead of `t` |
| Bones.KeyIndexBrackets | includes/learnopengl/bone.h:88-116 | with strictly increasing time stamps and `t` inside the animation, the index found brackets `t` between its key and the next |
| Bones.ScaleFactor | includes/learnopengl/bone.h:121-128 | the factor exists exactly when the two time stamps differ and places `t` at that fraction of the way from the first to the second |
| Bones.ScaleFactorRange | includes/learnopengl/bone.h:121-128 | the factor is 0 at the first key, 1 at the second, and in [0, 1) in between |
| Bones.Interpolate | includes/learnopengl/bone.h:130-175 | with one key the value is that key's, whatever the time; otherwise any result is a blend of two keys |
| Bones.InterpolateBetween | includes/learnopengl/bone.h:130-175 | with two or more keys the blend is between the bracketing key and its successor with the factor that places `t` between their time stamps; equal time stamps give no blend |
| Bones.InterpolatePastEnd | includes/learnopengl/bone.h:88-96 | with two or more keys and `t` at or past every later key the search fails, so interpolation fails |
| Bones.Update | includes/learnopengl/bone.h:75-81 | `Update` changes only the local transform, and succeeds exactly when all three interpolations do |
| Bones.UpdateSingleKeys | includes/learnopengl/bone.h:75-81 | a bone with one key of each kind has the same pose at every time: translation times rotation times scale of its keys |
| Particles.Init | src/7.in_practice/3.2d_game/0.full_source/particle_generator.cpp:84-86 | `init` creates `amount` default particles, all unused |
| Particles.FirstUnused | src/7.in_practice/3.2d_game/0.full_source/particle_generator.cpp:91-110 | the slot handed out is unused, or it is 0 and every slot is alive |
| Particles.FirstUnusedParticle | src/7.in_practice/3.2d_game/0.full_source/particle_generator.cpp:89-110 | the two search loops return the first unused slot at or after the last used one, else the first before it, else 0, and record the result as the last used slot |
| Particles.FirstUnusedReusesDead | src/7.in_practice/3.2d_game/0.full_source/particle_generator.cpp:91-110 | if any slot is unused the search returns an unused one, so a live particle is overwritten only when every slot is alive |
| Particles.FreshPoolSearch | src/7.in_practice/3.2d_game/0.full_source/particle_generator.cpp:91-99 | on a fresh pool the search returns the last used slot itself |
| Particles.Respawn | src/7.in_practice/3.2d_game/0.full_source/particle_generator.cpp:112-120 | a respawned particle has one unit of life, full alpha, a grey level in [0.5, 1.5), a tenth of the object's velocity and the same jitter in [-5, 4.9] on both axes |
| Particles.Age | src/7.in_practice/3.2d_game/0.full_source/particle_generator.cpp:26-35 | life drops by `dt`; a particle still alive moves back along its velocity by `dt` and loses `2.5 dt` of alpha, while a dead one changes only its life |
| Particles.SpawnAll | src/7.in_practice/3.2d_game/0.full_source/particle_generator.cpp:20-24 | spawning keeps the pool size; with no draws nothing changes; otherwise the last used slot is a valid index holding the particle spawned from the last draw, and every slot holds either its old particle or one respawned from some draw |
| Particles.SpawnAllKeepsLive | src/7.in_practice/3.2d_game/0.full_source/particle_generator.cpp:20-24 | when the pool has at least as many unused slots as there are draws, spawning overwrites no live particle |
| Particles.Update | src/7.in_practice/3.2d_game/0.full_source/particle_generator.cpp:17-36 | `Update` respawns one particle per draw into the slot the search returns, then ages every particle of the pool |
| Particles.RespawnSurvivesShortStep | src/7.in_practice/3.2d_game/0.full_source/particle_generator.cpp:29-33 | a particle respawned and aged by a step shorter than 1 stays alive with alpha `1 - 2.5 dt` |
| Resources.Subscript | src/7.in_practice/3.2d_game/0.full_source/resource_manager.cpp:30 | a map read through `operator[]` returns the stored value of a present key and leaves the map unchanged; an absent key is inserted with the default value, and no other entry changes |
| Resources.LoadShaderReadsOnlyGiven | src/7.in_practice/3.2d_game/0.full_source/resource_manager.cpp:54-96 | the loaded program depends only on the compiler and the contents of the files named; without a geometry path no third file is read, so environments agreeing on the vertex and fragment files give the same program |
| Resources.LoadShaderGeometryOnlyWhenGiven | src/7.in_practice/3.2d_game/0.full_source/resource_manager.cpp:77-94 | the compiler is handed a geometry source exactly when a geometry path was given, even if that file is empty |
| Resources.TextureFormats | src/7.in_practice/3.2d_game/0.full_source/resource_manager.cpp:101-106 | with `alpha` both formats become `GL_RGBA`; without it the default texture is kept; size and id are never touched |
| Resources.LoadTextureReadsOnlyFile | src/7.in_practice/3.2d_game/0.full_source/resource_manager.cpp:98-115 | the loaded texture depends only on the generator, the default texture and the image the named file holds |
| Resources.LoadTextureFormats | src/7.in_practice/3.2d_game/0.full_source/resource_manager.cpp:101-112 | when generating keeps the formats it is given, the loaded texture is `GL_RGBA` on both formats with `alpha` and keeps the default formats without it |
| Resources.LoadShader | src/7.in_practice/3.2d_game/0.full_source/resource_manager.cpp:22-26 | afterwards the name maps to the returned program, which is the freshly loaded one; every other shader and every texture is untouched |
| Resources.GetShader | src/7.in_practice/3.2d_game/0.full_source/resource_manager.cpp:28-31 | a known name returns its program and changes nothing; an unknown name returns a default program and registers it under that name |
| Resources.LoadTexture | src/7.in_practice/3.2d_game/0.full_source/resource_manager.cpp:33-37 | afterwards the name maps to the returned, freshly loaded texture; every other texture and every shader is untouched |
| Resources.GetTexture | src/7.in_practice/3.2d_game/0.full_source/resource_manager.cpp:39-42 | a known name returns its texture and changes nothing; an unknown name returns a default texture and registers it |
| Resources.Clear | src/7.in_practice/3.2d_game/0.full_source/resource_manager.cpp:44-52 | every registered program and texture object is deleted, nothing else is, and the maps keep their entries |
| Resources.LoadThenGetShader | src/7.in_practice/3.2d_game/0.full_source/resource_manager.cpp:22-31 | a get after a load under the same name returns the loaded program and inserts nothing |
| Resources.LoadThenGetTexture | src/7.in_practice/3.2d_game/0.full_source/resource_manager.cpp:33-42 | a get after a load under the same name returns the loaded texture and inserts nothing |
| Resources.GetShaderTwice | src/7.in_practice/3.2d_game/0.full_source/resource_manager.cpp:28-31 | a second read of the same name returns the same program and changes nothing more, even for a name never loaded |
| Resources.LoadShaderOverwrites | src/7.in_practice/3.2d_game/0.full_source/resource_manager.cpp:22-26 | loading twice under one name is the same as loading only the second time |
| AudioFormat.SampleSize | includes/irrKlang/ik_SAudioStreamFormat.h:42-45 | a sample takes one byte exactly for unsigned 8-bit data and two bytes exactly for signed 16-bit data |
| AudioFormat.FrameSize | includes/irrKlang/ik_SAudioStreamFormat.h:48-51 | a frame takes between one and two bytes per channel |
| AudioFormat.SampleDataSize | includes/irrKlang/ik_SAudioStreamFormat.h:53-58 | a stream of unknown length (frame count -1) reports a negative data size, as the comment promises |
| AudioFormat.SampleDataSizeFrames | includes/irrKlang/ik_SAudioStreamFormat.h:48-58 | the data size is a whole number of frames and divides back to the frame count |
| AudioFormat.BytesPerSecondFrames | includes/irrKlang/ik_SAudioStreamFormat.h:48-64 | a second of sound is a whole number of frames and divides back to the sample rate |
| AudioFormat.CommonFrameSizes | includes/irrKlang/ik_SAudioStreamFormat.h:42-64 | stereo 16-bit frames take four bytes, mono 8-bit frames one, and 44.1 kHz stereo 16-bit sound is 176400 bytes per second |
| IrrTypes.EqualsFloat | includes/irrKlang/ik_irrKlangTypes.h:68-71 | the two one-sided tests together hold exactly when the values differ by less than the tolerance |
| IrrTypes.EqualsFloatDefault | includes/irrKlang/ik_irrKlangTypes.h:58-71 | with the default tolerance the values compare equal exactly when they differ by less than 0.000001 |
| IrrTypes.EqualsFloatReflexive | includes/irrKlang/ik_irrKlangTypes.h:68-71 | over reals, a value equals itself exactly when the tolerance is positive (in `float` this fails once the tolerance is below half the spacing of floats near the value; see "## Left out") |
| IrrTypes.EqualsFloatSymmetric | includes/irrKlang/ik_irrKlangTypes.h:68-71 | the comparison does not depend on the order of its operands |
| IrrTypes.EqualsFloatNonPositiveTolerance | includes/irrKlang/ik_irrKlangTypes.h:68-71 | a tolerance of zero or less makes every comparison false |
| IrrTypes.EqualsFloatOnIntegers | includes/irrKlang/ik_irrKlangTypes.h:58-71 | over reals, on whole numbers the default comparison is exact equality (not so in `float` for larger values; see "## Left out") |
| EngineOptions.CombineHas | includes/irrKlang/ik_ESoundEngineOptions.h:67 | the OR of a list of options switches on every option of the list |
| EngineOptions.CombineLeast | includes/irrKlang/ik_ESoundEngineOptions.h:67 | the OR of a list is the least value switching on every option of the list |
| EngineOptions.OptionsAreDistinctBits | includes/irrKlang/ik_ESoundEngineOptions.h:23-64 | each of the seven options is a single bit, and no two share one, so they combine freely |
| EngineOptions.DefaultOptionsValue | includes/irrKlang/ik_ESoundEngineOptions.h:66-67 | the default is 0x3D: five options on, mute-if-not-focused and linear rolloff off |
| EngineOptions.DocumentedDefaultMatches | includes/irrKlang/ik_ESoundEngineOptions.h:13-14 | the combination the header documents as the default is the value the enumeration defines |
| RefCounting.New | includes/irrKlang/ik_IRefCounted.h:46-49 | a new object holds exactly one reference |
| RefCounting.Grab | includes/irrKlang/ik_IRefCounted.h:80 | `grab` adds one reference and touches nothing else |
| RefCounting.Drop | includes/irrKlang/ik_IRefCounted.h:98-109 | `drop` deletes the object exactly when it held one reference, and otherwise removes one reference |
| RefCounting.DropUndoesGrab | includes/irrKlang/ik_IRefCounted.h:80-109 | a grab then a drop restores a live object exactly |
| RefCounting.GrabNCounter | includes/irrKlang/ik_IRefCounted.h:80 | `n` grabs add `n` references |
| RefCounting.DropNCounter | includes/irrKlang/ik_IRefCounted.h:98-109 | fewer drops than references leave the object alive with that many fewer |
| RefCounting.GrabsThenDrops | includes/irrKlang/ik_IRefCounted.h:46-109 | after `n` grabs of a new object the first `n` drops return false and keep it alive, and drop `n + 1` deletes it |
| Vec3d.AddSubInverse | includes/irrKlang/ik_vec3d.h:33-40 | `+` and `-` undo each other, unary minus is an involution and the additive inverse |
| Vec3d.EqualityOperators | includes/irrKlang/ik_vec3d.h:56-67 | `==` is equality of vectors and `!=` its negation; over reals, `equals` on integer components is equality too (in `float` it can be false for equal vectors; see "## Left out") |
| Vec3d.OrderOperators | includes/irrKlang/ik_vec3d.h:53-54 | `<=` and `>=` are converses, and holding both forces equality |
| Vec3d.DotCommutative | includes/irrKlang/ik_vec3d.h:81-84 | the dot product is symmetric |
| Vec3d.CrossProperties | includes/irrKlang/ik_vec3d.h:103-106 | the cross product is anticommutative, vanishes on a vector with itself, and is orthogonal to both operands |
| Vec3d.As4Values | includes/irrKlang/ik_vec3d.h:234-240 | the four values are the three components followed by zero |
| Vec3d.Trunc | includes/irrKlang/ik_vec3d.h:120 | float to integer conversion truncates toward zero |
| Vec3d.InterpolatedEnds | includes/irrKlang/ik_vec3d.h:197-203 | a factor of 1 yields this vector and 0 yields the other |
| Vec3d.FloorSqrt | includes/irrKlang/ik_vec3d.h:73-120 | the truncated length of an integer vector is the integer square root of its squared length |
| Vec3d.NormalizeCases | includes/irrKlang/ik_vec3d.h:118-130 | `normalize` leaves a zero vector alone, and on integer components keeps vectors of truncated length 1 and zeroes every longer one |
| Vec3d.FloorSqrtSmall | includes/irrKlang/ik_vec3d.h:120 | squared lengths 1 to 3 truncate to length 1 |
| Vec3d.FloorSqrtLarge | includes/irrKlang/ik_vec3d.h:120-125 | squared lengths of 4 or more truncate to at least 2, whose integer reciprocal is 0 |
| Vec3d.DivScalarAsWrittenCollapses | includes/irrKlang/ik_vec3d.h:50 | as written, integer division by any scalar other than 1 and -1 yields the zero vector, e.g. (10, 20, 30) / 2 |
| Vec3d.DivScalar | includes/irrKlang/ik_vec3d.h:48-50 | the corrected scalar division leaves each component a remainder smaller than the divisor, as C++ integer division does |
| Vec3d.DivScalarExact | includes/irrKlang/ik_vec3d.h:45-50 | dividing a multiple of `v` by `v` recovers it, e.g. (10, 20, 30) / 2 = (5, 10, 15), and agrees with the written operator for 1 and -1 |
| MinMax.Min3 | includes/glm/gtx/extended_min_max.inl:5-12 | the three-argument `min` is a lower bound of its arguments and is one of them |
| MinMax.Min4 | includes/glm/gtx/extended_min_max.inl:36-46 | the four-argument `min` is a lower bound of its arguments and is one of them |
| MinMax.Max3 | includes/glm/gtx/extended_min_max.inl:72-79 | the three-argument `max` is an upper bound of its arguments and is one of them |
| MinMax.Max4 | includes/glm/gtx/extended_min_max.inl:103-113 | the four-argument `max` is an upper bound of its arguments and is one of them |
| MinMax.Min4IsFold | includes/glm/ext/scalar_common.inl:10-25 | pairing the arguments as `min(min(a, b), min(c, d))` gives the same result as folding them from the left |
| MinMax.VectorOverloadsComponentwise | includes/glm/gtx/extended_min_max.inl:14-136 | every vector overload, with vector or scalar trailing arguments, is the scalar function applied per component |
| MinMax.Least | includes/glm/ext/scalar_common.inl:42-52 | the least of a non-empty list is a lower bound and a member of it |
| MinMax.Greatest | includes/glm/ext/scalar_common.inl:87-97 | the greatest of a non-empty list is an upper bound and a member of it |
| MinMax.LeastUnique | includes/glm/ext/scalar_common.inl:42-68 | a member that bounds the list from below is its least element |
| MinMax.GreatestUnique | includes/glm/ext/scalar_common.inl:87-113 | a member that bounds the list from above is its greatest element |
| MinMax.FMinMax3Spec | includes/glm/ext/scalar_common.inl:40-97 | the three-argument `fmin`/`fmax` with its NaN tests return the least or greatest of the arguments that are numbers, and NaN when none is |
| MinMax.FMinMax4Spec | includes/glm/ext/scalar_common.inl:54-113 | the four-argument `fmin`/`fmax` return the least or greatest of the arguments that are numbers, and NaN when none is |
| MinMax.FMinNoNaN | includes/glm/ext/scalar_common.inl:40-113 | without NaN arguments `fmin`/`fmax` agree with `min`/`max` |
| MinMax.FClamp | includes/glm/gtx/extended_min_max.inl:200-205 | with ordered number bounds the result lies between them, a number already between them is kept, and a NaN input yields the lower bound |
| Wrap.Clamp | includes/glm/gtx/wrap.inl:5-15 | `clamp` keeps a coordinate in [0, 1], leaves one already there alone and sends the others to the nearer end |
| Wrap.Repeat | includes/glm/gtx/wrap.inl:17-27 | `repeat` yields a value in [0, 1) that differs from the input by a whole number |
| Wrap.MirrorClamp | includes/glm/gtx/wrap.inl:29-39 | `mirrorClamp` yields a value in [0, 1) |
| Wrap.MirrorRepeatIsTriangle | includes/glm/gtx/wrap.inl:41-56 | the parity-and-fraction computation of `mirrorRepeat` is the triangle wave of the coordinate's magnitude |
| Wrap.RepeatPeriodic | includes/glm/gtx/wrap.inl:17-27 | `repeat` has period 1 |
| Wrap.MirrorEven | includes/glm/gtx/wrap.inl:29-56 | `mirrorClamp` and `mirrorRepeat` are symmetric about zero |
| Wrap.MirrorRepeatShape | includes/glm/gtx/wrap.inl:41-56 | `mirrorRepeat` stays in [0, 1], is the identity on [0, 1) and the mirror image `2 - t` on [1, 2) |
| Wrap.MirrorRepeatPeriodic | includes/glm/gtx/wrap.inl:41-56 | `mirrorRepeat` has period 2 |
| GlmHash.UncombineCombine | includes/glm/gtx/hash.inl:43-49 | a combine step can be undone knowing the seed, so it loses nothing of the hash it mixes in |
| GlmHash.HashCombineInjective | includes/glm/gtx/hash.inl:43-49 | from one seed, two combine steps agree exactly when the hashes mixed in agree |
| GlmHash.FoldFromSnoc | includes/glm/gtx/hash.inl:61-92 | hashing a vector is a left fold of combine steps, so one more component is one more step |
| GlmHash.FoldLastInjective | includes/glm/gtx/hash.inl:61-92 | vectors that agree up to their last component hash equal exactly when the last component hashes equal |
| GlmHash.CompositeHashes | includes/glm/gtx/hash.inl:94-213 | a quaternion hashes as the 4-vector of its components, and a matrix as the fold of its column hashes |
| GlmHash.Vec2SecondComponent | includes/glm/gtx/hash.inl:61-69 | 2-vectors with equal first components hash equal exactly when their second components do |
| GlmHash.FirstStep | includes/glm/gtx/hash.inl:43-59 | the first step from seed 0 adds only the constant 0x9e3779b9, so a 1-vector's hash and a one-element fold differ by it |
| GlmHash.Vec2Hash | includes/glm/gtx/hash.inl:61-69 | a 2-vector hashes as one combine step of the second component into the first's hash plus the constant |
| GlmVec2.Index | includes/glm/detail/type_vec2.inl:110-151 | index 0 reads `x` and index 1 reads `y`; other indices are excluded, as the assertion demands |
| GlmVec2.IndexDetermines | includes/glm/detail/type_vec2.inl:31-151 | two vectors are equal exactly when every index agrees, a broadcast scalar reads the same at every index, and the components rebuild the vector |
| GlmVec2.Binary | includes/glm/detail/type_vec2.inl:497-699 | every binary arithmetic operator acts index by index |
| GlmVec2.ScalarFormsBroadcast | includes/glm/detail/type_vec2.inl:497-699 | the scalar and 1-vector operand forms of each operator equal the vector form with the scalar broadcast |
| GlmVec2.AddSubInverse | includes/glm/detail/type_vec2.inl:497-578 | `+` and `-` undo each other and the zero vector is neutral for `+` |
| GlmVec2.QuotRemRebuild | includes/glm/detail/type_vec2.inl:612-699 | with non-zero divisors, `w * (v / w) + v % w == v` and each remainder is smaller than its divisor |
| GlmVec2.CompoundAssign | includes/glm/detail/type_vec2.inl:154-343 | each compound assignment with a vector leaves the vector the binary operator would return |
| GlmVec2.CompoundAssignScalar | includes/glm/detail/type_vec2.inl:154-343 | each compound assignment with a scalar acts like the binary operator with the scalar broadcast |
| GlmVec2.PostIncrement | includes/glm/detail/type_vec2.inl:283-315 | postfix `++` returns the old vector and adds one to each component |
| GlmVec2.PostDecrement | includes/glm/detail/type_vec2.inl:283-315 | postfix `--` returns the old vector and subtracts one from each component |
| GlmVec2.IncrementDecrement | includes/glm/detail/type_vec2.inl:283-315 | prefix `++` and `--` add and subtract one per component and undo each other |
| GlmVec2.NegateProperties | includes/glm/detail/type_vec2.inl:481-495 | unary minus is an involution, equals subtraction from zero and is the additive inverse; unary plus is the identity |
| GlmVec2.Eq | includes/glm/detail/type_vec2.inl:909-915 | `==` holds exactly when the vectors are equal |
| GlmVec2.Ne | includes/glm/detail/type_vec2.inl:916-921 | `!=` is the negation of `==` |
| Glfw.Get | src/8.guest/2022/7.area_lights/1.area_light/area_lights.cpp:392-425 | reading `keys[key]` succeeds exactly for an index inside the array and then yields that flag |
| Glfw.Set | src/8.guest/2022/7.area_lights/1.area_light/area_lights.cpp:444-466 | writing `keys[key]` succeeds exactly for an index inside the array, sets that flag and leaves every other flag alone |
| Glfw.SetThenGet | src/8.guest/2022/7.area_lights/1.area_light/area_lights.cpp:444-466 | a flag read back after a write holds the written value, and other flags read as before |
| DebouncedKeys.Moves | src/5.advanced_lighting/6.hdr/hdr.cpp:318-328 | each of W, S, A and D held asks the camera for its move, independently of the others |
| DebouncedKeys.KeyCallback | src/5.advanced_lighting/6.hdr/hdr.cpp:346-361 | Escape on press asks the window to close; a press records the key, a release clears both its held and its consumed flag; keys outside the arrays and other actions change no flag |
| DebouncedKeys.AsWrittenOverflowsOnlyAt1024 | src/5.advanced_lighting/6.hdr/hdr.cpp:351 | the written guard `key <= 1024` writes outside the 1024-flag arrays exactly for key 1024 pressed or released, and otherwise agrees with the bounded callback |
| DebouncedKeys.PressKey1024Overflows | src/5.advanced_lighting/9.ssao/ssao.cpp:476 | pressing key 1024 in the initial state writes `keys[1024]`, one past the end |
| DebouncedKeys.PressThenRelease | src/5.advanced_lighting/6.hdr/hdr.cpp:346-361 | a press then a release of a key leaves it neither held nor consumed, and every other key as it was |
| HdrDemo.DoMovement | src/5.advanced_lighting/6.hdr/hdr.cpp:318-341 | the camera moves as the keys ask; Space toggles HDR exactly when held and not yet consumed, and marks it consumed; Q lowers exposure by `0.5 dt`, otherwise E raises it; nothing else changes |
| HdrDemo.Frames | src/5.advanced_lighting/6.hdr/hdr.cpp:318-341 | running `Do_Movement` over several frames keeps the state valid and never changes the held keys |
| HdrDemo.HoldingSpaceTogglesOnce | src/5.advanced_lighting/6.hdr/hdr.cpp:330-334 | holding Space over any number of frames toggles HDR at most once, in the first frame, and only if the press was not yet consumed |
| HdrDemo.HeldSpaceIsStable | src/5.advanced_lighting/6.hdr/hdr.cpp:330-334 | once the held Space is consumed, further frames never toggle HDR |
| HdrDemo.ReleaseRearmsToggle | src/5.advanced_lighting/6.hdr/hdr.cpp:330-334 | releasing and pressing Space again always lets the next frame toggle HDR |
| HdrDemo.QBeatsE | src/5.advanced_lighting/6.hdr/hdr.cpp:336-340 | with Q and E both held and time passing, exposure goes down |
| Ssao.LerpProperties | src/5.advanced_lighting/9.ssao/ssao.cpp:45-48 | `lerp` meets both ends and is strictly increasing in the factor when the ends are increasing |
| Ssao.KernelScaleProperties | src/5.advanced_lighting/9.ssao/ssao.cpp:186-189 | the sample scales start at 0.1, stay below 1 and grow strictly with the sample index |
| Ssao.KernelAndNoise | src/5.advanced_lighting/9.ssao/ssao.cpp:178-200 | the kernel has 64 samples, each built from its own four draws, and the 16 noise vectors lie in the xy plane with components in [-1, 1); with a `normalize` that keeps directions in the +z half-space, every kernel sample lies in the +z hemisphere |
| Ssao.SampleInHemisphere | src/5.advanced_lighting/9.ssao/ssao.cpp:183-190 | a sample whose normalised direction has non-negative z keeps it after the random length and the kernel scale, so it stays in the hemisphere the kernel is meant to fill |
| Ssao.DrawModeHighestWins | src/5.advanced_lighting/9.ssao/ssao.cpp:458-465 | the highest held key among 1 to 4 sets `draw_mode`, and with none held the mode stays |
| AreaLight.GlmClamp | src/8.guest/2022/7.area_lights/1.area_light/area_lights.cpp:213 | the clamped value lies between the bounds, equals the input when it already does, and the nearer bound otherwise |
| AreaLight.IncrementRoughness | src/8.guest/2022/7.area_lights/1.area_light/area_lights.cpp:208-218 | roughness moves by the step but stays in [0, 1]; intensity and two-sidedness are untouched |
| AreaLight.IncrementLightIntensity | src/8.guest/2022/7.area_lights/1.area_light/area_lights.cpp:220-229 | intensity moves by the step but stays in [0, 10]; roughness and two-sidedness are untouched |
| AreaLight.SwitchTwoSided | src/8.guest/2022/7.area_lights/1.area_light/area_lights.cpp:231-239 | two-sidedness flips exactly when asked to; roughness and intensity are untouched |
| AreaLight.SetupKeepsStart | src/8.guest/2022/7.area_lights/1.area_light/area_lights.cpp:311-313 | the set-up calls with zero steps and no switch leave the start parameters (0.5, 4, two-sided) as they are |
| AreaLight.RaiseRoughness | src/8.guest/2022/7.area_lights/1.area_light/area_lights.cpp:405-408 | repeated roughness steps never change intensity or two-sidedness; after at least one step the roughness is in [0, 1], and from a value in range non-negative steps never lower it |
| AreaLight.RaiseRoughnessSaturates | src/8.guest/2022/7.area_lights/1.area_light/area_lights.cpp:208-218 | from a roughness in range, `n` raising steps give the start plus `n` steps, capped at 1: the clamp saturates rather than wraps |
| AreaLight.AccumulatedSaturates | src/8.guest/2022/7.area_lights/1.area_light/area_lights.cpp:208-218 | the capped roughness after `n` steps is the capped sum of the steps |
| AreaLight.SaturatingStep | src/8.guest/2022/7.area_lights/1.area_light/area_lights.cpp:212-213 | clamping after each step equals clamping once at the end, for non-negative steps |
| AreaLight.CameraSteps | src/8.guest/2022/7.area_lights/1.area_light/area_lights.cpp:390-403 | every camera step covers `3 dt`; W moves forward, S backward only without W, A left, D right only without A |
| AreaLight.DoMovement | src/8.guest/2022/7.area_lights/1.area_light/area_lights.cpp:388-427 | the camera steps are as the keys ask; R and I change only roughness and intensity, within range; arrow keys move the light by 0.01 along z and y; the keys and wireframe mode stay |
| AreaLight.ToggleWireframe | src/8.guest/2022/7.area_lights/1.area_light/area_lights.cpp:451-462 | the wireframe flag becomes 1 exactly when it was 0, and 0 otherwise |
| AreaLight.KeyCallback | src/8.guest/2022/7.area_lights/1.area_light/area_lights.cpp:429-468 | Escape on press asks to close; B on press flips two-sided lighting; other presses set the key; a Space release toggles wireframe and other releases clear the key; keys outside the array change no flag |
| AreaLight.AsWrittenFailsOutsideArray | src/8.guest/2022/7.area_lights/1.area_light/area_lights.cpp:443-466 | the written callback writes outside the array exactly for a key outside it that reaches `keys[key]`, and otherwise agrees with the bounded one |
| AreaLight.UnknownKeyOverflows | src/8.guest/2022/7.area_lights/1.area_light/area_lights.cpp:443-445 | a press of an unknown key (-1) writes `keys[-1]` |
| AreaLight.SpaceStaysHeld | src/8.guest/2022/7.area_lights/1.area_light/area_lights.cpp:433-466 | Space is set by a press but never cleared by its release, which only toggles wireframe; two releases restore the mode |
| AreaLight.BTogglesTwoSided | src/8.guest/2022/7.area_lights/1.area_light/area_lights.cpp:440-442 | B never touches the key array, and two presses restore the parameters |
| MultipleAreaLights.SignedDraw | src/8.guest/2022/7.area_lights/2.multiple_area_lights/multiple_area_lights.cpp:121-122 | a draw above one half keeps its sign and the rest are negated, so the sign records the half and the magnitude is the draw |
| MultipleAreaLights.OffsetCoord | src/8.guest/2022/7.area_lights/2.multiple_area_lights/multiple_area_lights.cpp:121-123 | each horizontal offset coordinate lies in [-4, 0] or (4, 8) and has magnitude 8 times the draw |
| MultipleAreaLights.ConfigureLight | src/8.guest/2022/7.area_lights/2.multiple_area_lights/multiple_area_lights.cpp:119-126 | each configured light sits on the floor plane with offsets outside (0, 4], a rotation in [0, 2 pi), colour channels in [0, 1), intensity 4 and two-sided lighting |
| MultipleAreaLights.RotationInRange | src/8.guest/2022/7.area_lights/2.multiple_area_lights/multiple_area_lights.cpp:124 | a draw in [0, 1) times 2 pi is an angle in [0, 2 pi) |
| MultipleAreaLights.ConfigureAreaLights | src/8.guest/2022/7.area_lights/2.multiple_area_lights/multiple_area_lights.cpp:110-128 | exactly `NUM_AREA_LIGHTS` (16) lights are configured, light `i` from the draws of iteration `i`; no light lies in the band (0, 4] on either horizontal axis, and all lie on the floor plane |
| MultipleAreaLights.SetupKeepsStart | src/8.guest/2022/7.area_lights/2.multiple_area_lights/multiple_area_lights.cpp:368-370 | the set-up's zero roughness step leaves the start parameters unchanged |
| MultipleAreaLights.DoMovement | src/8.guest/2022/7.area_lights/2.multiple_area_lights/multiple_area_lights.cpp:472-498 | the camera steps match the single-light demo; R alone changes roughness, within range; intensity, two-sidedness, keys and wireframe mode stay |
| MultipleAreaLights.DoMovementMatchesSingleLight | src/8.guest/2022/7.area_lights/2.multiple_area_lights/multiple_area_lights.cpp:472-498 | this demo's `do_movement` agrees with the single-light one on camera steps and roughness, and on all parameters when I is not held |
| MultipleAreaLights.KeyCallback | src/8.guest/2022/7.area_lights/2.multiple_area_lights/multiple_area_lights.cpp:500-539 | Escape on press asks to close; every other press sets the key, B included; a Space release toggles wireframe and other releases clear the key; the parameters never change |
| MultipleAreaLights.AsWrittenFailsOutsideArray | src/8.guest/2022/7.area_lights/2.multiple_area_lights/multiple_area_lights.cpp:504-538 | the written callback writes outside the array exactly for a key outside it that reaches `keys[key]`, and otherwise agrees with the bounded one |
| MultipleAreaLights.UnknownKeyOverflows | src/8.guest/2022/7.area_lights/2.multiple_area_lights/multiple_area_lights.cpp:520-538 | a release of an unknown key (-1) writes `keys[-1]` |
| MultipleAreaLights.CallbackMatchesSingleLight | src/8.guest/2022/7.area_lights/2.multiple_area_lights/multiple_area_lights.cpp:500-539 | apart from a B press the callback is the single-light demo's; on a B press this demo records the key where the other flips two-sided lighting |
| Debugging.LabelOfSpec | src/7.in_practice/1.debugging/debugging.cpp:28-37 | a `switch` over a table of cases yields a non-empty label exactly for a code the table lists, and then that code's label |
| Debugging.CodeOfLabel | src/7.in_practice/1.debugging/debugging.cpp:28-37 | in a table with distinct codes and distinct non-empty labels, each label leads back to its code |
| Debugging.CodeOfEmpty | src/7.in_practice/1.debugging/debugging.cpp:28-37 | the empty string left by an unmatched `switch` names no code |
| Debugging.LabelRoundTrip | src/7.in_practice/1.debugging/debugging.cpp:28-37 | a listed code's label leads back to it, and an unlisted code gets the empty label, which leads nowhere |
| Debugging.ErrorName | src/7.in_practice/1.debugging/debugging.cpp:28-37 | an error code gets a non-empty name exactly when it is one of the seven GL errors 0x500 to 0x506, and the name identifies the code |
| Debugging.ErrorNamesWellFormed | src/7.in_practice/1.debugging/debugging.cpp:28-37 | the seven error cases have distinct codes and distinct non-empty names |
| Debugging.ErrorNameExamples | src/7.in_practice/1.debugging/debugging.cpp:30-36 | `GL_INVALID_OPERATION` is named INVALID_OPERATION, 0x506 INVALID_FRAMEBUFFER_OPERATION, and `GL_NO_ERROR` or an unknown code get the empty name |
| Debugging.PendingErrors | src/7.in_practice/1.debugging/debugging.cpp:25 | the errors drained are the longest prefix of `glGetError` results free of `GL_NO_ERROR`, which the next result then is |
| Debugging.PendingErrorsUnique | src/7.in_practice/1.debugging/debugging.cpp:25 | any prefix free of `GL_NO_ERROR` that ends at one, or at the end of the results, is the drained one |
| Debugging.CheckError | src/7.in_practice/1.debugging/debugging.cpp:22-41 | `glCheckError_` returns `GL_NO_ERROR`, prints one line per pending error with its name, file and line, in order, and consumes the pending errors and the terminating `GL_NO_ERROR` |
| Debugging.DebugTablesWellFormed | src/7.in_practice/1.debugging/debugging.cpp:57-86 | the source, type and severity cases each have distinct codes and distinct non-empty labels |
| Debugging.DebugOutput | src/7.in_practice/1.debugging/debugging.cpp:44-88 | a message is ignored exactly for the four listed ids; otherwise it is reported with its id and text, and each of the source, type and severity lines is non-empty exactly when the value is one the `switch` lists |
| Debugging.DebugReportDetermines | src/7.in_practice/1.debugging/debugging.cpp:57-86 | every non-empty source, type or severity line names exactly the value that was passed |
| Debugging.SourceLabelKnown | src/7.in_practice/1.debugging/debugging.cpp:57-65 | the source line is non-empty exactly for the six `GL_DEBUG_SOURCE_*` values 0x8246 to 0x824B |
| Debugging.TypeLabelKnown | src/7.in_practice/1.debugging/debugging.cpp:67-78 | the type line is non-empty exactly for the nine `GL_DEBUG_TYPE_*` values, 0x824C to 0x8251 and 0x8268 to 0x826A |
| Debugging.SeverityLabelKnown | src/7.in_practice/1.debugging/debugging.cpp:80-86 | the severity line is non-empty exactly for high, medium, low (0x9146 to 0x9148) and notification (0x826B) |

## Left out

- Drawing and GPU state: every `gl*` call, shader compilation and uniform uploads, `glPolygonMode`, texture generation and `stbi_load`/SOIL image loading. These are external effects; where their results matter they are parameters (`Resources.Env`, the texture loader of `ModelLoading`).
- The compute shader runs as one function per texel. The parallel dispatch is modelled as a map over the texture, and the GPU's scheduling is not modelled.
- IEEE-754 floats are reals. Rounding, infinities and NaN are not modelled, except NaN in `MinMax`, where `fmin`/`fmax` depend on it. `FLT_MAX` and `FLT_MIN` are exact constants.
- Matrix, quaternion, trigonometric and `normalize` functions (GLM's `translate`, `rotate`, `scale`, `slerp`, `mix`, `mat4_cast`, Assimp's transform conversion) are parameters. Their numerical behaviour is not modelled.
- Random floats (`std::uniform_real_distribution`, `rand()`) are a sequence of draws in [0, 1) or of integers, consumed left to right, in the order the calls are written.
- Ssao.Sample: reads the three direction draws left to right. C++ leaves the evaluation order of the arguments of `glm::vec3(r() * 2.0 - 1.0, r() * 2.0 - 1.0, r())` (ssao.cpp:183) unspecified; the ranges of the components do not depend on it, but which draw lands in which component does.
- Ssao.Noise: reads its two draws left to right, although the argument order of the `glm::vec3` constructor at ssao.cpp:198 is unspecified; both components lie in [-1, 1) whatever the order.
- MultipleAreaLights.ConfigureLight: reads the three colour draws left to right. C++ leaves the evaluation order of `glm::vec3(fn(), fn(), fn())` unspecified, and all orders give the same ranges.
- The camera (`camera.h` is not part of this model): the demos' movement functions return the list of `ProcessKeyboard` requests instead of moving a camera.
- `shader.h`, `texture.h` and the Breakout `Shader`/`Texture2D` classes are not part of this model: only the fields the resource manager reads or sets are kept.
- Resources.LoadShaderFromFile: the exception branch that prints "Failed to read shader files" is left out. File reading is a total parameter.
- `ParticleGenerator::Draw` and `init`'s vertex buffer set-up issue only GL calls and are left out.
- `model.h` lines 503 and 506 append the normal and height maps to `textures`, which `Model` never declares. Its only texture vector is `m_textures` (line 340), so the header does not compile as written. The model keeps what reaches `m_textures` at lines 497 and 500: diffuse then specular textures. `DrawBoundingBox` (GL only) is left out.
- GL enum values and GLFW key codes come from the GL and GLFW headers, which are not part of this model. Their standard values are written as constants.
- `glGetError` is modelled as the sequence of values successive calls return.
- irrKlang: the `ik_s32` products of `AudioFormat` are not wrapped to 32 bits. `vec3d` is modelled for integer components only, and its compound assignments, rotations and `getHorizontalAngle` (trigonometry) are left out. The interface classes (`ISound`, `ISoundEngine` and the rest) are abstract and have no logic to model.
- Round.FloorPowerOfTwo: models the unsigned instance of `floorPowerOfTwo`. The signed instance is `Round.FloorPowerOfTwoSigned`, which is faithful for non-negative values and for negated powers of two. For any other negative value it takes `1 << findMSB(v)` on the raw word, while GLM's signed `findMSB` is not part of this model.
- Round.RoundPowerOfTwo: models the unsigned instance only, and `Round.RoundPowerOfTwoSpec` holds below 2^31. The signed instance, with its `abs` test and signed comparisons, is not modelled.
- Round.CeilMultiple: the signed versions (with `Round.FloorMultiple` and `Round.RoundMultiple`) compute on unbounded integers, so where C++ `int` arithmetic overflows (undefined behaviour) the model returns the exact value instead; `Round.CeilMultipleInt32Iff` and `Round.FloorMultipleInt32Iff` state exactly which `int` inputs overflow, and `CeilMultipleSpec`/`FloorMultipleSpec` describe the program only on the others.
- IrrTypes.EqualsFloat: `ik_f32` is `float` (ik_irrKlangTypes.h:48), but the comparison is modelled over reals, so `IrrTypes.EqualsFloatReflexive`, `IrrTypes.EqualsFloatOnIntegers` and the `equals` clause of `Vec3d.EqualityOperators` hold over reals only. In `float`, `32.0f + 0.000001f` rounds back to `32.0f`, so `equalsfloat(32.0f, 32.0f)` is false and `vec3d<int>(32, 0, 0).equals(vec3d<int>(32, 0, 0))` is false as well.
- GlmVec2: the bit operators (`&`, `|`, `^`, `<<`, `>>`, `~`) and the converting constructors are left out. The arithmetic is on unbounded integers, so `int` overflow is not modelled.
- MinMax: the vector overloads of `fmin`/`fmax`/`fclamp` apply the scalar function per component and are covered only through the scalar forms.
- Bones.Interpolate: takes `glm::mix`, `glm::slerp` and the matrix builders as parameters, so its result is stated as a blend of the right two keys rather than as a numeric value.
- Bones.ScaleFactor: returns `None` when two key time stamps are equal, where the source divides by zero in floating point.
- Vec3d.Div: requires every divisor component to be non-zero, and `Vec3d.DivScalarAsWritten` and `Vec3d.DivScalar` require a non-zero scalar. Integer division by zero is undefined behaviour in C++ (ik_vec3d.h:45-50), so the model promises nothing for such divisors.
- GlmVec2.Binary: `/` and `%` require a non-zero divisor in every component. This covers `GlmVec2.Apply`, the scalar and `vec1` forms and the compound assignments, because `int` division by zero is undefined behaviour in C++ (type_vec2.inl:497-699).
- GlmVec2.Index: requires `0 <= i < 2`, the range GLM's `assert` checks (type_vec2.inl:122). Outside it the program stops at the assertion or, with assertions off, reads out of bounds.
- Round.FloorMultiple: `Round.CeilMultiple`, `Round.RoundMultiple` and `Round.IsMultiple` also require a non-zero multiple, because `%` by zero is undefined behaviour (round.inl:84-208). The rounding lemmas require a positive multiple.
- Round.IsPowerOfTwoSignedEven: `Round.CeilPowerOfTwoSignedOdd` also excludes `INT_MIN`. Negating `INT_MIN` overflows, so neither lemma says anything about that value.
- Particles.FirstUnusedParticle: `Particles.FirstUnused`, `Particles.SpawnAll` and `Particles.Update` require `lastUsedParticle` to be at most the pool size. `lastUsedParticle` is one file-scope global (particle_generator.cpp:90) shared by every generator. With two pools of different sizes, a value left by the larger pool would make the loop at line 101 read past the end of the smaller one. The model assumes a single generator, as the game builds.
- Particles.SpawnAll: with `Particles.Update`, requires a non-empty pool whenever there are particles to spawn. With `amount` 0, `firstUnusedParticle` returns 0 and the respawn at particle_generator.cpp:23 writes out of bounds.
- Static locals (`wireframe`, `roughness`, `intensity`, `twoSided`) and globals (`keys`, `lastUsedParticle`, the resource maps) are explicit state passed in and returned.

## Findings

| source | as written | input that shows it | evidently intended | confidence | as-written member | corrected member |
|---|---|---|---|---|---|---|
| includes/glm/gtc/round.inl:84-93 | unsigned `ceilMultiple` computes `Source - 1` first, which wraps for a zero source | `ceilMultiple(0u, 3u)` returns 2 | return 0, the least multiple of 3 at or above 0, as the signed version does | high, not executed | `Round.CeilMultipleUnsigned` (`Round.CeilMultipleUnsignedZeroSource`) | `Round.CeilMultipleUnsignedFixed` (`Round.CeilMultipleUnsignedFixedSpec`) |
| includes/learnopengl/entity.h:348 | `maxAABB` starts at `numeric_limits<float>::min()`, the smallest positive float | a model whose only vertex is (-1, -1, -1) gets the upper corner (`FLT_MIN`, `FLT_MIN`, `FLT_MIN`) | start at `-FLT_MAX` (`lowest()`), so the box is the tightest one around the vertices | high, not executed | `Scene.GenerateAabbAsWritten` (`Scene.GenerateAabbAsWrittenLoose`), used by `Scene.NewEntity` (`Scene.NewEntityLoose`) | `Scene.GenerateAabb` (`Scene.GenerateAabbTight`), used by `Scene.NewEntityFixed` (`Scene.NewEntityFixedTight`) |
| includes/irrKlang/ik_vec3d.h:50 | `operator/(T)` computes `(T)1.0 / v` and multiplies; for an integer `T` that reciprocal is 0 whenever the divisor is not 1 or -1 | `vec3d<int>(10, 20, 30) / 2` gives (0, 0, 0) | divide each component, giving (5, 10, 15) | medium, not executed | `Vec3d.DivScalarAsWritten` (`Vec3d.DivScalarAsWrittenCollapses`) | `Vec3d.DivScalar` (`Vec3d.DivScalarExact`) |
| src/5.advanced_lighting/6.hdr/hdr.cpp:351 | the guard `key <= 1024` admits index 1024 of the 1024-flag arrays `keys` and `keysPressed` (the same in ssao.cpp:476) | pressing or releasing key 1024 writes one past the end | `key < 1024` | high, not executed | `DebouncedKeys.KeyCallbackAsWritten` (`DebouncedKeys.PressKey1024Overflows`, `DebouncedKeys.AsWrittenOverflowsOnlyAt1024`) | `DebouncedKeys.KeyCallback` |
| src/8.guest/2022/7.area_lights/1.area_light/area_lights.cpp:443-466 | `keys[key]` is written with no bound check | a press of `GLFW_KEY_UNKNOWN` (-1) writes `keys[-1]` | skip keys outside `[0, 1024)` | high, not executed | `AreaLight.KeyCallbackAsWritten` (`AreaLight.UnknownKeyOverflows`, `AreaLight.AsWrittenFailsOutsideArray`) | `AreaLight.KeyCallback` |
| src/8.guest/2022/7.area_lights/2.multiple_area_lights/multiple_area_lights.cpp:514-537 | `keys[key]` is written with no bound check | a release of `GLFW_KEY_UNKNOWN` (-1) writes `keys[-1]` | skip keys outside `[0, 1024)` | high, not executed | `MultipleAreaLights.KeyCallbackAsWritten` (`MultipleAreaLights.UnknownKeyOverflows`, `MultipleAreaLights.AsWrittenFailsOutsideArray`) | `MultipleAreaLights.KeyCallback` |

=== FILE: area_lights.dfy ===
/** The input logic of the single area-light demo
    (`src/8.guest/2022/7.area_lights/1.area_light/area_lights.cpp`): the
    clamped roughness and intensity parameters and the two-sided switch,
    each kept in a function-local `static`; `do_movement`, which moves the
    camera and the light and steps the parameters; and `key_callback`, which
    records keys, toggles two-sided lighting on B and wireframe on the
    release of Space.

    The callback indexes `keys[key]` without any bound check, and GLFW
    reports keys it cannot name as `GLFW_KEY_UNKNOWN` (-1).
    `KeyCallbackAsWritten` yields `None` for such an out-of-range access;
    `KeyCallback` skips keys outside the array. Shader uploads and
    `glPolygonMode` are left out; the wireframe flag records the mode. */
module AreaLight {
  import opened Wrappers
  import opened RealMath
  import opened Geometry
  import opened Glfw

  /** `glm::clamp(x, lo, hi)`: `min(max(x, lo), hi)`. */
  function GlmClamp(x: real, lo: real, hi: real): (r: real)
    requires lo <= hi
    ensures lo <= r <= hi
    ensures lo <= x <= hi ==> r == x
    ensures x < lo ==> r == lo
    ensures x > hi ==> r == hi
  {
    Min(Max(x, lo), hi)
  }

  // ---------------------------------------------------------------- Light parameters

  /** The three `static` locals of the parameter helpers. */
  datatype LightParams = LightParams(roughness: real, intensity: real, twoSided: bool)

  /** Their initial values: roughness 0.5, intensity 4, two-sided on. */
  const StartParams: LightParams := LightParams(0.5, 4.0, true)

  predicate InRange(p: LightParams) {
    0.0 <= p.roughness <= 1.0 && 0.0 <= p.intensity <= 10.0
  }

  /** `incrementRoughness(step)`: add, then clamp to [0, 1]. */
  function IncrementRoughness(p: LightParams, step: real): (r: LightParams)
    ensures 0.0 <= r.roughness <= 1.0
    ensures 0.0 <= p.roughness + step <= 1.0 ==> r.roughness == p.roughness + step
    ensures r.intensity == p.intensity && r.twoSided == p.twoSided
  {
    p.(roughness := GlmClamp(p.roughness + step, 0.0, 1.0))
  }

  /** `incrementLightIntensity(step)`: add, then clamp to [0, 10]. */
  function IncrementLightIntensity(p: LightParams, step: real): (r: LightParams)
    ensures 0.0 <= r.intensity <= 10.0
    ensures 0.0 <= p.intensity + step <= 10.0 ==> r.intensity == p.intensity + step
    ensures r.roughness == p.roughness && r.twoSided == p.twoSided
  {
    p.(intensity := GlmClamp(p.intensity + step, 0.0, 10.0))
  }

  /** `switchTwoSided(doSwitch)`: flip only when asked. */
  function SwitchTwoSided(p: LightParams, doSwitch: bool): (r: LightParams)
    ensures r.twoSided <==> (p.twoSided != doSwitch)
    ensures r.roughness == p.roughness && r.intensity == p.intensity
  {
    if doSwitch then p.(twoSided := !p.twoSided) else p
  }

  /** The set-up calls `incrementRoughness(0)`, `incrementLightIntensity(0)`
      and `switchTwoSided(false)` upload the start values unchanged. */
  lemma SetupKeepsStart()
    ensures SwitchTwoSided(IncrementLightIntensity(IncrementRoughness(StartParams, 0.0), 0.0), false) == StartParams
  {
  }

  /** Holding R with Shift for `n` frames: `n` increments. After one frame
      the roughness is in range whatever it started at; from a value in
      range, non-negative steps never lower it. */
  function RaiseRoughness(p: LightParams, step: real, n: nat): (r: LightParams)
    ensures r.intensity == p.intensity && r.twoSided == p.twoSided
    ensures n > 0 ==> 0.0 <= r.roughness <= 1.0
    ensures 0.0 <= p.roughness <= 1.0 && step >= 0.0 ==> p.roughness <= r.roughness <= 1.0
  {
    if n == 0 then p else IncrementRoughness(RaiseRoughness(p, step, n - 1), step)
  }

  /** The sum of `n` equal steps, accumulated one frame at a time. */
  function Total(step: real, n: nat): (t: real)
    ensures step >= 0.0 ==> t >= 0.0
  {
    if n == 0 then 0.0 else Total(step, n - 1) + step
  }

  /** Accumulating `n` steps adds up to `n * step`. */
  lemma {:induction false} TotalIsProduct(step: real, n: nat)
    ensures Total(step, n) == n as real * step
  {
    if n > 0 {
      TotalIsProduct(step, n - 1);
      assert n as real * step == (n - 1) as real * step + step;
    }
  }

  /** Increments that never go negative saturate instead of accumulating
      past the bound: `n` steps from a clamped value are one clamp of the
      total. */
  lemma {:induction false} RaiseRoughnessSaturates(p: LightParams, step: real, n: nat)
    requires 0.0 <= p.roughness <= 1.0 && step >= 0.0
    ensures RaiseRoughness(p, step, n).roughness == Min(p.roughness + n as real * step, 1.0)
  {
    AccumulatedSaturates(p, step, n);
    TotalIsProduct(step, n);
  }

  lemma {:induction false} AccumulatedSaturates(p: LightParams, step: real, n: nat)
    requires 0.0 <= p.roughness <= 1.0 && step >= 0.0
    ensures RaiseRoughness(p, step, n).roughness == Min(p.roughness + Total(step, n), 1.0)
  {
    if n > 0 {
      AccumulatedSaturates(p, step, n - 1);
      SaturatingStep(p.roughness + Total(step, n - 1), step);
    }
  }

  lemma SaturatingStep(x: real, step: real)
    requires x >= 0.0 && step >= 0.0
    ensures GlmClamp(Min(x, 1.0) + step, 0.0, 1.0) == Min(x + step, 1.0)
  {
  }

  // ---------------------------------------------------------------- Movement

  /** The demo's globals apart from the camera. */
  datatype AreaState = AreaState(keys: seq<bool>, params: LightParams, translate: Vec3,
                                 wireframe: int, closeRequested: bool)

  predicate ValidState(s: AreaState) {
    |s.keys| == KeyCount && 0 <= s.wireframe < 0x1_0000
  }

  const InitialState: AreaState := AreaState(AllUp, StartParams, Vec3(0.0, 0.0, 0.0), 0, false)

  /** A `Camera::ProcessKeyboard` call: direction and distance. */
  datatype Step = Step(move: CameraMove, distance: real)

  /** The camera calls of `do_movement`: W before S and A before D, at
      `3 * dt` per frame. */
  function CameraSteps(keys: seq<bool>, dt: real): (ss: seq<Step>)
    requires |keys| == KeyCount
    ensures forall k :: 0 <= k < |ss| ==> ss[k].distance == dt * 3.0
    ensures Step(Forward, dt * 3.0) in ss <==> keys[KeyW]
    ensures Step(Backward, dt * 3.0) in ss <==> keys[KeyS] && !keys[KeyW]
    ensures Step(Left, dt * 3.0) in ss <==> keys[KeyA]
    ensures Step(Right, dt * 3.0) in ss <==> keys[KeyD] && !keys[KeyA]
  {
    var speed := dt * 3.0;
    (if keys[KeyW] then [Step(Forward, speed)] else if keys[KeyS] then [Step(Backward, speed)] else []) +
    (if keys[KeyA] then [Step(Left, speed)] else if keys[KeyD] then [Step(Right, speed)] else [])
  }

  /** The step a parameter key applies: up with Left Shift, down without. */
  function ShiftStep(keys: seq<bool>, amount: real): real
    requires |keys| == KeyCount
  {
    if keys[KeyLeftShift] then amount else -amount
  }

  /** `do_movement(dt)`: camera calls, then R and I step roughness and
      intensity, then the arrow keys move the light by 0.01 per frame. */
  function DoMovement(s: AreaState, dt: real): (r: (AreaState, seq<Step>))
    requires ValidState(s)
    ensures ValidState(r.0) && r.0.keys == s.keys && r.0.wireframe == s.wireframe
    ensures r.1 == CameraSteps(s.keys, dt)
    ensures InRange(s.params) ==> InRange(r.0.params)
    ensures !s.keys[KeyR] ==> r.0.params.roughness == s.params.roughness
    ensures !s.keys[KeyI] ==> r.0.params.intensity == s.params.intensity
    ensures r.0.params.twoSided == s.params.twoSided
    ensures r.0.translate.x == s.translate.x
    ensures r.0.translate.z == s.translate.z + (if s.keys[KeyLeft] then 0.01 else 0.0) - (if s.keys[KeyRight] then 0.01 else 0.0)
    ensures r.0.translate.y == s.translate.y + (if s.keys[KeyUp] then 0.01 else 0.0) - (if s.keys[KeyDown] then 0.01 else 0.0)
  {
    var keys := s.keys;
    var p1 := if keys[KeyR] then IncrementRoughness(s.params, ShiftStep(keys, 0.01)) else s.params;
    var p2 := if keys[KeyI] then IncrementLightIntensity(p1, ShiftStep(keys, 0.025)) else p1;
    var t1 := if keys[KeyLeft] then s.translate.(z := s.translate.z + 0.01) else s.translate;
    var t2 := if keys[KeyRight] then t1.(z := t1.z - 0.01) else t1;
    var t3 := if keys[KeyUp] then t2.(y := t2.y + 0.01) else t2;
    var t4 := if keys[KeyDown] then t3.(y := t3.y - 0.01) else t3;
    (s.(params := p2, translate := t4), CameraSteps(keys, dt))
  }

  // ---------------------------------------------------------------- Key callback

  /** The `switch (wireframe)` on the release of Space: 0 becomes 1, any
      other value 0. */
  function ToggleWireframe(w: int): (r: int)
    ensures r == 0 || r == 1
    ensures r == 1 <==> w == 0
  {
    if w == 0 then 1 else 0
  }

  /** `key_callback` as written: `None` where `keys[key]` lies outside the
      array. */
  function KeyCallbackAsWritten(s: AreaState, key: int, action: int): (r: Option<AreaState>)
    requires ValidState(s)
  {
    if action == Press then
      if key == KeyEscape then Some(s.(closeRequested := true))
      else if key == KeyB then Some(s.(params := SwitchTwoSided(s.params, true)))
      else
        match Set(s.keys, key, true)
        case None => None
        case Some(keys) => Some(s.(keys := keys))
    else if action == Release then
      if key == KeySpace then Some(s.(wireframe := ToggleWireframe(s.wireframe)))
      else
        match Set(s.keys, key, false)
        case None => None
        case Some(keys) => Some(s.(keys := keys))
    else Some(s)
  }

  /** `key_callback` with the missing bound check: a key outside the array
      changes no flag. */
  function KeyCallback(s: AreaState, key: int, action: int): (r: AreaState)
    requires ValidState(s)
    ensures ValidState(r) && r.translate == s.translate
    ensures r.closeRequested <==> s.closeRequested || (action == Press && key == KeyEscape)
    ensures r.params == (if action == Press && key == KeyB then SwitchTwoSided(s.params, true) else s.params)
    ensures r.wireframe == (if action == Release && key == KeySpace then ToggleWireframe(s.wireframe) else s.wireframe)
    ensures action == Press && key != KeyEscape && key != KeyB && InArray(key) ==> r.keys == s.keys[key := true]
    ensures action == Release && key != KeySpace && InArray(key) ==> r.keys == s.keys[key := false]
    ensures (!InArray(key) || (action == Press && (key == KeyEscape || key == KeyB)) ||
             (action == Release && key == KeySpace) || (action != Press && action != Release)) ==>
              r.keys == s.keys
  {
    if action == Press then
      if key == KeyEscape then s.(closeRequested := true)
      else if key == KeyB then s.(params := SwitchTwoSided(s.params, true))
      else if InArray(key) then s.(keys := s.keys[key := true])
      else s
    else if action == Release then
      if key == KeySpace then s.(wireframe := ToggleWireframe(s.wireframe))
      else if InArray(key) then s.(keys := s.keys[key := false])
      else s
    else s
  }

  /** The written callback fails exactly when it indexes outside the array,
      and otherwise agrees with the checked one. */
  lemma AsWrittenFailsOutsideArray(s: AreaState, key: int, action: int)
    requires ValidState(s)
    ensures KeyCallbackAsWritten(s, key, action).None? <==>
              !InArray(key) &&
              ((action == Press && key != KeyEscape && key != KeyB) || (action == Release && key != KeySpace))
    ensures KeyCallbackAsWritten(s, key, action).Some? ==> KeyCallbackAsWritten(s, key, action).value == KeyCallback(s, key, action)
  {
  }

  /** Concretely: an unknown key (-1) pressed in the initial state writes
      `keys[-1]`. */
  lemma UnknownKeyOverflows()
    ensures KeyCallbackAsWritten(InitialState, KeyUnknown, Press).None?
  {
  }

  /** Space is set on press but its release only toggles wireframe, so once
      pressed `keys[SPACE]` stays set; two releases restore the mode. */
  lemma SpaceStaysHeld(s: AreaState)
    requires ValidState(s)
    ensures var pressed := KeyCallback(s, KeySpace, Press);
            var released := KeyCallback(pressed, KeySpace, Release);
            released.keys[KeySpace] && released.wireframe == ToggleWireframe(s.wireframe)
    ensures s.wireframe == 0 || s.wireframe == 1 ==>
              KeyCallback(KeyCallback(s, KeySpace, Release), KeySpace, Release).wireframe == s.wireframe
  {
  }

  /** B never touches the key array; each press flips two-sided lighting. */
  lemma BTogglesTwoSided(s: AreaState)
    requires ValidState(s)
    ensures KeyCallback(s, KeyB, Press).keys == s.keys
    ensures KeyCallback(s, KeyB, Press).params.twoSided == !s.params.twoSided
    ensures KeyCallback(KeyCallback(s, KeyB, Press), KeyB, Press).params == s.params
  {
  }
}

=== FILE: audio_format.dfy ===
/** The size arithmetic of `irrKlang/ik_SAudioStreamFormat.h`: bytes per
    sample, per frame, for the whole stream and per second. */
module AudioFormat {
  import CInt

  /** `ESampleFormat`: unsigned 8-bit or signed 16-bit samples. */
  datatype SampleFormat = U8 | S16

  /** `SAudioStreamFormat`; a `frameCount` of -1 marks a stream of unknown
      length. */
  datatype StreamFormat = StreamFormat(channelCount: int, frameCount: int, sampleRate: int, sampleFormat: SampleFormat)

  /** `getSampleSize`: one byte for `ESF_U8`, two for `ESF_S16`. */
  function SampleSize(f: StreamFormat): (r: int)
    ensures r == 1 <==> f.sampleFormat.U8?
    ensures r == 2 <==> f.sampleFormat.S16?
  {
    if f.sampleFormat.U8? then 1 else 2
  }

  /** `getFrameSize`: one sample per channel. */
  function FrameSize(f: StreamFormat): (r: int)
    ensures f.channelCount > 0 ==> r >= f.channelCount
    ensures f.channelCount >= 0 ==> r <= 2 * f.channelCount
  {
    f.channelCount * SampleSize(f)
  }

  /** `getSampleDataSize`: one frame per frame of the stream; negative for a
      stream of unknown length. */
  function SampleDataSize(f: StreamFormat): (r: int)
    ensures f.frameCount == -1 && f.channelCount > 0 ==> r < 0
  {
    FrameSize(f) * f.frameCount
  }

  /** `getBytesPerSecond`: one frame per sample period. */
  function BytesPerSecond(f: StreamFormat): int {
    FrameSize(f) * f.sampleRate
  }

  /** The data size is a whole number of frames: dividing it by the frame
      size gives the frame count back. */
  lemma SampleDataSizeFrames(f: StreamFormat)
    requires f.channelCount > 0
    ensures SampleDataSize(f) / FrameSize(f) == f.frameCount && SampleDataSize(f) % FrameSize(f) == 0
  {
    var fs := FrameSize(f);
    CInt.EuclidUnique(fs * f.frameCount, fs, f.frameCount, 0);
  }

  /** Likewise a second of sound is a whole number of frames, one per
      sample period. */
  lemma BytesPerSecondFrames(f: StreamFormat)
    requires f.channelCount > 0
    ensures BytesPerSecond(f) / FrameSize(f) == f.sampleRate && BytesPerSecond(f) % FrameSize(f) == 0
  {
    var fs := FrameSize(f);
    CInt.EuclidUnique(fs * f.sampleRate, fs, f.sampleRate, 0);
  }

  /** Stereo 16-bit frames take four bytes, mono 8-bit frames one. */
  lemma CommonFrameSizes(frames: int, rate: int)
    ensures FrameSize(StreamFormat(2, frames, rate, S16)) == 4
    ensures FrameSize(StreamFormat(1, frames, rate, U8)) == 1
    ensures BytesPerSecond(StreamFormat(2, frames, 44100, S16)) == 176400
  {
  }
}

=== FILE: bone.dfy ===
/** The keyframe logic of `learnopengl/bone.h`: a bone copies the position,
    rotation and scaling keys of its animation channel, finds for an
    animation time the key whose successor lies ahead, computes how far
    the time lies between the two keys, and with a single key ignores the
    time altogether.

    `glm::translate`, `glm::scale`, `glm::toMat4`, `glm::slerp` and
    `glm::normalize` on quaternions are taken as function parameters. */
module Bones {
  import opened Geometry
  import opened Wrappers

  /** `glm::quat`. */
  datatype Quat = Quat(w: real, x: real, y: real, z: real)

  /** `KeyPosition`, `KeyRotation`, `KeyScale`: a value and its time stamp. */
  datatype Key<V> = Key(value: V, timeStamp: real)

  /** The three key arrays of an `aiNodeAnim`. */
  datatype NodeAnim = NodeAnim(positionKeys: seq<Key<Vec3>>, rotationKeys: seq<Key<Quat>>, scalingKeys: seq<Key<Vec3>>)

  datatype Bone = Bone(name: string, id: int,
                       positions: seq<Key<Vec3>>, rotations: seq<Key<Quat>>, scales: seq<Key<Vec3>>,
                       numPositions: int, numRotations: int, numScalings: int,
                       localTransform: Mat4)

  /** The counts the constructor stores agree with the arrays it fills. */
  predicate CountsAgree(b: Bone) {
    b.numPositions == |b.positions| && b.numRotations == |b.rotations| && b.numScalings == |b.scales|
  }

  /** The constructor: copy each key array in channel order, record its
      count, start from the identity transform. */
  function NewBone(name: string, id: int, channel: NodeAnim): (b: Bone)
    ensures CountsAgree(b)
    ensures b.positions == channel.positionKeys && b.rotations == channel.rotationKeys && b.scales == channel.scalingKeys
    ensures b.name == name && b.id == id && b.localTransform == Identity
  {
    Bone(name, id, channel.positionKeys, channel.rotationKeys, channel.scalingKeys,
         |channel.positionKeys|, |channel.rotationKeys|, |channel.scalingKeys|, Identity)
  }

  function Times<V>(keys: seq<Key<V>>): (ts: seq<real>)
    ensures |ts| == |keys| && forall i :: 0 <= i < |keys| ==> ts[i] == keys[i].timeStamp
  {
    seq(|keys|, i requires 0 <= i < |keys| => keys[i].timeStamp)
  }

  // ---------------------------------------------------------------- Key search

  /** `i` is the index the search returns: the first one whose successor's
      time stamp lies strictly after `t`. */
  predicate IsKeyIndex(times: seq<real>, t: real, i: nat) {
    i + 1 < |times| && t < times[i + 1] && forall j :: 1 <= j <= i ==> times[j] <= t
  }

  /** The loop of `GetPositionIndex` from `index` on; `None` where it falls
      through to `assert(0)`. */
  function KeyIndexFrom(times: seq<real>, t: real, index: nat): (r: Option<nat>)
    requires forall j :: 1 <= j <= index && j < |times| ==> times[j] <= t
    ensures r.Some? ==> IsKeyIndex(times, t, r.value)
    ensures r.None? <==> forall j :: 1 <= j < |times| ==> times[j] <= t
    decreases |times| - index
  {
    if index >= |times| - 1 then None
    else if t < times[index + 1] then Some(index)
    else KeyIndexFrom(times, t, index + 1)
  }

  /** `GetPositionIndex` / `GetRotationIndex` / `GetScaleIndex` over the
      time stamps of the keys. */
  function KeyIndex(times: seq<real>, t: real): Option<nat> {
    KeyIndexFrom(times, t, 0)
  }

  /** The search finds an index exactly when some later key lies ahead of
      `t`, and then it is the only index with the defining property. */
  lemma KeyIndexSpec(times: seq<real>, t: real, i: nat)
    ensures KeyIndex(times, t) == Some(i) <==> IsKeyIndex(times, t, i)
    ensures KeyIndex(times, t).None? <==> forall j :: 1 <= j < |times| ==> times[j] <= t
  {
  }

  predicate StrictlyIncreasing(times: seq<real>) {
    forall i, j :: 0 <= i < j < |times| ==> times[i] < times[j]
  }

  /** With increasing time stamps and `t` inside the animation, the index
      brackets `t` between its key and the next. */
  lemma KeyIndexBrackets(times: seq<real>, t: real)
    requires StrictlyIncreasing(times) && |times| >= 2
    requires times[0] <= t < times[|times| - 1]
    ensures KeyIndex(times, t).Some?
    ensures var i := KeyIndex(times, t).value; i + 1 < |times| && times[i] <= t < times[i + 1]
  {
    assert !(times[|times| - 1] <= t);
    var i := KeyIndex(times, t).value;
    if i > 0 {
      assert times[i] <= t;
    }
  }

  // ---------------------------------------------------------------- Scale factor

  /** `GetScaleFactor(last, next, t)`; `None` when the two time stamps are
      equal and the float division would yield an infinity or NaN. */
  function ScaleFactor(last: real, next: real, t: real): (f: Option<real>)
    ensures f.Some? <==> next != last
    ensures f.Some? ==> last + f.value * (next - last) == t
  {
    if next == last then None else Some((t - last) / (next - last))
  }

  /** The factor is 0 at the first key, 1 at the second, and between the
      keys it lies in [0, 1). */
  lemma ScaleFactorRange(last: real, next: real, t: real)
    requires last < next
    ensures ScaleFactor(last, next, last) == Some(0.0) && ScaleFactor(last, next, next) == Some(1.0)
    ensures last <= t < next ==> 0.0 <= ScaleFactor(last, next, t).value < 1.0
  {
    var d := next - last;
    assert d / d == 1.0;
    assert ScaleFactor(last, next, next) == Some(1.0);
    if last <= t < next {
      var f := ScaleFactor(last, next, t).value;
      assert f * d == t - last;
      ScaledSign(f, d);
    }
  }

  lemma ScaledSign(f: real, d: real)
    requires d > 0.0
    ensures f < 0.0 ==> f * d < 0.0
    ensures f >= 1.0 ==> f * d >= d
  {
    assert f * d == (f - 1.0) * d + d;
  }

  // ---------------------------------------------------------------- Interpolation

  /** What an `Interpolate*` passes to its GL helper: one key's value, or two
      values and the factor between them. */
  datatype Blend<V> = Exact(value: V) | Between(from: V, to: V, factor: real)

  /** The shared shape of `InterpolatePosition`, `InterpolateRotation` and
      `InterpolateScaling`; `None` where the index search asserts or the
      factor divides by zero. */
  function Interpolate<V>(keys: seq<Key<V>>, t: real): (r: Option<Blend<V>>)
    ensures |keys| == 1 ==> r == Some(Exact(keys[0].value))
    ensures |keys| != 1 && r.Some? ==> r.value.Between?
  {
    if |keys| == 1 then Some(Exact(keys[0].value))
    else
      match KeyIndex(Times(keys), t)
      case None => None
      case Some(i) =>
        match ScaleFactor(keys[i].timeStamp, keys[i + 1].timeStamp, t)
        case None => None
        case Some(f) => Some(Between(keys[i].value, keys[i + 1].value, f))
  }

  /** With two or more keys, a blend is between the bracketing key and its
      successor, and the factor places `t` between their time stamps. */
  lemma InterpolateBetween<V>(keys: seq<Key<V>>, t: real, i: nat)
    requires |keys| != 1 && IsKeyIndex(Times(keys), t, i)
    ensures keys[i].timeStamp != keys[i + 1].timeStamp ==>
      Interpolate(keys, t).Some? && var r := Interpolate(keys, t).value;
      r.Between? && r.from == keys[i].value && r.to == keys[i + 1].value &&
      keys[i].timeStamp + r.factor * (keys[i + 1].timeStamp - keys[i].timeStamp) == t
    ensures keys[i].timeStamp == keys[i + 1].timeStamp ==> Interpolate(keys, t).None?
  {
    KeyIndexSpec(Times(keys), t, i);
  }

  /** The search asserting makes the interpolation fail: with two or more
      keys and `t` at or past every later time stamp there is no pose. */
  lemma InterpolatePastEnd<V>(keys: seq<Key<V>>, t: real)
    requires |keys| != 1 && forall j :: 1 <= j < |keys| ==> keys[j].timeStamp <= t
    ensures Interpolate(keys, t).None?
  {
    KeyIndexSpec(Times(keys), t, 0);
  }

  /** `glm::mix(x, y, a)` on `vec3`: `x * (1 - a) + y * a`. */
  function Mix(x: Vec3, y: Vec3, a: real): Vec3 {
    Add(Scale(x, 1.0 - a), Scale(y, a))
  }

  /** The GLM operations a pose is built with. */
  datatype PoseFns = PoseFns(translate: Vec3 -> Mat4, scale: Vec3 -> Mat4, toMat4: Quat -> Mat4,
                             slerp: (Quat, Quat, real) -> Quat, normalize: Quat -> Quat)

  function InterpolatePosition(b: Bone, t: real, g: PoseFns): Option<Mat4> {
    match Interpolate(b.positions, t)
    case None => None
    case Some(Exact(p)) => Some(g.translate(p))
    case Some(Between(p0, p1, f)) => Some(g.translate(Mix(p0, p1, f)))
  }

  function InterpolateRotation(b: Bone, t: real, g: PoseFns): Option<Mat4> {
    match Interpolate(b.rotations, t)
    case None => None
    case Some(Exact(q)) => Some(g.toMat4(g.normalize(q)))
    case Some(Between(q0, q1, f)) => Some(g.toMat4(g.normalize(g.slerp(q0, q1, f))))
  }

  function InterpolateScaling(b: Bone, t: real, g: PoseFns): Option<Mat4> {
    match Interpolate(b.scales, t)
    case None => None
    case Some(Exact(s)) => Some(g.scale(s))
    case Some(Between(s0, s1, f)) => Some(g.scale(Mix(s0, s1, f)))
  }

  /** `Update(animationTime)`: translation * rotation * scale. */
  function Update(b: Bone, t: real, g: PoseFns): (r: Option<Bone>)
    ensures r.Some? ==> r.value == b.(localTransform := r.value.localTransform)
    ensures r.Some? <==> InterpolatePosition(b, t, g).Some? && InterpolateRotation(b, t, g).Some? && InterpolateScaling(b, t, g).Some?
  {
    match (InterpolatePosition(b, t, g), InterpolateRotation(b, t, g), InterpolateScaling(b, t, g))
    case (Some(tr), Some(ro), Some(sc)) => Some(b.(localTransform := MatMul(MatMul(tr, ro), sc)))
    case _ => None
  }

  /** A bone with one key of each kind has the same pose at every time. */
  lemma UpdateSingleKeys(b: Bone, t1: real, t2: real, g: PoseFns)
    requires |b.positions| == 1 && |b.rotations| == 1 && |b.scales| == 1
    ensures Update(b, t1, g).Some? && Update(b, t1, g) == Update(b, t2, g)
    ensures Update(b, t1, g).value.localTransform ==
      MatMul(MatMul(g.translate(b.positions[0].value), g.toMat4(g.normalize(b.rotations[0].value))), g.scale(b.scales[0].value))
  {
  }
}

=== FILE: c_int.dfy ===
/** Integer arithmetic as C++ performs it: `/` truncates toward zero and `%`
    takes the sign of the dividend (section 7.6 [expr.mul] of ISO C++), while
    Dafny's own `/` and `%` are Euclidean. Also the fixed-width ranges and
    wrap-around of the integer types the modelled code uses. */
module CInt {

  const Two32: int := 0x1_0000_0000
  const Int32Min: int := -0x8000_0000
  const Int32Max: int := 0x7fff_ffff

  predicate IsInt32(x: int) { Int32Min <= x <= Int32Max }
  predicate IsUint32(x: int) { 0 <= x < Two32 }

  function Abs(x: int): nat { if x < 0 then -x else x }

  /** C++ `a / b`, rounding the quotient toward zero. */
  function Div(a: int, b: int): int
    requires b != 0
  {
    if a >= 0 then (if b > 0 then a / b else -(a / -b))
    else (if b > 0 then -((-a) / b) else (-a) / (-b))
  }

  /** C++ `a % b`: the magnitude is `|a| mod |b|`, the sign that of `a`. */
  function Mod(a: int, b: int): int
    requires b != 0
  {
    if a >= 0 then a % Abs(b) else -((-a) % Abs(b))
  }

  /** The identity `(a / b) * b + a % b == a` that C++ guarantees, and the
      bounds of the remainder. */
  lemma DivModSpec(a: int, b: int)
    requires b != 0
    ensures a == b * Div(a, b) + Mod(a, b)
    ensures Abs(Mod(a, b)) < Abs(b)
    ensures a >= 0 ==> Mod(a, b) >= 0
    ensures a < 0 ==> Mod(a, b) <= 0
  {
    if a >= 0 && b < 0 {
      assert b * Div(a, b) == (-b) * (a / -b);
    } else if a < 0 && b > 0 {
      assert -a == b * ((-a) / b) + (-a) % b;
    } else if a < 0 && b < 0 {
      assert -a == (-b) * ((-a) / (-b)) + (-a) % (-b);
    }
  }

  /** For a non-negative dividend and positive divisor C++ and Dafny agree. */
  lemma ModNonNeg(a: int, b: int)
    requires a >= 0 && b > 0
    ensures Mod(a, b) == a % b && Div(a, b) == a / b
  {
  }

  /** Euclidean division is unique: any quotient and in-range remainder that
      rebuild `v` are Dafny's `v / m` and `v % m`. */
  lemma EuclidUnique(v: int, m: int, q: int, r: int)
    requires m > 0 && v == q * m + r && 0 <= r < m
    ensures v / m == q && v % m == r
  {
    var q0, r0 := v / m, v % m;
    assert v == q0 * m + r0;
    if q0 < q {
      assert (q - q0) * m == r0 - r;
      MulAtLeast(q - q0, m);
    } else if q0 > q {
      assert (q0 - q) * m == r - r0;
      MulAtLeast(q0 - q, m);
    }
  }

  lemma MulAtLeast(a: int, m: int)
    requires a >= 1 && m > 0
    ensures a * m >= m
  {
  }

  /** Unsigned 32-bit wrap-around of an integer value. */
  function Wrap32(x: int): (r: nat)
    ensures IsUint32(r)
    ensures IsUint32(x) ==> r == x
    ensures IsUint32(x + Two32) ==> r == x + Two32
  {
    x % Two32
  }

  /** Wrapping an intermediate sum changes nothing once the final sum is wrapped. */
  lemma Wrap32Add(a: int, b: int)
    ensures Wrap32(Wrap32(a) + b) == Wrap32(a + b)
  {
    var q, r := a / Two32, a % Two32;
    var t, w := (a + b) / Two32, (a + b) % Two32;
    assert r + b == (t - q) * Two32 + w;
    EuclidUnique(r + b, Two32, t - q, w);
  }
}

=== FILE: compute_shader.dfy ===
/** The "hello world" compute shader: every invocation computes one RGBA value
    from its global invocation coordinate, the dispatch extent and the time
    uniform `t`, and stores it at its own texel. */
module ComputeShader {
  import opened RealMath

  /** `layout (local_size_x = 10, local_size_y = 10, local_size_z = 1)`. */
  const LocalSizeX: nat := 10
  const LocalSizeY: nat := 10
  /** Horizontal scroll speed and the pattern width. */
  const Speed: real := 100.0
  const Width: real := 1000.0

  datatype Rgba = Rgba(r: real, g: real, b: real, a: real)

  /** `gl_NumWorkGroups.x * gl_WorkGroupSize.x`: the number of invocations
      along x, which is the width of the dispatched grid. */
  function ExtentX(numGroupsX: nat): nat { numGroupsX * LocalSizeX }
  function ExtentY(numGroupsY: nat): nat { numGroupsY * LocalSizeY }

  /** A dispatch has at least one group in each direction, and an invocation
      coordinate lies inside the dispatched grid. */
  predicate ValidInvocation(x: nat, y: nat, numGroupsX: nat, numGroupsY: nat) {
    numGroupsX > 0 && numGroupsY > 0 && x < ExtentX(numGroupsX) && y < ExtentY(numGroupsY)
  }

  function RedNumerator(x: nat, t: real): real {
    GlslMod(x as real + t * Speed, Width)
  }

  /** The body of `main`: the value one invocation stores. */
  function Kernel(x: nat, y: nat, numGroupsX: nat, numGroupsY: nat, t: real): (value: Rgba)
    requires ValidInvocation(x, y, numGroupsX, numGroupsY)
    ensures value.b == 0.0 && value.a == 1.0
    ensures 0.0 <= value.r && value.r * ExtentX(numGroupsX) as real < Width
    ensures 0.0 <= value.g < 1.0
  {
    GlslModRange(x as real + t * Speed, Width);
    var ex := ExtentX(numGroupsX) as real;
    var ey := ExtentY(numGroupsY) as real;
    var red := RedNumerator(x, t) / ex;
    var green := y as real / ey;
    assert red * ex == RedNumerator(x, t);
    Rgba(red, green, 0.0, 1.0)
  }

  /** Green grows with the row: it is 0 on row 0 and strictly increasing in y. */
  lemma GreenMonotone(x: nat, y1: nat, y2: nat, ngx: nat, ngy: nat, t: real)
    requires ValidInvocation(x, y1, ngx, ngy) && ValidInvocation(x, y2, ngx, ngy)
    ensures y1 == 0 ==> Kernel(x, y1, ngx, ngy, t).g == 0.0
    ensures y1 < y2 ==> Kernel(x, y1, ngx, ngy, t).g < Kernel(x, y2, ngx, ngy, t).g
  {
    var ey := ExtentY(ngy) as real;
    if y1 < y2 {
      assert y1 as real / ey < y2 as real / ey;
    }
  }

  /** Red is periodic in time with period `Width / Speed = 10`. */
  lemma RedPeriodic(x: nat, y: nat, ngx: nat, ngy: nat, t: real)
    requires ValidInvocation(x, y, ngx, ngy)
    ensures Kernel(x, y, ngx, ngy, t + 10.0).r == Kernel(x, y, ngx, ngy, t).r
  {
    assert x as real + (t + 10.0) * Speed == (x as real + t * Speed) + Width * (1 as real);
    GlslModPeriodic(x as real + t * Speed, Width, 1);
  }

  /** Red does not depend on the row; green depends on neither column nor time. */
  lemma ChannelIndependence(x1: nat, x2: nat, y1: nat, y2: nat, ngx: nat, ngy: nat, t1: real, t2: real)
    requires ValidInvocation(x1, y1, ngx, ngy) && ValidInvocation(x1, y2, ngx, ngy)
    requires ValidInvocation(x2, y1, ngx, ngy)
    ensures Kernel(x1, y1, ngx, ngy, t1).r == Kernel(x1, y2, ngx, ngy, t1).r
    ensures Kernel(x1, y1, ngx, ngy, t1).g == Kernel(x2, y1, ngx, ngy, t2).g
  {
  }

  /** On a 1000 x 1000 texture at t = 0, texel (500, 250) gets (0.5, 0.25, 0, 1);
      at t = 9 texel (500, 0) has red 0.4. */
  lemma KernelExamples()
    ensures Kernel(500, 250, 100, 100, 0.0) == Rgba(0.5, 0.25, 0.0, 1.0)
    ensures Kernel(500, 0, 100, 100, 9.0).r == 0.4
  {
    GlslModSmall(500.0, Width);
    assert 500.0 + 9.0 * Speed == 400.0 + Width * (1 as real);
    GlslModPeriodic(400.0, Width, 1);
    GlslModSmall(400.0, Width);
  }

  /** The output image, row-major: `image[y][x]`. */
  type Image = seq<seq<Rgba>>

  predicate HasShape(image: Image, width: nat, height: nat) {
    |image| == height && forall y :: 0 <= y < height ==> |image[y]| == width
  }

  /** `imageStore(imgOutput, texelCoord, value)`: one texel is written and
      every other texel keeps its value. */
  function ImageStore(image: Image, x: nat, y: nat, value: Rgba): (out: Image)
    requires y < |image| && x < |image[y]|
    ensures |out| == |image|
    ensures forall j :: 0 <= j < |out| ==> |out[j]| == |image[j]|
    ensures out[y][x] == value
    ensures forall j, i :: 0 <= j < |out| && 0 <= i < |out[j]| && (j, i) != (y, x) ==>
      out[j][i] == image[j][i]
  {
    image[y := image[y][x := value]]
  }

  /** Stores at distinct texels commute, so the order in which the invocations
      of a dispatch run does not affect the final image. */
  lemma StoresCommute(image: Image, x1: nat, y1: nat, v1: Rgba, x2: nat, y2: nat, v2: Rgba)
    requires y1 < |image| && x1 < |image[y1]|
    requires y2 < |image| && x2 < |image[y2]|
    requires (x1, y1) != (x2, y2)
    ensures ImageStore(ImageStore(image, x1, y1, v1), x2, y2, v2)
         == ImageStore(ImageStore(image, x2, y2, v2), x1, y1, v1)
  {
    var a := ImageStore(ImageStore(image, x1, y1, v1), x2, y2, v2);
    var b := ImageStore(ImageStore(image, x2, y2, v2), x1, y1, v1);
    assert |a| == |b|;
    forall j | 0 <= j < |a|
      ensures a[j] == b[j]
    {
      assert |a[j]| == |b[j]|;
      forall i | 0 <= i < |a[j]|
        ensures a[j][i] == b[j][i]
      {
      }
    }
  }

  /** The dispatch `glDispatchCompute(numGroupsX, numGroupsY, 1)` run one
      invocation at a time, row by row, over an image of exactly the
      dispatched size: afterwards every texel holds the kernel's value for
      its own coordinate. */
  method Dispatch(image: Image, numGroupsX: nat, numGroupsY: nat, t: real) returns (out: Image)
    requires numGroupsX > 0 && numGroupsY > 0
    requires HasShape(image, ExtentX(numGroupsX), ExtentY(numGroupsY))
    ensures HasShape(out, ExtentX(numGroupsX), ExtentY(numGroupsY))
    ensures forall y, x :: 0 <= y < ExtentY(numGroupsY) && 0 <= x < ExtentX(numGroupsX) ==>
      out[y][x] == Kernel(x, y, numGroupsX, numGroupsY, t)
  {
    var w := ExtentX(numGroupsX);
    var h := ExtentY(numGroupsY);
    out := image;
    var y := 0;
    while y < h
      invariant 0 <= y <= h
      invariant HasShape(out, w, h)
      invariant forall j, i :: 0 <= j < y && 0 <= i < w ==>
        out[j][i] == Kernel(i, j, numGroupsX, numGroupsY, t)
    {
      var x := 0;
      while x < w
        invariant 0 <= x <= w
        invariant HasShape(out, w, h)
        invariant forall j, i :: 0 <= j < y && 0 <= i < w ==>
          out[j][i] == Kernel(i, j, numGroupsX, numGroupsY, t)
        invariant forall i :: 0 <= i < x ==> out[y][i] == Kernel(i, y, numGroupsX, numGroupsY, t)
      {
        out := ImageStore(out, x, y, Kernel(x, y, numGroupsX, numGroupsY, t));
        x := x + 1;
      }
      y := y + 1;
    }
  }
}

=== FILE: debounced_keys.dfy ===
/** The `key_callback` shared by the HDR and SSAO demos
    (`src/5.advanced_lighting/6.hdr/hdr.cpp` and
    `src/5.advanced_lighting/9.ssao/ssao.cpp`): Escape asks the window to
    close, and a key inside the guard is recorded in `keys` on a press and
    cleared from both `keys` and `keysPressed` on a release.

    Both demos guard with `key <= 1024` against arrays of 1024 flags, so key
    1024 writes one past the end. `KeyCallbackAsWritten` keeps that guard and
    yields `None` for the out-of-range write; `KeyCallback` uses the bound the
    arrays have, and is the one the demos' models use. */
module DebouncedKeys {
  import opened Wrappers
  import opened Glfw

  /** The demos' input globals: `keys`, `keysPressed` and whether
      `glfwSetWindowShouldClose` has been called. */
  datatype Input = Input(keys: seq<bool>, keysPressed: seq<bool>, closeRequested: bool)

  predicate Valid(s: Input) {
    |s.keys| == KeyCount && |s.keysPressed| == KeyCount
  }

  /** Program start: every flag false, no close requested. */
  const Initial: Input := Input(AllUp, AllUp, false)

  /** The camera calls of `Do_Movement` in both demos, in the order it makes
      them; the four tests are independent, so opposite keys both move. */
  function Moves(keys: seq<bool>): (ms: seq<CameraMove>)
    requires |keys| == KeyCount
    ensures Forward in ms <==> keys[KeyW]
    ensures Backward in ms <==> keys[KeyS]
    ensures Left in ms <==> keys[KeyA]
    ensures Right in ms <==> keys[KeyD]
    ensures |ms| <= 4
  {
    (if keys[KeyW] then [Forward] else []) +
    (if keys[KeyS] then [Backward] else []) +
    (if keys[KeyA] then [Left] else []) +
    (if keys[KeyD] then [Right] else [])
  }

  /** The Escape test that precedes the key-array update. */
  function CloseOnEscape(s: Input, key: int, action: int): Input {
    if key == KeyEscape && action == Press then s.(closeRequested := true) else s
  }

  /** `key_callback` as written, with the guard `key >= 0 && key <= 1024`;
      `None` where it writes outside the arrays. */
  function KeyCallbackAsWritten(s: Input, key: int, action: int): (r: Option<Input>)
    requires Valid(s)
  {
    var s1 := CloseOnEscape(s, key, action);
    if key >= 0 && key <= 1024 then
      if action == Press then
        match Set(s1.keys, key, true)
        case None => None
        case Some(keys) => Some(s1.(keys := keys))
      else if action == Release then
        match (Set(s1.keys, key, false), Set(s1.keysPressed, key, false))
        case (Some(keys), Some(pressed)) => Some(s1.(keys := keys, keysPressed := pressed))
        case _ => None
      else Some(s1)
    else Some(s1)
  }

  /** `key_callback` with the guard `0 <= key < 1024` that the arrays
      allow. A press sets `keys[key]`; a release clears `keys[key]` and
      `keysPressed[key]`; nothing else changes. */
  function KeyCallback(s: Input, key: int, action: int): (r: Input)
    requires Valid(s)
    ensures Valid(r)
    ensures r.closeRequested <==> s.closeRequested || (key == KeyEscape && action == Press)
    ensures InArray(key) && action == Press ==>
              r.keys == s.keys[key := true] && r.keysPressed == s.keysPressed
    ensures InArray(key) && action == Release ==>
              r.keys == s.keys[key := false] && r.keysPressed == s.keysPressed[key := false]
    ensures !InArray(key) || (action != Press && action != Release) ==>
              r.keys == s.keys && r.keysPressed == s.keysPressed
  {
    var s1 := CloseOnEscape(s, key, action);
    if InArray(key) then
      if action == Press then s1.(keys := s1.keys[key := true])
      else if action == Release then s1.(keys := s1.keys[key := false], keysPressed := s1.keysPressed[key := false])
      else s1
    else s1
  }

  /** The written guard goes wrong exactly for key 1024 pressed or released,
      and for every other event it agrees with the corrected callback. */
  lemma AsWrittenOverflowsOnlyAt1024(s: Input, key: int, action: int)
    requires Valid(s)
    ensures KeyCallbackAsWritten(s, key, action).None? <==> key == 1024 && (action == Press || action == Release)
    ensures KeyCallbackAsWritten(s, key, action).Some? ==> KeyCallbackAsWritten(s, key, action).value == KeyCallback(s, key, action)
  {
  }

  /** Concretely: pressing key 1024 from the initial state writes `keys[1024]`. */
  lemma PressKey1024Overflows()
    ensures KeyCallbackAsWritten(Initial, 1024, Press).None?
  {
  }

  /** A press followed by the release of the same key leaves both flags of
      that key false, whatever they were before. */
  lemma PressThenRelease(s: Input, key: int)
    requires Valid(s) && InArray(key)
    ensures var r := KeyCallback(KeyCallback(s, key, Press), key, Release);
            !r.keys[key] && !r.keysPressed[key] &&
            forall k :: 0 <= k < KeyCount && k != key ==> r.keys[k] == s.keys[k] && r.keysPressed[k] == s.keysPressed[k]
  {
  }
}

=== FILE: debugging.dfy ===
/** The error-reporting helpers of the debugging demo
    (`src/7.in_practice/1.debugging/debugging.cpp`): `glCheckError_`, which
    drains the GL error queue and reports each error by name, and
    `glDebugOutput`, which filters debug messages by id and labels their
    source, type and severity.

    Each `switch` is a table of (code, label) pairs; a code missing from the
    table gets the empty label, as the `switch` without a default leaves the
    string empty or prints nothing. The enum values are those of the
    OpenGL 4.3 core profile headers, which are not part of this model. The
    successive results of `glGetError` are a parameter, and the printed
    lines are returned as values. */
module Debugging {
  import opened Wrappers

  // ---------------------------------------------------------------- Label tables

  /** A `switch` from enum values to the text printed for them. */
  type Table = seq<(int, string)>

  /** Codes are distinct, labels are distinct and none is empty, so a
      label names exactly one code. */
  predicate WellFormed(t: Table) {
    (forall i :: 0 <= i < |t| ==> t[i].1 != "") &&
    (forall i, j :: 0 <= i < j < |t| ==> t[i].0 != t[j].0 && t[i].1 != t[j].1)
  }

  /** Whether the `switch` has a case for `code`. */
  predicate HasCode(t: Table, code: int) {
    exists k :: 0 <= k < |t| && t[k].0 == code
  }

  /** The text the `switch` produces for `code`: its case's label, or the
      empty string when no case matches. */
  function LabelOf(t: Table, code: int): string {
    if |t| == 0 then "" else if t[0].0 == code then t[0].1 else LabelOf(t[1..], code)
  }

  /** The code a label was printed for, if any case prints it. */
  function CodeOf(t: Table, text: string): Option<int> {
    if |t| == 0 then None else if t[0].1 == text then Some(t[0].0) else CodeOf(t[1..], text)
  }

  /** A well-formed table gives a non-empty label exactly to its codes, and
      each code the label of its own case. */
  lemma {:induction false} LabelOfSpec(t: Table, code: int)
    requires WellFormed(t)
    ensures LabelOf(t, code) != "" <==> HasCode(t, code)
    ensures forall k :: 0 <= k < |t| && t[k].0 == code ==> LabelOf(t, code) == t[k].1
  {
    if |t| > 0 {
      var rest := t[1..];
      assert WellFormed(rest) by {
        forall i, j | 0 <= i < j < |rest| ensures rest[i].0 != rest[j].0 && rest[i].1 != rest[j].1 {
          assert rest[i] == t[i + 1] && rest[j] == t[j + 1];
        }
      }
      LabelOfSpec(rest, code);
      if t[0].0 != code {
        assert HasCode(t, code) ==> HasCode(rest, code) by {
          if HasCode(t, code) {
            var k :| 0 <= k < |t| && t[k].0 == code;
            assert rest[k - 1] == t[k];
          }
        }
        assert HasCode(rest, code) ==> HasCode(t, code) by {
          if HasCode(rest, code) {
            var k :| 0 <= k < |rest| && rest[k].0 == code;
            assert t[k + 1] == rest[k];
          }
        }
        forall k | 0 <= k < |t| && t[k].0 == code ensures LabelOf(t, code) == t[k].1 {
          assert rest[k - 1] == t[k];
        }
      }
    }
  }

  /** A well-formed table finds the code back from any label it printed. */
  lemma {:induction false} CodeOfLabel(t: Table, k: int)
    requires WellFormed(t) && 0 <= k < |t|
    ensures CodeOf(t, t[k].1) == Some(t[k].0)
  {
    if k > 0 {
      var rest := t[1..];
      assert WellFormed(rest) by {
        forall i, j | 0 <= i < j < |rest| ensures rest[i].0 != rest[j].0 && rest[i].1 != rest[j].1 {
          assert rest[i] == t[i + 1] && rest[j] == t[j + 1];
        }
      }
      assert rest[k - 1] == t[k];
      CodeOfLabel(rest, k - 1);
    }
  }

  /** The empty label, printed for unknown codes, names no code. */
  lemma {:induction false} CodeOfEmpty(t: Table)
    requires WellFormed(t)
    ensures CodeOf(t, "") == None
  {
    if |t| > 0 {
      var rest := t[1..];
      assert WellFormed(rest) by {
        forall i, j | 0 <= i < j < |rest| ensures rest[i].0 != rest[j].0 && rest[i].1 != rest[j].1 {
          assert rest[i] == t[i + 1] && rest[j] == t[j + 1];
        }
      }
      CodeOfEmpty(rest);
    }
  }

  /** The label determines the code: reading it back gives the code for a
      known code and nothing for an unknown one. */
  lemma LabelRoundTrip(t: Table, code: int)
    requires WellFormed(t)
    ensures HasCode(t, code) ==> CodeOf(t, LabelOf(t, code)) == Some(code)
    ensures !HasCode(t, code) ==> LabelOf(t, code) == "" && CodeOf(t, LabelOf(t, code)) == None
  {
    LabelOfSpec(t, code);
    if HasCode(t, code) {
      var k :| 0 <= k < |t| && t[k].0 == code;
      CodeOfLabel(t, k);
    } else {
      CodeOfEmpty(t);
    }
  }

  // ---------------------------------------------------------------- glCheckError_

  const NoError: int := 0
  const InvalidEnum: int := 0x0500
  const InvalidValue: int := 0x0501
  const InvalidOperation: int := 0x0502
  const StackOverflow: int := 0x0503
  const StackUnderflow: int := 0x0504
  const OutOfMemory: int := 0x0505
  const InvalidFramebufferOperation: int := 0x0506

  /** The `switch (errorCode)` of `glCheckError_`. */
  const ErrorNames: Table := [
    (InvalidEnum, "INVALID_ENUM"),
    (InvalidValue, "INVALID_VALUE"),
    (InvalidOperation, "INVALID_OPERATION"),
    (StackOverflow, "STACK_OVERFLOW"),
    (StackUnderflow, "STACK_UNDERFLOW"),
    (OutOfMemory, "OUT_OF_MEMORY"),
    (InvalidFramebufferOperation, "INVALID_FRAMEBUFFER_OPERATION")
  ]

  /** The seven error codes are the consecutive values 0x0500 to 0x0506. */
  predicate KnownError(code: int) { InvalidEnum <= code <= InvalidFramebufferOperation }

  /** The name `glCheckError_` prints for an error code. */
  function ErrorName(code: int): (name: string)
    ensures name != "" <==> KnownError(code)
    ensures KnownError(code) ==> CodeOf(ErrorNames, name) == Some(code)
  {
    ErrorNamesWellFormed();
    LabelOfSpec(ErrorNames, code);
    assert HasCode(ErrorNames, code) <==> KnownError(code) by {
      if KnownError(code) {
        assert ErrorNames[code - InvalidEnum].0 == code;
      }
    }
    LabelRoundTrip(ErrorNames, code);
    LabelOf(ErrorNames, code)
  }

  lemma ErrorNamesWellFormed()
    ensures WellFormed(ErrorNames)
  {
  }

  /** The names match the GL enumerator names without the `GL_` prefix. */
  lemma ErrorNameExamples()
    ensures ErrorName(InvalidOperation) == "INVALID_OPERATION"
    ensures ErrorName(InvalidFramebufferOperation) == "INVALID_FRAMEBUFFER_OPERATION"
    ensures ErrorName(NoError) == "" && ErrorName(0x0507) == ""
  {
    ErrorNamesWellFormed();
    LabelOfSpec(ErrorNames, InvalidOperation);
    LabelOfSpec(ErrorNames, InvalidFramebufferOperation);
    assert ErrorNames[2].0 == InvalidOperation && ErrorNames[6].0 == InvalidFramebufferOperation;
  }

  /** `glGetError`: the next flagged error, or `GL_NO_ERROR` once none is
      left. */
  function GetError(q: seq<int>): (int, seq<int>) {
    if |q| == 0 then (NoError, []) else (q[0], q[1..])
  }

  /** The errors `glCheckError_` reports: the results of `glGetError` up to
      the first `GL_NO_ERROR`. */
  function PendingErrors(q: seq<int>): (p: seq<int>)
    ensures |p| <= |q| && p == q[..|p|]
    ensures forall k :: 0 <= k < |p| ==> p[k] != NoError
    ensures |p| < |q| ==> q[|p|] == NoError
  {
    if |q| == 0 || q[0] == NoError then [] else [q[0]] + PendingErrors(q[1..])
  }

  /** The pending errors are the one prefix free of `GL_NO_ERROR` that ends
      at one or at the end of the results. */
  lemma {:induction false} PendingErrorsUnique(q: seq<int>, n: nat)
    requires n <= |q| && (n == |q| || q[n] == NoError)
    requires forall k :: 0 <= k < n ==> q[k] != NoError
    ensures PendingErrors(q) == q[..n]
  {
    if n > 0 {
      assert q[0] != NoError;
      assert forall k :: 0 <= k < n - 1 ==> q[1..][k] == q[k + 1];
      PendingErrorsUnique(q[1..], n - 1);
      assert q[..n] == [q[0]] + q[1..][..n - 1];
    }
  }

  /** One line `error | file (line)`. */
  datatype ErrorReport = ErrorReport(name: string, file: string, line: int)

  /** `glCheckError_(file, line)` given the results `glGetError` would
      return: one report per pending error in order, the return value, and
      the results not yet consumed. */
  method CheckError(queue: seq<int>, file: string, line: int) returns (code: int, reports: seq<ErrorReport>, rest: seq<int>)
    ensures code == NoError
    ensures |reports| == |PendingErrors(queue)|
    ensures forall k :: 0 <= k < |reports| ==> reports[k] == ErrorReport(ErrorName(PendingErrors(queue)[k]), file, line)
    ensures rest == if |PendingErrors(queue)| < |queue| then queue[|PendingErrors(queue)| + 1..] else []
  {
    reports := [];
    var i := 0;
    var next := GetError(queue);
    code, rest := next.0, next.1;
    while code != NoError
      invariant 0 <= i <= |queue|
      invariant code == (if i < |queue| then queue[i] else NoError)
      invariant rest == (if i < |queue| then queue[i + 1..] else [])
      invariant forall k :: 0 <= k < i ==> queue[k] != NoError
      invariant |reports| == i
      invariant forall k :: 0 <= k < i ==> reports[k] == ErrorReport(ErrorName(queue[k]), file, line)
      decreases |queue| - i
    {
      reports := reports + [ErrorReport(ErrorName(code), file, line)];
      i := i + 1;
      next := GetError(rest);
      code, rest := next.0, next.1;
    }
    PendingErrorsUnique(queue, i);
  }

  // ---------------------------------------------------------------- glDebugOutput

  /** The ids `glDebugOutput` ignores as insignificant. */
  const IgnoredIds: set<int> := {131169, 131185, 131218, 131204}

  const SourceLabels: Table := [
    (0x8246, "Source: API"),
    (0x8247, "Source: Window System"),
    (0x8248, "Source: Shader Compiler"),
    (0x8249, "Source: Third Party"),
    (0x824A, "Source: Application"),
    (0x824B, "Source: Other")
  ]

  const TypeLabels: Table := [
    (0x824C, "Type: Error"),
    (0x824D, "Type: Deprecated Behaviour"),
    (0x824E, "Type: Undefined Behaviour"),
    (0x824F, "Type: Portability"),
    (0x8250, "Type: Performance"),
    (0x8268, "Type: Marker"),
    (0x8269, "Type: Push Group"),
    (0x826A, "Type: Pop Group"),
    (0x8251, "Type: Other")
  ]

  const SeverityLabels: Table := [
    (0x9146, "Severity: high"),
    (0x9147, "Severity: medium"),
    (0x9148, "Severity: low"),
    (0x826B, "Severity: notification")
  ]

  lemma DebugTablesWellFormed()
    ensures WellFormed(SourceLabels) && WellFormed(TypeLabels) && WellFormed(SeverityLabels)
  {
  }

  /** The block `glDebugOutput` prints: the id and message, then one line
      each for source, type and severity, empty where the value is not one
      of the enumerated ones. */
  datatype DebugReport = DebugReport(id: int, message: string, source: string, kind: string, severity: string)

  /** `glDebugOutput`: nothing for an ignored id, otherwise the report. */
  function DebugOutput(source: int, kind: int, id: int, severity: int, message: string): (r: Option<DebugReport>)
    ensures r.None? <==> id in IgnoredIds
    ensures r.Some? ==> r.value.id == id && r.value.message == message
    ensures r.Some? ==> (r.value.source != "" <==> 0x8246 <= source <= 0x824B)
    ensures r.Some? ==> (r.value.severity != "" <==> (0x9146 <= severity <= 0x9148 || severity == 0x826B))
    ensures r.Some? ==> (r.value.kind != "" <==> (0x824C <= kind <= 0x8251 || 0x8268 <= kind <= 0x826A))
  {
    SourceLabelKnown(source);
    TypeLabelKnown(kind);
    SeverityLabelKnown(severity);
    if id in IgnoredIds then None
    else Some(DebugReport(id, message, LabelOf(SourceLabels, source), LabelOf(TypeLabels, kind), LabelOf(SeverityLabels, severity)))
  }

  /** A printed report determines the source, type and severity whenever
      their lines are not empty. */
  lemma DebugReportDetermines(source: int, kind: int, id: int, severity: int, message: string)
    requires id !in IgnoredIds
    ensures var r := DebugOutput(source, kind, id, severity, message).value;
            (r.source != "" ==> CodeOf(SourceLabels, r.source) == Some(source)) &&
            (r.kind != "" ==> CodeOf(TypeLabels, r.kind) == Some(kind)) &&
            (r.severity != "" ==> CodeOf(SeverityLabels, r.severity) == Some(severity))
  {
    DebugTablesWellFormed();
    LabelOfSpec(SourceLabels, source);
    LabelOfSpec(TypeLabels, kind);
    LabelOfSpec(SeverityLabels, severity);
    LabelRoundTrip(SourceLabels, source);
    LabelRoundTrip(TypeLabels, kind);
    LabelRoundTrip(SeverityLabels, severity);
  }

  lemma SourceLabelKnown(source: int)
    ensures LabelOf(SourceLabels, source) != "" <==> 0x8246 <= source <= 0x824B
  {
    DebugTablesWellFormed();
    LabelOfSpec(SourceLabels, source);
    if 0x8246 <= source <= 0x824B {
      assert SourceLabels[source - 0x8246].0 == source;
    }
  }

  lemma TypeLabelKnown(kind: int)
    ensures LabelOf(TypeLabels, kind) != "" <==> (0x824C <= kind <= 0x8251 || 0x8268 <= kind <= 0x826A)
  {
    DebugTablesWellFormed();
    LabelOfSpec(TypeLabels, kind);
    if 0x824C <= kind <= 0x8250 {
      assert TypeLabels[kind - 0x824C].0 == kind;
    } else if kind == 0x8251 {
      assert TypeLabels[8].0 == kind;
    } else if 0x8268 <= kind <= 0x826A {
      assert TypeLabels[kind - 0x8268 + 5].0 == kind;
    }
  }

  lemma SeverityLabelKnown(severity: int)
    ensures LabelOf(SeverityLabels, severity) != "" <==> (0x9146 <= severity <= 0x9148 || severity == 0x826B)
  {
    DebugTablesWellFormed();
    LabelOfSpec(SeverityLabels, severity);
    if 0x9146 <= severity <= 0x9148 {
      assert SeverityLabels[severity - 0x9146].0 == severity;
    } else if severity == 0x826B {
      assert SeverityLabels[3].0 == severity;
    }
  }
}

=== FILE: engine_options.dfy ===
/** The start-up option bits of `irrKlang/ik_ESoundEngineOptions.h`. */
module EngineOptions {

  const MultiThreaded: bv32 := 0x01
  const MuteIfNotFocused: bv32 := 0x02
  const LoadPlugins: bv32 := 0x04
  const Use3DBuffers: bv32 := 0x08
  const PrintDebugInfoToDebugger: bv32 := 0x10
  const PrintDebugInfoToStdout: bv32 := 0x20
  const LinearRolloff: bv32 := 0x40

  /** `ESEO_DEFAULT_OPTIONS`, as the enumeration defines it. */
  const DefaultOptions: bv32 := MultiThreaded | LoadPlugins | Use3DBuffers | PrintDebugInfoToDebugger | PrintDebugInfoToStdout

  /** The seven options in declaration order. */
  const AllOptions: seq<bv32> := [MultiThreaded, MuteIfNotFocused, LoadPlugins, Use3DBuffers,
                                  PrintDebugInfoToDebugger, PrintDebugInfoToStdout, LinearRolloff]

  /** The combination the header's documentation lists as the default. */
  const DocumentedDefault: seq<bv32> := [MultiThreaded, LoadPlugins, Use3DBuffers,
                                         PrintDebugInfoToDebugger, PrintDebugInfoToStdout]

  predicate SingleBit(v: bv32) { v != 0 && v & (v - 1) == 0 }

  /** Whether `options` switches `flag` on. */
  predicate Has(options: bv32, flag: bv32) { options & flag == flag }

  /** The OR of a list of flags, in list order. */
  function Combine(flags: seq<bv32>): bv32 {
    if |flags| == 0 then 0 else Combine(flags[..|flags| - 1]) | flags[|flags| - 1]
  }

  // Bit-vector helpers for `CombineHas` and `CombineLeast`.

  lemma OrHolds(a: bv32, b: bv32)
    ensures Has(a | b, a) && Has(a | b, b)
  {
  }

  lemma OrLeast(a: bv32, b: bv32, x: bv32)
    requires Has(x, a) && Has(x, b)
    ensures Has(x, a | b)
  {
  }

  lemma HasTransitive(a: bv32, b: bv32, c: bv32)
    ensures Has(a, b) && Has(b, c) ==> Has(a, c)
  {
  }

  /** The OR holds every flag of the list. */
  lemma {:induction false} CombineHas(flags: seq<bv32>, i: nat)
    requires i < |flags|
    ensures Has(Combine(flags), flags[i])
  {
    var init, last := flags[..|flags| - 1], flags[|flags| - 1];
    OrHolds(Combine(init), last);
    if i < |init| {
      CombineHas(init, i);
      HasTransitive(Combine(flags), Combine(init), flags[i]);
    }
  }

  /** Any value holding every flag of the list holds their OR: the OR is
      the least such value. */
  lemma {:induction false} CombineLeast(flags: seq<bv32>, x: bv32)
    requires forall i :: 0 <= i < |flags| ==> Has(x, flags[i])
    ensures Has(x, Combine(flags))
  {
    if |flags| > 0 {
      var init, last := flags[..|flags| - 1], flags[|flags| - 1];
      assert forall i :: 0 <= i < |init| ==> init[i] == flags[i];
      CombineLeast(init, x);
      OrLeast(Combine(init), last, x);
    }
  }

  /** Each option is one bit, and no two options share it. */
  lemma OptionsAreDistinctBits()
    ensures forall i :: 0 <= i < |AllOptions| ==> SingleBit(AllOptions[i])
    ensures forall i, j :: 0 <= i < j < |AllOptions| ==> AllOptions[i] & AllOptions[j] == 0
  {
  }

  /** The default is 0x3D; it switches on the five documented options and
      leaves muting and linear roll-off off. */
  lemma DefaultOptionsValue()
    ensures DefaultOptions == 0x3D
    ensures Has(DefaultOptions, MultiThreaded) && Has(DefaultOptions, LoadPlugins) && Has(DefaultOptions, Use3DBuffers)
    ensures Has(DefaultOptions, PrintDebugInfoToDebugger) && Has(DefaultOptions, PrintDebugInfoToStdout)
    ensures !Has(DefaultOptions, MuteIfNotFocused) && !Has(DefaultOptions, LinearRolloff)
  {
  }

  /** The combination the documentation lists is the one the enumeration
      defines. */
  lemma DocumentedDefaultMatches()
    ensures Combine(DocumentedDefault) == DefaultOptions
  {
    var d := DocumentedDefault;
    assert Combine(d[..1]) == MultiThreaded by { assert d[..1][..0] == []; }
    assert Combine(d[..2]) == 0x05 by { assert d[..2][..1] == d[..1]; }
    assert Combine(d[..3]) == 0x0D by { assert d[..3][..2] == d[..2]; }
    assert Combine(d[..4]) == 0x1D by { assert d[..4][..3] == d[..3]; }
    assert Combine(d) == 0x3D by { assert d[..4] == d[..|d| - 1]; }
  }
}

=== FILE: entity.dfy ===
/** The scene graph of `learnopengl/entity.h`: a transform with a dirty flag,
    planes and a six-plane view frustum, three bounding volumes (sphere,
    cube, axis-aligned box) with their plane and frustum tests, the
    bounding box of a model, and the entity tree with its update and
    culled-draw walks.

    `glm::rotate`/`glm::translate`/`glm::scale` (the local TRS matrix) and
    `glm::normalize` involve trigonometry and square roots; they are taken
    as function parameters. */
module Scene {
  import opened Geometry
  import opened Wrappers
  import RealMath
  import CInt

  // ---------------------------------------------------------------- Transform

  /** The local TRS matrix built from position, Euler angles (degrees) and scale. */
  type LocalMatrixFn = (Vec3, Vec3, Vec3) -> Mat4

  datatype Transform = Transform(pos: Vec3, eulerRot: Vec3, scale: Vec3, modelMatrix: Mat4, isDirty: bool)

  /** A fresh transform: at the origin, unrotated, unit scale, identity matrix, dirty. */
  const DefaultTransform: Transform := Transform(Splat(0.0), Splat(0.0), Splat(1.0), Identity, true)

  function LocalModelMatrix(t: Transform, trs: LocalMatrixFn): Mat4 {
    trs(t.pos, t.eulerRot, t.scale)
  }

  /** The global matrix of a node whose parent's global matrix is `parent`
      (no parent: the local matrix itself). */
  function Global(parent: Option<Mat4>, local: Mat4): Mat4 {
    match parent
    case None => local
    case Some(p) => MatMul(p, local)
  }

  /** Both `computeModelMatrix` overloads: recompute the matrix and clear the flag. */
  function ComputeModelMatrix(t: Transform, parent: Option<Mat4>, trs: LocalMatrixFn): (r: Transform)
    ensures !r.isDirty
    ensures r.pos == t.pos && r.eulerRot == t.eulerRot && r.scale == t.scale
    ensures r.modelMatrix == Global(parent, LocalModelMatrix(r, trs))
  {
    t.(modelMatrix := Global(parent, LocalModelMatrix(t, trs)), isDirty := false)
  }

  function SetLocalPosition(t: Transform, p: Vec3): (r: Transform)
    ensures r.isDirty && r.pos == p
    ensures r.eulerRot == t.eulerRot && r.scale == t.scale && r.modelMatrix == t.modelMatrix
  {
    t.(pos := p, isDirty := true)
  }

  function SetLocalRotation(t: Transform, rot: Vec3): (r: Transform)
    ensures r.isDirty && r.eulerRot == rot
    ensures r.pos == t.pos && r.scale == t.scale && r.modelMatrix == t.modelMatrix
  {
    t.(eulerRot := rot, isDirty := true)
  }

  function SetLocalScale(t: Transform, s: Vec3): (r: Transform)
    ensures r.isDirty && r.scale == s
    ensures r.pos == t.pos && r.eulerRot == t.eulerRot && r.modelMatrix == t.modelMatrix
  {
    t.(scale := s, isDirty := true)
  }

  function GetGlobalPosition(t: Transform): Vec3 { Xyz(t.modelMatrix.c3) }
  function GetRight(t: Transform): Vec3 { Xyz(t.modelMatrix.c0) }
  function GetUp(t: Transform): Vec3 { Xyz(t.modelMatrix.c1) }
  function GetBackward(t: Transform): Vec3 { Xyz(t.modelMatrix.c2) }
  function GetForward(t: Transform): Vec3 { Negate(Xyz(t.modelMatrix.c2)) }

  /** A root computes the same matrix as a child of an identity-matrix parent,
      and recomputing a clean transform changes nothing. */
  lemma ComputeModelMatrixRoot(t: Transform, trs: LocalMatrixFn)
    ensures ComputeModelMatrix(t, Some(Identity), trs) == ComputeModelMatrix(t, None, trs)
    ensures ComputeModelMatrix(ComputeModelMatrix(t, None, trs), None, trs) == ComputeModelMatrix(t, None, trs)
  {
    IdentityMatMul(LocalModelMatrix(t, trs));
  }

  /** A setter followed by a recompute yields a clean transform whose matrix
      is built from the new value and the two untouched ones. */
  lemma SetThenCompute(t: Transform, p: Vec3, rot: Vec3, s: Vec3, parent: Option<Mat4>, trs: LocalMatrixFn)
    ensures var r := ComputeModelMatrix(SetLocalPosition(t, p), parent, trs);
      !r.isDirty && r.modelMatrix == Global(parent, trs(p, t.eulerRot, t.scale))
    ensures var r := ComputeModelMatrix(SetLocalRotation(t, rot), parent, trs);
      !r.isDirty && r.modelMatrix == Global(parent, trs(t.pos, rot, t.scale))
    ensures var r := ComputeModelMatrix(SetLocalScale(t, s), parent, trs);
      !r.isDirty && r.modelMatrix == Global(parent, trs(t.pos, t.eulerRot, s))
  {
  }

  /** When the local matrix is affine with translation `pos` (as a TRS matrix
      is), a child's global position is its local position carried through
      the parent's matrix; forward is always minus backward. */
  lemma GlobalPositionOfChild(t: Transform, parent: Mat4, trs: LocalMatrixFn)
    requires LocalModelMatrix(t, trs).c3 == Point(t.pos)
    ensures GetGlobalPosition(ComputeModelMatrix(t, Some(parent), trs)) == TransformPoint(parent, t.pos)
    ensures GetForward(t) == Negate(GetBackward(t))
  {
  }

  // ---------------------------------------------------------------- Planes

  datatype Plane = Plane(normal: Vec3, distance: real)

  /** The default plane: normal +Y through the origin. */
  const DefaultPlane: Plane := Plane(Vec3(0.0, 1.0, 0.0), 0.0)

  function SignedDistance(pl: Plane, p: Vec3): real {
    Dot(pl.normal, p) - pl.distance
  }

  /** The plane through `p1` with normal `normalize(norm)`. */
  function MakePlane(p1: Vec3, norm: Vec3, normalize: Vec3 -> Vec3): (r: Plane)
    ensures r.normal == normalize(norm)
    ensures SignedDistance(r, p1) == 0.0
  {
    var n := normalize(norm);
    Plane(n, Dot(n, p1))
  }

  /** Moving away from the defining point by `d` changes the signed distance
      by the projection of `d` on the normal; the default plane measures height. */
  lemma PlaneOffset(p1: Vec3, norm: Vec3, normalize: Vec3 -> Vec3, d: Vec3, p: Vec3)
    ensures SignedDistance(MakePlane(p1, norm, normalize), Add(p1, d)) == Dot(normalize(norm), d)
    ensures SignedDistance(DefaultPlane, p) == p.y
  {
    var n := normalize(norm);
    assert Dot(n, Add(p1, d)) == Dot(n, p1) + Dot(n, d);
  }

  datatype Frustum = Frustum(topFace: Plane, bottomFace: Plane, rightFace: Plane,
                             leftFace: Plane, farFace: Plane, nearFace: Plane)

  /** The faces in the order the frustum tests visit them. */
  function Faces(f: Frustum): seq<Plane> {
    [f.leftFace, f.rightFace, f.topFace, f.bottomFace, f.nearFace, f.farFace]
  }

  // ---------------------------------------------------------------- Bounding volumes

  datatype Sphere = Sphere(center: Vec3, radius: real)
  datatype SquareAabb = SquareAabb(center: Vec3, extent: real)
  datatype Aabb = Aabb(center: Vec3, extents: Vec3)

  datatype Volume = SphereVolume(sphere: Sphere) | SquareVolume(square: SquareAabb) | AabbVolume(box: Aabb)

  /** Half the length of the projection of a box with these extents on `n`. */
  function ProjectedRadius(e: Vec3, n: Vec3): real {
    e.x * RealMath.Abs(n.x) + e.y * RealMath.Abs(n.y) + e.z * RealMath.Abs(n.z)
  }

  /** `isOnOrForwardPlane` of each volume kind. */
  function OnOrForwardPlane(v: Volume, pl: Plane): bool {
    match v
    case SphereVolume(s) => SignedDistance(pl, s.center) > -s.radius
    case SquareVolume(q) =>
      var r := q.extent * (RealMath.Abs(pl.normal.x) + RealMath.Abs(pl.normal.y) + RealMath.Abs(pl.normal.z));
      -r <= SignedDistance(pl, q.center)
    case AabbVolume(b) => -ProjectedRadius(b.extents, pl.normal) <= SignedDistance(pl, b.center)
  }

  /** `BoundingVolume::isOnFrustum(frustum)`. */
  function IsOnFrustum(v: Volume, f: Frustum): bool {
    OnOrForwardPlane(v, f.leftFace) && OnOrForwardPlane(v, f.rightFace) &&
    OnOrForwardPlane(v, f.topFace) && OnOrForwardPlane(v, f.bottomFace) &&
    OnOrForwardPlane(v, f.nearFace) && OnOrForwardPlane(v, f.farFace)
  }

  lemma IsOnFrustumAllFaces(v: Volume, f: Frustum)
    ensures IsOnFrustum(v, f) <==> forall i :: 0 <= i < |Faces(f)| ==> OnOrForwardPlane(v, Faces(f)[i])
  {
    if !IsOnFrustum(v, f) {
      var fs := Faces(f);
      assert !OnOrForwardPlane(v, fs[0]) || !OnOrForwardPlane(v, fs[1]) || !OnOrForwardPlane(v, fs[2]) ||
             !OnOrForwardPlane(v, fs[3]) || !OnOrForwardPlane(v, fs[4]) || !OnOrForwardPlane(v, fs[5]);
    }
  }

  /** A cube of half-size `e` passes a plane exactly when the box with all
      three extents `e` does. */
  lemma SquareIsCubicAabb(c: Vec3, e: real, pl: Plane)
    ensures OnOrForwardPlane(SquareVolume(SquareAabb(c, e)), pl) == OnOrForwardPlane(AabbVolume(Aabb(c, Splat(e))), pl)
  {
    var n := pl.normal;
    assert e * (RealMath.Abs(n.x) + RealMath.Abs(n.y) + RealMath.Abs(n.z))
        == e * RealMath.Abs(n.x) + e * RealMath.Abs(n.y) + e * RealMath.Abs(n.z);
  }

  /** The `AABB(min, max)` constructor. */
  function AabbFromMinMax(min: Vec3, max: Vec3): (b: Aabb)
    ensures Sub(b.center, b.extents) == min && Add(b.center, b.extents) == max
    ensures (min.x <= max.x && min.y <= max.y && min.z <= max.z) <==>
            (b.extents.x >= 0.0 && b.extents.y >= 0.0 && b.extents.z >= 0.0)
  {
    var center := Scale(Add(max, min), 0.5);
    Aabb(center, Vec3(max.x - center.x, max.y - center.y, max.z - center.z))
  }

  /** One corner of a box: `+` extent on the axes where the flag is set. */
  function Corner(b: Aabb, px: bool, py: bool, pz: bool): Vec3 {
    Vec3(if px then b.center.x + b.extents.x else b.center.x - b.extents.x,
         if py then b.center.y + b.extents.y else b.center.y - b.extents.y,
         if pz then b.center.z + b.extents.z else b.center.z - b.extents.z)
  }

  /** `getVertice`: the eight corners, x varying fastest. */
  function Vertices(b: Aabb): (vs: seq<Vec3>)
    ensures |vs| == 8
    ensures vs[0] == Sub(b.center, b.extents) && vs[7] == Add(b.center, b.extents)
  {
    [Corner(b, false, false, false), Corner(b, true, false, false),
     Corner(b, false, true, false), Corner(b, true, true, false),
     Corner(b, false, false, true), Corner(b, true, false, true),
     Corner(b, false, true, true), Corner(b, true, true, true)]
  }

  /** The contribution of one axis to the signed distance of a corner whose
      coordinate is `v`. */
  lemma AxisTerm(n: real, c: real, e: real, v: real, plus: bool)
    requires e >= 0.0
    requires (plus ==> v == c + e) && (!plus ==> v == c - e)
    ensures n * v <= n * c + e * RealMath.Abs(n)
    ensures plus == (n >= 0.0) ==> n * v == n * c + e * RealMath.Abs(n)
  {
    if plus {
      assert n * (c + e) == n * c + n * e;
    } else {
      assert n * (c - e) == n * c - n * e;
    }
    if n >= 0.0 {
      assert n * e >= 0.0;
    } else {
      assert n * e <= 0.0;
      assert e * RealMath.Abs(n) == -(n * e);
    }
  }

  /** A point offset from `c` by the extents `e`, with the sign on each axis
      given by the flags, lies at most the projected radius further along
      the normal than `c`, and exactly that far when the flags follow the
      normal's signs. */
  lemma OffsetDistance(pl: Plane, c: Vec3, e: Vec3, k: Vec3, px: bool, py: bool, pz: bool)
    requires e.x >= 0.0 && e.y >= 0.0 && e.z >= 0.0
    requires (px ==> k.x == c.x + e.x) && (!px ==> k.x == c.x - e.x)
    requires (py ==> k.y == c.y + e.y) && (!py ==> k.y == c.y - e.y)
    requires (pz ==> k.z == c.z + e.z) && (!pz ==> k.z == c.z - e.z)
    ensures SignedDistance(pl, k) <= SignedDistance(pl, c) + ProjectedRadius(e, pl.normal)
    ensures px == (pl.normal.x >= 0.0) && py == (pl.normal.y >= 0.0) && pz == (pl.normal.z >= 0.0) ==>
            SignedDistance(pl, k) == SignedDistance(pl, c) + ProjectedRadius(e, pl.normal)
  {
    AxisTerm(pl.normal.x, c.x, e.x, k.x, px);
    AxisTerm(pl.normal.y, c.y, e.y, k.y, py);
    AxisTerm(pl.normal.z, c.z, e.z, k.z, pz);
  }

  lemma CornerDistance(b: Aabb, pl: Plane, px: bool, py: bool, pz: bool)
    requires b.extents.x >= 0.0 && b.extents.y >= 0.0 && b.extents.z >= 0.0
    ensures SignedDistance(pl, Corner(b, px, py, pz)) <= SignedDistance(pl, b.center) + ProjectedRadius(b.extents, pl.normal)
    ensures px == (pl.normal.x >= 0.0) && py == (pl.normal.y >= 0.0) && pz == (pl.normal.z >= 0.0) ==>
            SignedDistance(pl, Corner(b, px, py, pz)) == SignedDistance(pl, b.center) + ProjectedRadius(b.extents, pl.normal)
  {
    OffsetDistance(pl, b.center, b.extents, Corner(b, px, py, pz), px, py, pz);
  }

  /** The box test is exact: a box with non-negative extents is on or in
      front of a plane exactly when one of its corners is. */
  lemma AabbPlaneTestExact(b: Aabb, pl: Plane)
    requires b.extents.x >= 0.0 && b.extents.y >= 0.0 && b.extents.z >= 0.0
    ensures OnOrForwardPlane(AabbVolume(b), pl) <==>
            exists i :: 0 <= i < 8 && SignedDistance(pl, Vertices(b)[i]) >= 0.0
  {
    var vs := Vertices(b);
    var n := pl.normal;
    var best := (if n.x >= 0.0 then 1 else 0) + (if n.y >= 0.0 then 2 else 0) + (if n.z >= 0.0 then 4 else 0);
    assert vs[best] == Corner(b, n.x >= 0.0, n.y >= 0.0, n.z >= 0.0);
    CornerDistance(b, pl, n.x >= 0.0, n.y >= 0.0, n.z >= 0.0);
    if exists i :: 0 <= i < 8 && SignedDistance(pl, vs[i]) >= 0.0 {
      var i :| 0 <= i < 8 && SignedDistance(pl, vs[i]) >= 0.0;
      assert vs[i] == Corner(b, i % 2 == 1, (i / 2) % 2 == 1, i / 4 == 1);
      CornerDistance(b, pl, i % 2 == 1, (i / 2) % 2 == 1, i / 4 == 1);
    }
  }

  // ---------------------------------------------------------------- Boxes under a transform

  const UnitX: Vec3 := Vec3(1.0, 0.0, 0.0)
  const UnitY: Vec3 := Vec3(0.0, 1.0, 0.0)
  const UnitZ: Vec3 := Vec3(0.0, 0.0, 1.0)

  /** The sum of the absolute `axis` components of three scaled orientation vectors. */
  function Spread(axis: Vec3, right: Vec3, up: Vec3, forward: Vec3): real {
    RealMath.Abs(Dot(axis, right)) + RealMath.Abs(Dot(axis, up)) + RealMath.Abs(Dot(axis, forward))
  }

  /** The half-sizes of the world-space box around a box with extents `e`
      carried by the matrix `m`: the scaled right, up and forward vectors of
      `m` (`getRight`, `getUp`, `getForward`) spread over each world axis. */
  function GlobalExtents(e: Vec3, m: Mat4): (g: Vec3)
    ensures g.x >= 0.0 && g.y >= 0.0 && g.z >= 0.0
  {
    SpreadAll(Scale(Xyz(m.c0), e.x), Scale(Xyz(m.c1), e.y), Scale(Negate(Xyz(m.c2)), e.z))
  }

  function SpreadAll(right: Vec3, up: Vec3, forward: Vec3): Vec3 {
    Vec3(Spread(UnitX, right, up, forward), Spread(UnitY, right, up, forward), Spread(UnitZ, right, up, forward))
  }

  /** The world-space axis-aligned box around a box carried by a transform:
      the body of `AABB::isOnFrustum(frustum, transform)` and of
      `Entity::getGlobalAABB`. */
  function GlobalAabb(b: Aabb, t: Transform): (g: Aabb)
    ensures g.center == TransformPoint(t.modelMatrix, b.center)
    ensures g.extents.x >= 0.0 && g.extents.y >= 0.0 && g.extents.z >= 0.0
  {
    Aabb(TransformPoint(t.modelMatrix, b.center), GlobalExtents(b.extents, t.modelMatrix))
  }

  /** The world-space cube around a cube carried by a transform: the widest
      of the three spreads, as `SquareAABB::isOnFrustum(frustum, transform)`. */
  function GlobalSquare(q: SquareAabb, t: Transform): (g: SquareAabb)
    ensures g.center == TransformPoint(t.modelMatrix, q.center)
    ensures var e := GlobalAabb(Aabb(q.center, Splat(q.extent)), t).extents;
      e.x <= g.extent && e.y <= g.extent && e.z <= g.extent
  {
    var e := GlobalExtents(Splat(q.extent), t.modelMatrix);
    SquareAabb(TransformPoint(t.modelMatrix, q.center), RealMath.Max(RealMath.Max(e.x, e.y), e.z))
  }

  function AabbIsOnFrustum(b: Aabb, f: Frustum, t: Transform): bool {
    IsOnFrustum(AabbVolume(GlobalAabb(b, t)), f)
  }

  function SquareIsOnFrustum(q: SquareAabb, f: Frustum, t: Transform): bool {
    IsOnFrustum(SquareVolume(GlobalSquare(q, t)), f)
  }

  /** Each spread is the sum of the absolute components of the three vectors on that axis. */
  lemma SpreadComponents(right: Vec3, up: Vec3, forward: Vec3)
    ensures Spread(UnitX, right, up, forward) == RealMath.Abs(right.x) + RealMath.Abs(up.x) + RealMath.Abs(forward.x)
    ensures Spread(UnitY, right, up, forward) == RealMath.Abs(right.y) + RealMath.Abs(up.y) + RealMath.Abs(forward.y)
    ensures Spread(UnitZ, right, up, forward) == RealMath.Abs(right.z) + RealMath.Abs(up.z) + RealMath.Abs(forward.z)
  {
    assert Dot(UnitX, right) == right.x && Dot(UnitX, up) == up.x && Dot(UnitX, forward) == forward.x;
    assert Dot(UnitY, right) == right.y && Dot(UnitY, up) == up.y && Dot(UnitY, forward) == forward.y;
    assert Dot(UnitZ, right) == right.z && Dot(UnitZ, up) == up.z && Dot(UnitZ, forward) == forward.z;
  }

  /** Scaling the unit axis vectors. */
  lemma ScaleAxes(a: real, b: real, c: real)
    ensures Scale(UnitX, a) == Vec3(a, 0.0, 0.0)
    ensures Scale(UnitY, b) == Vec3(0.0, b, 0.0)
    ensures Scale(Vec3(0.0, 0.0, -1.0), c) == Vec3(0.0, 0.0, -c)
  {
  }

  lemma IdentityAxes()
    ensures Xyz(Identity.c0) == UnitX && Xyz(Identity.c1) == UnitY && Negate(Xyz(Identity.c2)) == Vec3(0.0, 0.0, -1.0)
  {
  }

  lemma GlobalExtentsIdentity(e: Vec3)
    requires e.x >= 0.0 && e.y >= 0.0 && e.z >= 0.0
    ensures GlobalExtents(e, Identity) == e
  {
    IdentityColumns(e);
    ScaledAxes(e);
  }

  lemma IdentityColumns(e: Vec3)
    ensures GlobalExtents(e, Identity) == SpreadAll(Scale(UnitX, e.x), Scale(UnitY, e.y), Scale(Vec3(0.0, 0.0, -1.0), e.z))
  {
    IdentityAxes();
  }

  lemma ScaledAxes(e: Vec3)
    requires e.x >= 0.0 && e.y >= 0.0 && e.z >= 0.0
    ensures SpreadAll(Scale(UnitX, e.x), Scale(UnitY, e.y), Scale(Vec3(0.0, 0.0, -1.0), e.z)) == e
  {
    ScaleAxes(e.x, e.y, e.z);
    assert SpreadAll(Scale(UnitX, e.x), Scale(UnitY, e.y), Scale(Vec3(0.0, 0.0, -1.0), e.z))
        == SpreadAll(Vec3(e.x, 0.0, 0.0), Vec3(0.0, e.y, 0.0), Vec3(0.0, 0.0, -e.z));
    SpreadAllAxes(e.x, e.y, e.z);
  }

  lemma SpreadAllAxes(a: real, b: real, c: real)
    requires a >= 0.0 && b >= 0.0 && c >= 0.0
    ensures SpreadAll(Vec3(a, 0.0, 0.0), Vec3(0.0, b, 0.0), Vec3(0.0, 0.0, -c)) == Vec3(a, b, c)
  {
    SpreadComponents(Vec3(a, 0.0, 0.0), Vec3(0.0, b, 0.0), Vec3(0.0, 0.0, -c));
  }

  /** Under the identity matrix a box with non-negative extents is its own
      world-space box. */
  lemma GlobalAabbIdentity(b: Aabb, t: Transform)
    requires t.modelMatrix == Identity
    requires b.extents.x >= 0.0 && b.extents.y >= 0.0 && b.extents.z >= 0.0
    ensures GlobalAabb(b, t) == b
  {
    IdentityMulVec(Point(b.center));
    GlobalExtentsIdentity(b.extents);
    assert TransformPoint(Identity, b.center) == b.center;
  }

  /** `|x + y + z|` is at most `|sx| + |sy| + |sz|` when each term is its
      bound up to sign. */
  lemma SignedSum(x: real, y: real, z: real, sx: real, sy: real, sz: real)
    requires (x == sx || x == -sx) && (y == sy || y == -sy) && (z == sz || z == -sz)
    ensures RealMath.Abs(x + y + z) <= RealMath.Abs(sx) + RealMath.Abs(sy) + RealMath.Abs(sz)
  {
  }

  /** Multiplying by `±e` is multiplying by `e` up to sign. */
  lemma ProductSign(a: real, e: real, o: real)
    requires o == e || o == -e
    ensures a * o == a * e || a * o == -(a * e)
  {
    if o == -e {
      assert a * o == -(a * e);
    }
  }

  /** A point offset by `o` moves, under `m`, by the linear part of `m` applied to `o`. */
  lemma TransformOffset(m: Mat4, c: Vec3, o: Vec3)
    ensures var p := TransformPoint(m, Add(c, o));
      var g := TransformPoint(m, c);
      p.x - g.x == m.c0.x * o.x + m.c1.x * o.y + m.c2.x * o.z &&
      p.y - g.y == m.c0.y * o.x + m.c1.y * o.y + m.c2.y * o.z &&
      p.z - g.z == m.c0.z * o.x + m.c1.z * o.y + m.c2.z * o.z
  {
    var v := Add(c, o);
    assert m.c0.x * v.x == m.c0.x * c.x + m.c0.x * o.x;
    assert m.c1.x * v.y == m.c1.x * c.y + m.c1.x * o.y;
    assert m.c2.x * v.z == m.c2.x * c.z + m.c2.x * o.z;
    assert m.c0.y * v.x == m.c0.y * c.x + m.c0.y * o.x;
    assert m.c1.y * v.y == m.c1.y * c.y + m.c1.y * o.y;
    assert m.c2.y * v.z == m.c2.y * c.z + m.c2.y * o.z;
    assert m.c0.z * v.x == m.c0.z * c.x + m.c0.z * o.x;
    assert m.c1.z * v.y == m.c1.z * c.y + m.c1.z * o.y;
    assert m.c2.z * v.z == m.c2.z * c.z + m.c2.z * o.z;
  }

  /** The offset of a corner from the centre, per axis. */
  function CornerOffset(e: Vec3, px: bool, py: bool, pz: bool): Vec3 {
    Vec3(if px then e.x else -e.x, if py then e.y else -e.y, if pz then e.z else -e.z)
  }

  /** One world axis of the containment: the corner's displacement along the
      axis is a signed sum of the three scaled orientation components. */
  lemma CornerAxis(a: real, b: real, c: real, e: Vec3, o: Vec3)
    requires o.x == e.x || o.x == -e.x
    requires o.y == e.y || o.y == -e.y
    requires o.z == e.z || o.z == -e.z
    ensures RealMath.Abs(a * o.x + b * o.y + c * o.z)
      <= RealMath.Abs(a * e.x) + RealMath.Abs(b * e.y) + RealMath.Abs((-c) * e.z)
  {
    ProductSign(a, e.x, o.x);
    ProductSign(b, e.y, o.y);
    ProductSign(-c, e.z, -o.z);
    assert (-c) * (-o.z) == c * o.z;
    SignedSum(a * o.x, b * o.y, c * o.z, a * e.x, b * e.y, (-c) * e.z);
  }

  lemma VertexIsCorner(b: Aabb, i: nat)
    requires i < 8
    ensures Vertices(b)[i] == Corner(b, i % 2 == 1, (i / 2) % 2 == 1, i / 4 == 1)
  {
  }

  lemma CornerIsOffset(b: Aabb, px: bool, py: bool, pz: bool)
    ensures Corner(b, px, py, pz) == Add(b.center, CornerOffset(b.extents, px, py, pz))
  {
  }

  /** The spreads written out per matrix entry. */
  lemma ExtentEntries(e: Vec3, m: Mat4)
    ensures GlobalExtents(e, m).x == RealMath.Abs(m.c0.x * e.x) + RealMath.Abs(m.c1.x * e.y) + RealMath.Abs((-m.c2.x) * e.z)
    ensures GlobalExtents(e, m).y == RealMath.Abs(m.c0.y * e.x) + RealMath.Abs(m.c1.y * e.y) + RealMath.Abs((-m.c2.y) * e.z)
    ensures GlobalExtents(e, m).z == RealMath.Abs(m.c0.z * e.x) + RealMath.Abs(m.c1.z * e.y) + RealMath.Abs((-m.c2.z) * e.z)
  {
    var r, u, f := Scale(Xyz(m.c0), e.x), Scale(Xyz(m.c1), e.y), Scale(Negate(Xyz(m.c2)), e.z);
    assert GlobalExtents(e, m) == SpreadAll(r, u, f);
    SpreadComponents(r, u, f);
    ScaledColumns(e, m);
  }

  lemma ScaledColumns(e: Vec3, m: Mat4)
    ensures Scale(Xyz(m.c0), e.x) == Vec3(m.c0.x * e.x, m.c0.y * e.x, m.c0.z * e.x)
    ensures Scale(Xyz(m.c1), e.y) == Vec3(m.c1.x * e.y, m.c1.y * e.y, m.c1.z * e.y)
    ensures Scale(Negate(Xyz(m.c2)), e.z) == Vec3((-m.c2.x) * e.z, (-m.c2.y) * e.z, (-m.c2.z) * e.z)
  {
  }

  /** A corner offset is the extents up to sign on every axis. */
  lemma OffsetSigns(e: Vec3, px: bool, py: bool, pz: bool)
    ensures var o := CornerOffset(e, px, py, pz);
      (o.x == e.x || o.x == -e.x) && (o.y == e.y || o.y == -e.y) && (o.z == e.z || o.z == -e.z)
  {
  }

  /** A point offset from `c` by the extents up to sign, carried through `m`,
      stays within the spreads. */
  lemma CornerWithin(m: Mat4, c: Vec3, e: Vec3, o: Vec3)
    requires (o.x == e.x || o.x == -e.x) && (o.y == e.y || o.y == -e.y) && (o.z == e.z || o.z == -e.z)
    ensures var p, g, s := TransformPoint(m, Add(c, o)), TransformPoint(m, c), GlobalExtents(e, m);
      RealMath.Abs(p.x - g.x) <= s.x && RealMath.Abs(p.y - g.y) <= s.y && RealMath.Abs(p.z - g.z) <= s.z
  {
    WithinX(m, c, e, o);
    WithinY(m, c, e, o);
    WithinZ(m, c, e, o);
  }

  /** The containment on each world axis separately. */
  lemma WithinX(m: Mat4, c: Vec3, e: Vec3, o: Vec3)
    requires (o.x == e.x || o.x == -e.x) && (o.y == e.y || o.y == -e.y) && (o.z == e.z || o.z == -e.z)
    ensures RealMath.Abs(TransformPoint(m, Add(c, o)).x - TransformPoint(m, c).x) <= GlobalExtents(e, m).x
  {
    TransformOffset(m, c, o);
    ExtentEntries(e, m);
    AxisWithin(TransformPoint(m, Add(c, o)).x - TransformPoint(m, c).x, GlobalExtents(e, m).x, m.c0.x, m.c1.x, m.c2.x, e, o);
  }

  lemma WithinY(m: Mat4, c: Vec3, e: Vec3, o: Vec3)
    requires (o.x == e.x || o.x == -e.x) && (o.y == e.y || o.y == -e.y) && (o.z == e.z || o.z == -e.z)
    ensures RealMath.Abs(TransformPoint(m, Add(c, o)).y - TransformPoint(m, c).y) <= GlobalExtents(e, m).y
  {
    TransformOffset(m, c, o);
    ExtentEntries(e, m);
    AxisWithin(TransformPoint(m, Add(c, o)).y - TransformPoint(m, c).y, GlobalExtents(e, m).y, m.c0.y, m.c1.y, m.c2.y, e, o);
  }

  lemma WithinZ(m: Mat4, c: Vec3, e: Vec3, o: Vec3)
    requires (o.x == e.x || o.x == -e.x) && (o.y == e.y || o.y == -e.y) && (o.z == e.z || o.z == -e.z)
    ensures RealMath.Abs(TransformPoint(m, Add(c, o)).z - TransformPoint(m, c).z) <= GlobalExtents(e, m).z
  {
    TransformOffset(m, c, o);
    ExtentEntries(e, m);
    AxisWithin(TransformPoint(m, Add(c, o)).z - TransformPoint(m, c).z, GlobalExtents(e, m).z, m.c0.z, m.c1.z, m.c2.z, e, o);
  }

  /** One world axis of the containment, with the displacement `d` and the
      spread `s` already written out per matrix entry. */
  lemma AxisWithin(d: real, s: real, a: real, b: real, c: real, e: Vec3, o: Vec3)
    requires (o.x == e.x || o.x == -e.x) && (o.y == e.y || o.y == -e.y) && (o.z == e.z || o.z == -e.z)
    requires d == a * o.x + b * o.y + c * o.z
    requires s == RealMath.Abs(a * e.x) + RealMath.Abs(b * e.y) + RealMath.Abs((-c) * e.z)
    ensures RealMath.Abs(d) <= s
  {
    CornerAxis(a, b, c, e, o);
  }

  /** The world-space box is conservative: every corner of the box, carried
      through the transform, lies inside it. */
  lemma GlobalAabbContainsCorners(b: Aabb, t: Transform)
    ensures var g := GlobalAabb(b, t);
      forall i :: 0 <= i < 8 ==>
        var p := TransformPoint(t.modelMatrix, Vertices(b)[i]);
        RealMath.Abs(p.x - g.center.x) <= g.extents.x &&
        RealMath.Abs(p.y - g.center.y) <= g.extents.y &&
        RealMath.Abs(p.z - g.center.z) <= g.extents.z
  {
    forall i | 0 <= i < 8
      ensures var g := GlobalAabb(b, t);
        var p := TransformPoint(t.modelMatrix, Vertices(b)[i]);
        RealMath.Abs(p.x - g.center.x) <= g.extents.x &&
        RealMath.Abs(p.y - g.center.y) <= g.extents.y &&
        RealMath.Abs(p.z - g.center.z) <= g.extents.z
    {
      var px, py, pz := i % 2 == 1, (i / 2) % 2 == 1, i / 4 == 1;
      VertexIsCorner(b, i);
      CornerIsOffset(b, px, py, pz);
      OffsetSigns(b.extents, px, py, pz);
      CornerWithin(t.modelMatrix, b.center, b.extents, CornerOffset(b.extents, px, py, pz));
    }
  }

  /** Growing the extents can only make a box pass more planes. */
  lemma RadiusMonotone(e1: Vec3, e2: Vec3, n: Vec3)
    requires e1.x <= e2.x && e1.y <= e2.y && e1.z <= e2.z
    ensures ProjectedRadius(e1, n) <= ProjectedRadius(e2, n)
  {
    assert e1.x * RealMath.Abs(n.x) <= e2.x * RealMath.Abs(n.x);
    assert e1.y * RealMath.Abs(n.y) <= e2.y * RealMath.Abs(n.y);
    assert e1.z * RealMath.Abs(n.z) <= e2.z * RealMath.Abs(n.z);
  }

  /** The cube test under a transform is at least as permissive as the box
      test of the same cube: it never culls what the box test keeps. */
  lemma SquareCoversAabb(c: Vec3, e: real, f: Frustum, t: Transform)
    ensures AabbIsOnFrustum(Aabb(c, Splat(e)), f, t) ==> SquareIsOnFrustum(SquareAabb(c, e), f, t)
  {
    var g := GlobalAabb(Aabb(c, Splat(e)), t);
    var q := GlobalSquare(SquareAabb(c, e), t);
    forall pl: Plane | OnOrForwardPlane(AabbVolume(g), pl)
      ensures OnOrForwardPlane(SquareVolume(q), pl)
    {
      RadiusMonotone(g.extents, Splat(q.extent), pl.normal);
      SquareIsCubicAabb(q.center, q.extent, pl);
    }
  }

  // ---------------------------------------------------------------- generateAABB

  /** `std::numeric_limits<float>::max()`, the largest finite float. */
  const FltMax: real := 340282346638528859811704183484516925440.0
  /** `std::numeric_limits<float>::min()`, the smallest POSITIVE normal float, 2^-126. */
  const FltMin: real := 0.000000000000000000000000000000000000011754943508222875079687365372222456778186655567720875215087517062784172594547271728515625

  /** Component-wise `std::min` / `std::max`. */
  function MinV(a: Vec3, b: Vec3): Vec3 { Vec3(RealMath.Min(a.x, b.x), RealMath.Min(a.y, b.y), RealMath.Min(a.z, b.z)) }
  function MaxV(a: Vec3, b: Vec3): Vec3 { Vec3(RealMath.Max(a.x, b.x), RealMath.Max(a.y, b.y), RealMath.Max(a.z, b.z)) }

  predicate LeV(a: Vec3, b: Vec3) { a.x <= b.x && a.y <= b.y && a.z <= b.z }

  function Coord(v: Vec3, k: nat): real
    requires k < 3
  {
    if k == 0 then v.x else if k == 1 then v.y else v.z
  }

  /** The running `minAABB` / `maxAABB` pair. */
  datatype Bounds = Bounds(lo: Vec3, hi: Vec3)

  /** One iteration of the inner loop: widen the pair to include `p`. */
  function Include(bd: Bounds, p: Vec3): Bounds {
    Bounds(MinV(bd.lo, p), MaxV(bd.hi, p))
  }

  /** The pair after visiting `ps` in order. */
  function Accumulate(bd: Bounds, ps: seq<Vec3>): (r: Bounds)
    ensures LeV(r.lo, bd.lo) && LeV(bd.hi, r.hi)
    ensures forall i :: 0 <= i < |ps| ==> LeV(r.lo, ps[i]) && LeV(ps[i], r.hi)
    decreases |ps|
  {
    if ps == [] then bd
    else
      var r := Accumulate(Include(bd, ps[0]), ps[1..]);
      assert forall i :: 1 <= i < |ps| ==> ps[i] == ps[1..][i - 1];
      r
  }

  /** Every component of the result is the starting one or some point's. */
  lemma {:induction false} AccumulateAttained(bd: Bounds, ps: seq<Vec3>, k: nat)
    requires k < 3
    ensures var r := Accumulate(bd, ps);
      (Coord(r.hi, k) == Coord(bd.hi, k) || exists i :: 0 <= i < |ps| && Coord(ps[i], k) == Coord(r.hi, k)) &&
      (Coord(r.lo, k) == Coord(bd.lo, k) || exists i :: 0 <= i < |ps| && Coord(ps[i], k) == Coord(r.lo, k))
    decreases |ps|
  {
    if ps != [] {
      var next := Include(bd, ps[0]);
      AccumulateAttained(next, ps[1..], k);
      var r := Accumulate(bd, ps);
      assert r == Accumulate(next, ps[1..]);
      if exists i :: 0 <= i < |ps[1..]| && Coord(ps[1..][i], k) == Coord(r.hi, k) {
        var i :| 0 <= i < |ps[1..]| && Coord(ps[1..][i], k) == Coord(r.hi, k);
        assert ps[i + 1] == ps[1..][i];
      } else {
        assert Coord(r.hi, k) == Coord(next.hi, k);
        assert Coord(ps[0], k) == Coord(r.hi, k) || Coord(bd.hi, k) == Coord(r.hi, k);
      }
      if exists i :: 0 <= i < |ps[1..]| && Coord(ps[1..][i], k) == Coord(r.lo, k) {
        var i :| 0 <= i < |ps[1..]| && Coord(ps[1..][i], k) == Coord(r.lo, k);
        assert ps[i + 1] == ps[1..][i];
      } else {
        assert Coord(r.lo, k) == Coord(next.lo, k);
        assert Coord(ps[0], k) == Coord(r.lo, k) || Coord(bd.lo, k) == Coord(r.lo, k);
      }
    }
  }

  lemma {:induction false} AccumulateSnoc(bd: Bounds, ps: seq<Vec3>, p: Vec3)
    ensures Accumulate(bd, ps + [p]) == Include(Accumulate(bd, ps), p)
    decreases |ps|
  {
    if ps != [] {
      assert (ps + [p])[1..] == ps[1..] + [p];
      AccumulateSnoc(Include(bd, ps[0]), ps[1..], p);
    } else {
      assert [p][1..] == [];
    }
  }

  /** The elements of all the sequences, in order (the vertex positions of
      all meshes, mesh by mesh). */
  function Flatten<T>(meshes: seq<seq<T>>): (ps: seq<T>)
    ensures forall m, j :: 0 <= m < |meshes| && 0 <= j < |meshes[m]| ==> meshes[m][j] in ps
    ensures forall p :: p in ps ==> exists m :: 0 <= m < |meshes| && p in meshes[m]
  {
    if meshes == [] then [] else Flatten(meshes[..|meshes| - 1]) + meshes[|meshes| - 1]
  }

  /** The two nested loops of `generateAABB`, from a given starting pair. */
  method ModelBounds(meshes: seq<seq<Vec3>>, init: Bounds) returns (bd: Bounds)
    ensures bd == Accumulate(init, Flatten(meshes))
  {
    bd := init;
    var m := 0;
    while m < |meshes|
      invariant 0 <= m <= |meshes|
      invariant bd == Accumulate(init, Flatten(meshes[..m]))
    {
      var vs := meshes[m];
      var j := 0;
      assert Flatten(meshes[..m]) + vs[..0] == Flatten(meshes[..m]);
      while j < |vs|
        invariant 0 <= j <= |vs|
        invariant bd == Accumulate(init, Flatten(meshes[..m]) + vs[..j])
      {
        AccumulateSnoc(init, Flatten(meshes[..m]) + vs[..j], vs[j]);
        assert Flatten(meshes[..m]) + vs[..j + 1] == (Flatten(meshes[..m]) + vs[..j]) + [vs[j]];
        bd := Include(bd, vs[j]);
        j := j + 1;
      }
      assert meshes[..m + 1][..m] == meshes[..m];
      assert vs[..j] == vs;
      m := m + 1;
    }
    assert meshes[..m] == meshes;
  }

  /** The starting pair as written: `minAABB = FLT_MAX`, `maxAABB = FLT_MIN`. */
  const InitAsWritten: Bounds := Bounds(Splat(FltMax), Splat(FltMin))
  /** The starting pair that makes the box tight: `maxAABB = -FLT_MAX` (`lowest()`). */
  const InitIntended: Bounds := Bounds(Splat(FltMax), Splat(-FltMax))

  /** `generateAABB` as written. */
  function GenerateAabbAsWritten(meshes: seq<seq<Vec3>>): (b: Aabb)
    ensures forall p :: p in Flatten(meshes) ==> LeV(Sub(b.center, b.extents), p) && LeV(p, Add(b.center, b.extents))
  {
    var r := Accumulate(InitAsWritten, Flatten(meshes));
    AabbFromMinMax(r.lo, r.hi)
  }

  /** A model whose only vertex has negative coordinates gets a box reaching
      up to `FLT_MIN` on every axis, not the vertex itself. */
  lemma GenerateAabbAsWrittenLoose()
    ensures var b := GenerateAabbAsWritten([[Splat(-1.0)]]);
      Add(b.center, b.extents) == Splat(FltMin) && Add(b.center, b.extents) != Splat(-1.0)
  {
    var ps := Flatten([[Splat(-1.0)]]);
    assert ps == [Splat(-1.0)];
    assert Accumulate(InitAsWritten, ps) == Accumulate(Include(InitAsWritten, Splat(-1.0)), []);
  }

  /** `generateAABB` with `maxAABB` starting at `-FLT_MAX`. */
  function GenerateAabb(meshes: seq<seq<Vec3>>): (b: Aabb)
    ensures forall p :: p in Flatten(meshes) ==> LeV(Sub(b.center, b.extents), p) && LeV(p, Add(b.center, b.extents))
  {
    var r := Accumulate(InitIntended, Flatten(meshes));
    AabbFromMinMax(r.lo, r.hi)
  }

  predicate InFloatRange(p: Vec3) {
    -FltMax <= p.x <= FltMax && -FltMax <= p.y <= FltMax && -FltMax <= p.z <= FltMax
  }

  /** For a model with at least one vertex, all within float range, the
      corrected box is the tightest one: each face touches some vertex. */
  lemma GenerateAabbTight(meshes: seq<seq<Vec3>>, k: nat)
    requires k < 3
    requires Flatten(meshes) != []
    requires forall p :: p in Flatten(meshes) ==> InFloatRange(p)
    ensures var b, ps := GenerateAabb(meshes), Flatten(meshes);
      (exists i :: 0 <= i < |ps| && Coord(ps[i], k) == Coord(Sub(b.center, b.extents), k)) &&
      (exists i :: 0 <= i < |ps| && Coord(ps[i], k) == Coord(Add(b.center, b.extents), k))
  {
    var ps := Flatten(meshes);
    var r := Accumulate(InitIntended, ps);
    AccumulateAttained(InitIntended, ps, k);
    assert ps[0] in ps;
    assert LeV(r.lo, ps[0]) && LeV(ps[0], r.hi);
    if Coord(r.hi, k) == Coord(InitIntended.hi, k) {
      assert Coord(ps[0], k) == Coord(r.hi, k);
    }
    if Coord(r.lo, k) == Coord(InitIntended.lo, k) {
      assert Coord(ps[0], k) == Coord(r.lo, k);
    }
    var b := GenerateAabb(meshes);
    assert Sub(b.center, b.extents) == r.lo && Add(b.center, b.extents) == r.hi;
  }

  // ---------------------------------------------------------------- Entity tree

  /** An entity: its transform, its model's bounding box and its children
      (the parent link is the position in the tree). */
  datatype Entity = Entity(transform: Transform, boundingVolume: Aabb, children: seq<Entity>)

  /** `Entity(model)`: default transform, the box `generateAABB` builds as
      written, no children. */
  function NewEntity(meshes: seq<seq<Vec3>>): (e: Entity)
    ensures e.transform.isDirty && e.children == []
    ensures forall p :: p in Flatten(meshes) ==>
      LeV(Sub(e.boundingVolume.center, e.boundingVolume.extents), p) && LeV(p, Add(e.boundingVolume.center, e.boundingVolume.extents))
  {
    Entity(DefaultTransform, GenerateAabbAsWritten(meshes), [])
  }

  /** The constructor inherits the loose box: an entity whose model is the
      single vertex (-1, -1, -1) has the upper corner `FLT_MIN` on every axis. */
  lemma NewEntityLoose()
    ensures var b := NewEntity([[Splat(-1.0)]]).boundingVolume;
      Add(b.center, b.extents) == Splat(FltMin) && Add(b.center, b.extents) != Splat(-1.0)
  {
    GenerateAabbAsWrittenLoose();
  }

  /** `Entity(model)` with the corrected `generateAABB`. */
  function NewEntityFixed(meshes: seq<seq<Vec3>>): (e: Entity)
    ensures e.transform.isDirty && e.children == []
    ensures forall p :: p in Flatten(meshes) ==>
      LeV(Sub(e.boundingVolume.center, e.boundingVolume.extents), p) && LeV(p, Add(e.boundingVolume.center, e.boundingVolume.extents))
  {
    Entity(DefaultTransform, GenerateAabb(meshes), [])
  }

  /** With the corrected box, every face of a new entity's box touches a
      vertex of its model, and it differs from the constructor as written
      only in the box. */
  lemma NewEntityFixedTight(meshes: seq<seq<Vec3>>, k: nat)
    requires k < 3
    requires Flatten(meshes) != []
    requires forall p :: p in Flatten(meshes) ==> InFloatRange(p)
    ensures var b, ps := NewEntityFixed(meshes).boundingVolume, Flatten(meshes);
      (exists i :: 0 <= i < |ps| && Coord(ps[i], k) == Coord(Sub(b.center, b.extents), k)) &&
      (exists i :: 0 <= i < |ps| && Coord(ps[i], k) == Coord(Add(b.center, b.extents), k))
    ensures NewEntityFixed(meshes).(boundingVolume := NewEntity(meshes).boundingVolume) == NewEntity(meshes)
  {
    GenerateAabbTight(meshes, k);
  }

  /** `addChild`: the new child goes last. */
  function AddChild(e: Entity, child: Entity): (r: Entity)
    ensures |r.children| == |e.children| + 1 && r.children[|e.children|] == child
    ensures r.children[..|e.children|] == e.children
    ensures r.transform == e.transform && r.boundingVolume == e.boundingVolume
  {
    e.(children := e.children + [child])
  }

  function Size(e: Entity): nat
    decreases e
  {
    1 + SizeAll(e.children)
  }

  function SizeAll(cs: seq<Entity>): nat
    decreases cs
  {
    if cs == [] then 0 else Size(cs[0]) + SizeAll(cs[1..])
  }

  /** `forceUpdateSelfAndChild`: recompute this node against its parent's
      global matrix, then every child against the new one. */
  function ForceUpdate(e: Entity, parent: Option<Mat4>, trs: LocalMatrixFn): (r: Entity)
    ensures r.boundingVolume == e.boundingVolume && |r.children| == |e.children|
    decreases e
  {
    var t := ComputeModelMatrix(e.transform, parent, trs);
    Entity(t, e.boundingVolume, ForceUpdateAll(e.children, Some(t.modelMatrix), trs))
  }

  function ForceUpdateAll(cs: seq<Entity>, parent: Option<Mat4>, trs: LocalMatrixFn): (rs: seq<Entity>)
    ensures |rs| == |cs|
    decreases cs
  {
    if cs == [] then [] else [ForceUpdate(cs[0], parent, trs)] + ForceUpdateAll(cs[1..], parent, trs)
  }

  /** `updateSelfAndChild`: a dirty node forces its whole subtree; a clean
      one passes its current matrix down to its children. */
  function Update(e: Entity, parent: Option<Mat4>, trs: LocalMatrixFn): (r: Entity)
    ensures r.boundingVolume == e.boundingVolume && |r.children| == |e.children|
    decreases e
  {
    if e.transform.isDirty then ForceUpdate(e, parent, trs)
    else e.(children := UpdateAll(e.children, Some(e.transform.modelMatrix), trs))
  }

  function UpdateAll(cs: seq<Entity>, parent: Option<Mat4>, trs: LocalMatrixFn): (rs: seq<Entity>)
    ensures |rs| == |cs|
    decreases cs
  {
    if cs == [] then [] else [Update(cs[0], parent, trs)] + UpdateAll(cs[1..], parent, trs)
  }

  /** Every node is clean and holds its parent's global matrix times its own local one. */
  predicate Consistent(e: Entity, parent: Option<Mat4>, trs: LocalMatrixFn)
    decreases e
  {
    !e.transform.isDirty &&
    e.transform.modelMatrix == Global(parent, LocalModelMatrix(e.transform, trs)) &&
    AllConsistent(e.children, Some(e.transform.modelMatrix), trs)
  }

  predicate AllConsistent(cs: seq<Entity>, parent: Option<Mat4>, trs: LocalMatrixFn)
    decreases cs
  {
    cs == [] || (Consistent(cs[0], parent, trs) && AllConsistent(cs[1..], parent, trs))
  }

  /** What the dirty flags promise: every clean node whose ancestors are all
      clean holds its parent's global matrix times its own local one. */
  predicate Cached(e: Entity, parent: Option<Mat4>, trs: LocalMatrixFn)
    decreases e
  {
    e.transform.isDirty ||
    (e.transform.modelMatrix == Global(parent, LocalModelMatrix(e.transform, trs)) &&
     AllCached(e.children, Some(e.transform.modelMatrix), trs))
  }

  predicate AllCached(cs: seq<Entity>, parent: Option<Mat4>, trs: LocalMatrixFn)
    decreases cs
  {
    cs == [] || (Cached(cs[0], parent, trs) && AllCached(cs[1..], parent, trs))
  }

  /** A forced update leaves the whole subtree clean and consistent. */
  lemma {:induction false} ForceUpdateConsistent(e: Entity, parent: Option<Mat4>, trs: LocalMatrixFn)
    ensures Consistent(ForceUpdate(e, parent, trs), parent, trs)
    decreases e
  {
    var t := ComputeModelMatrix(e.transform, parent, trs);
    ForceUpdateAllConsistent(e.children, Some(t.modelMatrix), trs);
  }

  lemma {:induction false} ForceUpdateAllConsistent(cs: seq<Entity>, parent: Option<Mat4>, trs: LocalMatrixFn)
    ensures AllConsistent(ForceUpdateAll(cs, parent, trs), parent, trs)
    decreases cs
  {
    if cs != [] {
      ForceUpdateConsistent(cs[0], parent, trs);
      ForceUpdateAllConsistent(cs[1..], parent, trs);
      var rs := ForceUpdateAll(cs, parent, trs);
      assert rs[0] == ForceUpdate(cs[0], parent, trs);
      assert rs[1..] == ForceUpdateAll(cs[1..], parent, trs);
    }
  }

  /** The dirty-flag update is as good as a forced one: from any tree whose
      flags tell the truth it reaches a clean, consistent tree. */
  lemma {:induction false} UpdateConsistent(e: Entity, parent: Option<Mat4>, trs: LocalMatrixFn)
    requires Cached(e, parent, trs)
    ensures Consistent(Update(e, parent, trs), parent, trs)
    decreases e
  {
    if e.transform.isDirty {
      ForceUpdateConsistent(e, parent, trs);
    } else {
      UpdateAllConsistent(e.children, Some(e.transform.modelMatrix), trs);
    }
  }

  lemma {:induction false} UpdateAllConsistent(cs: seq<Entity>, parent: Option<Mat4>, trs: LocalMatrixFn)
    requires AllCached(cs, parent, trs)
    ensures AllConsistent(UpdateAll(cs, parent, trs), parent, trs)
    decreases cs
  {
    if cs != [] {
      UpdateConsistent(cs[0], parent, trs);
      UpdateAllConsistent(cs[1..], parent, trs);
      var rs := UpdateAll(cs, parent, trs);
      assert rs[0] == Update(cs[0], parent, trs);
      assert rs[1..] == UpdateAll(cs[1..], parent, trs);
    }
  }

  /** On a clean, consistent tree the update changes nothing. */
  lemma {:induction false} UpdateStable(e: Entity, parent: Option<Mat4>, trs: LocalMatrixFn)
    requires Consistent(e, parent, trs)
    ensures Update(e, parent, trs) == e
    decreases e
  {
    UpdateAllStable(e.children, Some(e.transform.modelMatrix), trs);
  }

  lemma {:induction false} UpdateAllStable(cs: seq<Entity>, parent: Option<Mat4>, trs: LocalMatrixFn)
    requires AllConsistent(cs, parent, trs)
    ensures UpdateAll(cs, parent, trs) == cs
    decreases cs
  {
    if cs != [] {
      UpdateStable(cs[0], parent, trs);
      UpdateAllStable(cs[1..], parent, trs);
      assert [cs[0]] + cs[1..] == cs;
    }
  }

  /** No node of the tree is dirty. */
  predicate NoneDirty(e: Entity)
    decreases e
  {
    !e.transform.isDirty && NoneDirtyAll(e.children)
  }

  predicate NoneDirtyAll(cs: seq<Entity>)
    decreases cs
  {
    cs == [] || (NoneDirty(cs[0]) && NoneDirtyAll(cs[1..]))
  }

  lemma {:induction false} ConsistentNoneDirty(e: Entity, parent: Option<Mat4>, trs: LocalMatrixFn)
    requires Consistent(e, parent, trs)
    ensures NoneDirty(e)
    decreases e
  {
    ConsistentNoneDirtyAll(e.children, Some(e.transform.modelMatrix), trs);
  }

  lemma {:induction false} ConsistentNoneDirtyAll(cs: seq<Entity>, parent: Option<Mat4>, trs: LocalMatrixFn)
    requires AllConsistent(cs, parent, trs)
    ensures NoneDirtyAll(cs)
    decreases cs
  {
    if cs != [] {
      ConsistentNoneDirty(cs[0], parent, trs);
      ConsistentNoneDirtyAll(cs[1..], parent, trs);
    }
  }

  /** Whatever the flags held before, no node is dirty after the update. */
  lemma {:induction false} UpdateLeavesNoneDirty(e: Entity, parent: Option<Mat4>, trs: LocalMatrixFn)
    ensures NoneDirty(Update(e, parent, trs))
    decreases e
  {
    if e.transform.isDirty {
      ForceUpdateConsistent(e, parent, trs);
      ConsistentNoneDirty(ForceUpdate(e, parent, trs), parent, trs);
    } else {
      UpdateAllLeavesNoneDirty(e.children, Some(e.transform.modelMatrix), trs);
    }
  }

  lemma {:induction false} UpdateAllLeavesNoneDirty(cs: seq<Entity>, parent: Option<Mat4>, trs: LocalMatrixFn)
    ensures NoneDirtyAll(UpdateAll(cs, parent, trs))
    decreases cs
  {
    if cs != [] {
      UpdateLeavesNoneDirty(cs[0], parent, trs);
      UpdateAllLeavesNoneDirty(cs[1..], parent, trs);
      var rs := UpdateAll(cs, parent, trs);
      assert rs[0] == Update(cs[0], parent, trs);
      assert rs[1..] == UpdateAll(cs[1..], parent, trs);
    }
  }

  // ---------------------------------------------------------------- drawSelfAndChild

  /** The `display` and `total` counters, both `unsigned int`. */
  datatype Counters = Counters(display: nat, total: nat)

  predicate CountersValid(c: Counters) { CInt.IsUint32(c.display) && CInt.IsUint32(c.total) }

  /** Whether the entity's box, carried by its transform, passes the frustum test. */
  function Visible(e: Entity, f: Frustum): bool {
    AabbIsOnFrustum(e.boundingVolume, f, e.transform)
  }

  /** `drawSelfAndChild`: count this entity as displayed when visible, count
      it in the total always, then walk the children in order. */
  function Draw(e: Entity, f: Frustum, c: Counters): Counters
    decreases e
  {
    var shown := if Visible(e, f) then c.(display := CInt.Wrap32(c.display + 1)) else c;
    var counted := shown.(total := CInt.Wrap32(shown.total + 1));
    DrawAll(e.children, f, counted)
  }

  function DrawAll(cs: seq<Entity>, f: Frustum, c: Counters): Counters
    decreases cs
  {
    if cs == [] then c else DrawAll(cs[1..], f, Draw(cs[0], f, c))
  }

  /** The number of visible entities in a tree. */
  function VisibleCount(e: Entity, f: Frustum): nat
    decreases e
  {
    (if Visible(e, f) then 1 else 0) + VisibleCountAll(e.children, f)
  }

  function VisibleCountAll(cs: seq<Entity>, f: Frustum): nat
    decreases cs
  {
    if cs == [] then 0 else VisibleCount(cs[0], f) + VisibleCountAll(cs[1..], f)
  }

  lemma {:induction false} VisibleAtMostSize(e: Entity, f: Frustum)
    ensures VisibleCount(e, f) <= Size(e)
    decreases e
  {
    VisibleAtMostSizeAll(e.children, f);
  }

  lemma {:induction false} VisibleAtMostSizeAll(cs: seq<Entity>, f: Frustum)
    ensures VisibleCountAll(cs, f) <= SizeAll(cs)
    decreases cs
  {
    if cs != [] {
      VisibleAtMostSize(cs[0], f);
      VisibleAtMostSizeAll(cs[1..], f);
    }
  }

  /** The walk adds the number of visible entities to `display` and the
      number of entities to `total`, modulo 2^32. */
  lemma {:induction false} DrawCounts(e: Entity, f: Frustum, c: Counters)
    requires CountersValid(c)
    ensures Draw(e, f, c) == Counters(CInt.Wrap32(c.display + VisibleCount(e, f)), CInt.Wrap32(c.total + Size(e)))
    decreases e
  {
    var v := if Visible(e, f) then 1 else 0;
    var shown := if Visible(e, f) then c.(display := CInt.Wrap32(c.display + 1)) else c;
    var counted := shown.(total := CInt.Wrap32(shown.total + 1));
    assert counted == Counters(CInt.Wrap32(c.display + v), CInt.Wrap32(c.total + 1));
    DrawAllCounts(e.children, f, counted);
    CInt.Wrap32Add(c.display + v, VisibleCountAll(e.children, f));
    CInt.Wrap32Add(c.total + 1, SizeAll(e.children));
  }

  lemma {:induction false} DrawAllCounts(cs: seq<Entity>, f: Frustum, c: Counters)
    requires CountersValid(c)
    ensures DrawAll(cs, f, c) == Counters(CInt.Wrap32(c.display + VisibleCountAll(cs, f)), CInt.Wrap32(c.total + SizeAll(cs)))
    decreases cs
  {
    if cs != [] {
      var c1 := Draw(cs[0], f, c);
      DrawCounts(cs[0], f, c);
      DrawAllCounts(cs[1..], f, c1);
      CInt.Wrap32Add(c.display + VisibleCount(cs[0], f), VisibleCountAll(cs[1..], f));
      CInt.Wrap32Add(c.total + Size(cs[0]), SizeAll(cs[1..]));
    }
  }
}

=== FILE: geometry.dfy ===
/** The small part of GLM's vector and matrix algebra the scene code uses,
    over reals: 3- and 4-component vectors, column-major 4x4 matrices, the
    dot product, and matrix-vector and matrix-matrix products. */
module Geometry {

  datatype Vec3 = Vec3(x: real, y: real, z: real)
  datatype Vec4 = Vec4(x: real, y: real, z: real, w: real)

  /** A column-major 4x4 matrix: `m[j]` in GLM is column `cj`. */
  datatype Mat4 = Mat4(c0: Vec4, c1: Vec4, c2: Vec4, c3: Vec4)

  function Splat(s: real): Vec3 { Vec3(s, s, s) }
  function Add(a: Vec3, b: Vec3): Vec3 { Vec3(a.x + b.x, a.y + b.y, a.z + b.z) }
  function Sub(a: Vec3, b: Vec3): Vec3 { Vec3(a.x - b.x, a.y - b.y, a.z - b.z) }
  function Scale(a: Vec3, s: real): Vec3 { Vec3(a.x * s, a.y * s, a.z * s) }
  function Negate(a: Vec3): Vec3 { Vec3(-a.x, -a.y, -a.z) }
  function Dot(a: Vec3, b: Vec3): real { a.x * b.x + a.y * b.y + a.z * b.z }

  /** `glm::vec3(v4)`: drop the fourth component. */
  function Xyz(v: Vec4): Vec3 { Vec3(v.x, v.y, v.z) }
  function Point(p: Vec3): Vec4 { Vec4(p.x, p.y, p.z, 1.0) }

  function Scale4(v: Vec4, s: real): Vec4 { Vec4(v.x * s, v.y * s, v.z * s, v.w * s) }
  function Add4(a: Vec4, b: Vec4): Vec4 { Vec4(a.x + b.x, a.y + b.y, a.z + b.z, a.w + b.w) }

  const Identity: Mat4 := Mat4(Vec4(1.0, 0.0, 0.0, 0.0), Vec4(0.0, 1.0, 0.0, 0.0),
                               Vec4(0.0, 0.0, 1.0, 0.0), Vec4(0.0, 0.0, 0.0, 1.0))

  /** `m * v`: the combination of the columns weighted by `v`. */
  function MulVec(m: Mat4, v: Vec4): Vec4 {
    Add4(Add4(Scale4(m.c0, v.x), Scale4(m.c1, v.y)), Add4(Scale4(m.c2, v.z), Scale4(m.c3, v.w)))
  }

  /** `a * b`: column `j` of the product is `a` applied to column `j` of `b`. */
  function MatMul(a: Mat4, b: Mat4): Mat4 {
    Mat4(MulVec(a, b.c0), MulVec(a, b.c1), MulVec(a, b.c2), MulVec(a, b.c3))
  }

  /** `glm::vec3(m * glm::vec4(p, 1))`. */
  function TransformPoint(m: Mat4, p: Vec3): Vec3 { Xyz(MulVec(m, Point(p))) }

  lemma IdentityMulVec(v: Vec4)
    ensures MulVec(Identity, v) == v
  {
  }

  lemma IdentityMatMul(b: Mat4)
    ensures MatMul(Identity, b) == b
  {
    IdentityMulVec(b.c0);
    IdentityMulVec(b.c1);
    IdentityMulVec(b.c2);
    IdentityMulVec(b.c3);
  }
}

=== FILE: glfw_keys.dfy ===
/** The GLFW key and action codes the demos compare against (values of
    `GLFW/glfw3.h`, which is not part of this model), the `bool keys[1024]`
    arrays the demos keep, and the camera movements they request. */
module Glfw {
  import opened Wrappers

  const KeyUnknown: int := -1
  const KeySpace: int := 32
  const Key1: int := 49
  const Key2: int := 50
  const Key3: int := 51
  const Key4: int := 52
  const KeyA: int := 65
  const KeyB: int := 66
  const KeyD: int := 68
  const KeyE: int := 69
  const KeyI: int := 73
  const KeyQ: int := 81
  const KeyR: int := 82
  const KeyS: int := 83
  const KeyW: int := 87
  const KeyEscape: int := 256
  const KeyRight: int := 262
  const KeyLeft: int := 263
  const KeyDown: int := 264
  const KeyUp: int := 265
  const KeyLeftShift: int := 340

  const Release: int := 0
  const Press: int := 1
  const Repeat: int := 2

  /** The length of every `keys` / `keysPressed` array in the demos. */
  const KeyCount: nat := 1024

  /** A zero-initialised global `bool keys[1024]`. */
  const AllUp: seq<bool> := seq(KeyCount, _ => false)

  /** Whether `key` names an element of an array of `KeyCount` flags. */
  predicate InArray(key: int) { 0 <= key < KeyCount }

  /** `keys[key]`, or `None` where C++ would read outside the array. */
  function Get(keys: seq<bool>, key: int): (r: Option<bool>)
    ensures r.Some? <==> 0 <= key < |keys|
    ensures r.Some? ==> r.value == keys[key]
  {
    if 0 <= key < |keys| then Some(keys[key]) else None
  }

  /** `keys[key] = v`, or `None` where C++ would write outside the array. */
  function Set(keys: seq<bool>, key: int, v: bool): (r: Option<seq<bool>>)
    ensures r.Some? <==> 0 <= key < |keys|
    ensures r.Some? ==> |r.value| == |keys| && r.value[key] == v &&
                        forall k :: 0 <= k < |keys| && k != key ==> r.value[k] == keys[k]
  {
    if 0 <= key < |keys| then Some(keys[key := v]) else None
  }

  /** A write followed by a read of the same key returns what was written,
      and a read of any other key is unaffected. */
  lemma SetThenGet(keys: seq<bool>, key: int, v: bool, other: int)
    requires 0 <= key < |keys|
    ensures Get(Set(keys, key, v).value, key) == Some(v)
    ensures other != key ==> Get(Set(keys, key, v).value, other) == Get(keys, other)
  {
  }

  /** The `Camera_Movement` values passed to `Camera::ProcessKeyboard`
      (`camera.h` is not part of this model). */
  datatype CameraMove = Forward | Backward | Left | Right
}

=== FILE: hash.dfy ===
/** `std::hash` support for GLM types (`glm/gtx/hash.inl`) on a 64-bit
    `size_t`: `hash_combine` and the vector, quaternion, dual-quaternion
    and matrix hashes that fold it over the element hashes from seed 0.
    The hash of an element type `T` is a parameter. */
module GlmHash {

  /** What `hash_combine` adds to the element hash: the golden-ratio
      constant and two shifts of the seed. */
  function Spread(seed: bv64): bv64 {
    0x9e3779b9 + (seed << 6) + (seed >> 2)
  }

  /** `hash_combine(seed, hash)`: the new seed, with `size_t` wrap-around. */
  function HashCombine(seed: bv64, hash: bv64): bv64 {
    seed ^ (hash + Spread(seed))
  }

  /** The element hash a combine step absorbed, recovered from the seeds
      before and after it. */
  function Uncombine(seed: bv64, next: bv64): bv64 {
    (next ^ seed) - Spread(seed)
  }

  /** Undoing one combine step, with the combined seed written out. */
  lemma UncombineUnfolded(seed: bv64, hash: bv64)
    ensures Uncombine(seed, seed ^ (hash + Spread(seed))) == hash
  {
  }

  /** For a fixed seed, combining is invertible, so two different element
      hashes always give two different seeds. */
  lemma UncombineCombine(seed: bv64, hash: bv64)
    ensures Uncombine(seed, HashCombine(seed, hash)) == hash
  {
    UncombineUnfolded(seed, hash);
    assert HashCombine(seed, hash) == seed ^ (hash + Spread(seed));
  }

  lemma HashCombineInjective(seed: bv64, h1: bv64, h2: bv64)
    ensures HashCombine(seed, h1) == HashCombine(seed, h2) <==> h1 == h2
  {
    UncombineCombine(seed, h1);
    UncombineCombine(seed, h2);
  }

  /** `hash_combine` applied to each hash in order, starting from `seed`. */
  function FoldFrom(seed: bv64, hs: seq<bv64>): bv64
    decreases |hs|
  {
    if |hs| == 0 then seed else FoldFrom(HashCombine(seed, hs[0]), hs[1..])
  }

  /** The fold from seed 0 that every composite hash performs. */
  function Fold(hs: seq<bv64>): bv64 {
    FoldFrom(0, hs)
  }

  /** The last combine step is the outermost one. */
  lemma {:induction false} FoldFromSnoc(seed: bv64, hs: seq<bv64>, h: bv64)
    ensures FoldFrom(seed, hs + [h]) == HashCombine(FoldFrom(seed, hs), h)
    decreases |hs|
  {
    if |hs| == 0 {
      assert [h][1..] == [];
    } else {
      assert (hs + [h])[1..] == hs[1..] + [h];
      FoldFromSnoc(HashCombine(seed, hs[0]), hs[1..], h);
    }
  }

  /** Two sequences of element hashes that agree up to the last one fold to
      different values when the last ones differ. */
  lemma FoldLastInjective(hs: seq<bv64>, a: bv64, b: bv64)
    ensures Fold(hs + [a]) == Fold(hs + [b]) <==> a == b
  {
    FoldFromSnoc(0, hs, a);
    FoldFromSnoc(0, hs, b);
    HashCombineInjective(Fold(hs), a, b);
  }

  // ---------------------------------------------------------------- GLM types

  /** `hash<tvec1>`: the element's own hash, with no combine step. */
  function HashVec1<T>(hasher: T -> bv64, x: T): bv64 {
    hasher(x)
  }

  /** `hash<tvec2>`, `hash<tvec3>`, `hash<tvec4>`: the components in order
      x, y, z, w. */
  function HashVec<T>(hasher: T -> bv64, components: seq<T>): bv64
    requires 2 <= |components| <= 4
  {
    Fold(seq(|components|, i requires 0 <= i < |components| => hasher(components[i])))
  }

  /** `glm::tquat`: the four parts the hash reads. */
  datatype Quat<T> = Quat(x: T, y: T, z: T, w: T)

  /** `hash<tquat>`: x, y, z, then w. */
  function HashQuat<T>(hasher: T -> bv64, q: Quat<T>): bv64 {
    Fold([hasher(q.x), hasher(q.y), hasher(q.z), hasher(q.w)])
  }

  /** `hash<tdualquat>`: the real part's hash, then the dual part's. */
  function HashDualQuat<T>(hasher: T -> bv64, realPart: Quat<T>, dualPart: Quat<T>): bv64 {
    Fold([HashQuat(hasher, realPart), HashQuat(hasher, dualPart)])
  }

  /** `hash<tmatCxR>`: the column hashes in column order. */
  function HashMat<T>(hasher: T -> bv64, columns: seq<seq<T>>): bv64
    requires 2 <= |columns| <= 4
    requires forall i :: 0 <= i < |columns| ==> 2 <= |columns[i]| <= 4
  {
    Fold(seq(|columns|, i requires 0 <= i < |columns| => HashVec(hasher, columns[i])))
  }

  /** A quaternion hashes like the 4-vector (x, y, z, w), and a matrix is
      the fold of its column-vector hashes, column 0 first. */
  lemma CompositeHashes<T>(hasher: T -> bv64, q: Quat<T>, columns: seq<seq<T>>)
    requires 2 <= |columns| <= 4
    requires forall i :: 0 <= i < |columns| ==> 2 <= |columns[i]| <= 4
    ensures HashQuat(hasher, q) == HashVec(hasher, [q.x, q.y, q.z, q.w])
    ensures HashMat(hasher, columns) ==
      HashCombine(Fold(seq(|columns| - 1, i requires 0 <= i < |columns| - 1 => HashVec(hasher, columns[i]))),
                  HashVec(hasher, columns[|columns| - 1]))
  {
    var hs := seq(|columns|, i requires 0 <= i < |columns| => HashVec(hasher, columns[i]));
    assert hs == hs[..|columns| - 1] + [hs[|columns| - 1]];
    FoldFromSnoc(0, hs[..|columns| - 1], hs[|columns| - 1]);
    assert hs[..|columns| - 1] == seq(|columns| - 1, i requires 0 <= i < |columns| - 1 => HashVec(hasher, columns[i]));
    var qs := [hasher(q.x), hasher(q.y), hasher(q.z), hasher(q.w)];
    assert seq(4, i requires 0 <= i < 4 => hasher([q.x, q.y, q.z, q.w][i])) == qs;
  }

  /** Two 2-vectors with equal first components hash apart when their
      second components hash apart. */
  lemma Vec2SecondComponent<T>(hasher: T -> bv64, x: T, y1: T, y2: T)
    ensures HashVec(hasher, [x, y1]) == HashVec(hasher, [x, y2]) <==> hasher(y1) == hasher(y2)
  {
    assert seq(2, i requires 0 <= i < 2 => hasher([x, y1][i])) == [hasher(x)] + [hasher(y1)];
    assert seq(2, i requires 0 <= i < 2 => hasher([x, y2][i])) == [hasher(x)] + [hasher(y2)];
    FoldLastInjective([hasher(x)], hasher(y1), hasher(y2));
  }

  /** The first combine step from seed 0 only adds the constant, so a
      one-vector's hash differs from a one-element fold by that constant. */
  lemma FirstStep<T>(hasher: T -> bv64, x: T)
    ensures HashCombine(0, hasher(x)) == HashVec1(hasher, x) + 0x9e3779b9
    ensures Fold([HashVec1(hasher, x)]) == HashVec1(hasher, x) + 0x9e3779b9
  {
    var h := hasher(x);
    assert Spread(0) == 0x9e3779b9;
    assert [h][1..] == [];
    assert FoldFrom(0, [h]) == FoldFrom(HashCombine(0, h), []);
  }

  /** A 2-vector's hash: the first component plus the constant, then one
      combine step with the second component. */
  lemma Vec2Hash<T>(hasher: T -> bv64, x: T, y: T)
    ensures HashVec(hasher, [x, y]) == HashCombine(hasher(x) + 0x9e3779b9, hasher(y))
  {
    FirstStep(hasher, x);
    assert seq(2, i requires 0 <= i < 2 => hasher([x, y][i])) == [hasher(x)] + [hasher(y)];
    FoldFromSnoc(0, [hasher(x)], hasher(y));
  }
}

=== FILE: hdr.dfy ===
/** The input logic of the HDR demo (`src/5.advanced_lighting/6.hdr/hdr.cpp`):
    `Do_Movement` turns held keys into camera movements, toggles tone
    mapping once per press of Space and steps the exposure with Q and E;
    `key_callback` is `DebouncedKeys.KeyCallback`. */
module HdrDemo {
  import opened Glfw
  import opened DebouncedKeys

  /** The demo's globals: the key arrays, `hdr` and `exposure`. */
  datatype HdrState = HdrState(input: Input, hdr: bool, exposure: real)

  predicate ValidState(s: HdrState) { Valid(s.input) }

  /** Program start: tone mapping on, exposure 1. */
  const InitialState: HdrState := HdrState(Initial, true, 1.0)

  /** `Do_Movement()` with the frame time `dt`: the new state and the
      camera calls made. */
  function DoMovement(s: HdrState, dt: real): (r: (HdrState, seq<CameraMove>))
    requires ValidState(s)
    ensures ValidState(r.0) && r.1 == Moves(s.input.keys)
    ensures r.0.hdr != s.hdr <==> s.input.keys[KeySpace] && !s.input.keysPressed[KeySpace]
    ensures r.0.input.keysPressed[KeySpace] <==> s.input.keysPressed[KeySpace] || s.input.keys[KeySpace]
    ensures r.0.input.keys == s.input.keys && r.0.input.closeRequested == s.input.closeRequested
    ensures forall k :: 0 <= k < KeyCount && k != KeySpace ==> r.0.input.keysPressed[k] == s.input.keysPressed[k]
    ensures s.input.keys[KeyQ] ==> r.0.exposure == s.exposure - 0.5 * dt
    ensures !s.input.keys[KeyQ] && s.input.keys[KeyE] ==> r.0.exposure == s.exposure + 0.5 * dt
    ensures !s.input.keys[KeyQ] && !s.input.keys[KeyE] ==> r.0.exposure == s.exposure
  {
    var keys := s.input.keys;
    var toggled :=
      if keys[KeySpace] && !s.input.keysPressed[KeySpace] then
        s.(hdr := !s.hdr, input := s.input.(keysPressed := s.input.keysPressed[KeySpace := true]))
      else s;
    var exposed :=
      if keys[KeyQ] then toggled.(exposure := toggled.exposure - 0.5 * dt)
      else if keys[KeyE] then toggled.(exposure := toggled.exposure + 0.5 * dt)
      else toggled;
    (exposed, Moves(keys))
  }

  /** `Do_Movement` once per frame, with no key events in between. */
  function Frames(s: HdrState, dts: seq<real>): (r: HdrState)
    requires ValidState(s)
    ensures ValidState(r) && r.input.keys == s.input.keys
    decreases |dts|
  {
    if |dts| == 0 then s else Frames(DoMovement(s, dts[0]).0, dts[1..])
  }

  /** Holding Space over any number of frames toggles `hdr` at most once:
      in the first frame if the press has not been consumed, never after. */
  lemma {:induction false} HoldingSpaceTogglesOnce(s: HdrState, dts: seq<real>)
    requires ValidState(s) && s.input.keys[KeySpace]
    ensures Frames(s, dts).hdr == (if |dts| > 0 && !s.input.keysPressed[KeySpace] then !s.hdr else s.hdr)
    ensures |dts| > 0 ==> Frames(s, dts).input.keysPressed[KeySpace]
    decreases |dts|
  {
    if |dts| > 0 {
      var s1 := DoMovement(s, dts[0]).0;
      HeldSpaceIsStable(s1, dts[1..]);
    }
  }

  /** Once the press is consumed, further frames leave `hdr` alone. */
  lemma {:induction false} HeldSpaceIsStable(s: HdrState, dts: seq<real>)
    requires ValidState(s) && s.input.keys[KeySpace] && s.input.keysPressed[KeySpace]
    ensures Frames(s, dts).hdr == s.hdr && Frames(s, dts).input.keysPressed[KeySpace]
    decreases |dts|
  {
    if |dts| > 0 {
      HeldSpaceIsStable(DoMovement(s, dts[0]).0, dts[1..]);
    }
  }

  /** Releasing Space re-arms the toggle: a release, a new press and a frame
      toggle `hdr` again, whatever state the key was in. */
  lemma ReleaseRearmsToggle(s: HdrState, dt: real)
    requires ValidState(s)
    ensures var released := s.(input := KeyCallback(s.input, KeySpace, Release));
            var pressed := released.(input := KeyCallback(released.input, KeySpace, Press));
            DoMovement(pressed, dt).0.hdr == !s.hdr
  {
  }

  /** Q takes precedence: with Q and E both held the exposure goes down. */
  lemma QBeatsE(s: HdrState, dt: real)
    requires ValidState(s) && s.input.keys[KeyQ] && s.input.keys[KeyE] && dt > 0.0
    ensures DoMovement(s, dt).0.exposure < s.exposure
  {
  }
}

=== FILE: irrklang_types.dfy ===
/** The scalar helpers of `irrKlang/ik_irrKlangTypes.h`: the float
    comparison with a tolerance, over reals. */
module IrrTypes {
  import RealMath

  /** `IK_ROUNDING_ERROR_32`, the default tolerance. */
  const RoundingError32: real := 0.000001

  /** `equalsfloat(a, b, tolerance)`: `a + tolerance > b` and
      `a - tolerance < b`; that is, `a` and `b` are less than `tolerance`
      apart. */
  function EqualsFloat(a: real, b: real, tolerance: real): (r: bool)
    ensures r <==> RealMath.Abs(a - b) < tolerance
  {
    a + tolerance > b && a - tolerance < b
  }

  /** `equalsfloat(a, b)` with the default tolerance. */
  function EqualsFloatDefault(a: real, b: real): (r: bool)
    ensures r <==> RealMath.Abs(a - b) < 0.000001
  {
    EqualsFloat(a, b, RoundingError32)
  }

  /** Over reals, every value equals itself under a positive tolerance, and
      under no other; in `float` a tolerance below half the spacing of floats
      near `a` is lost in `a + tolerance`. */
  lemma EqualsFloatReflexive(a: real, tolerance: real)
    ensures EqualsFloat(a, a, tolerance) <==> tolerance > 0.0
  {
  }

  lemma EqualsFloatSymmetric(a: real, b: real, tolerance: real)
    ensures EqualsFloat(a, b, tolerance) == EqualsFloat(b, a, tolerance)
  {
  }

  /** A tolerance that is zero or negative makes every comparison false. */
  lemma EqualsFloatNonPositiveTolerance(a: real, b: real, tolerance: real)
    requires tolerance <= 0.0
    ensures !EqualsFloat(a, b, tolerance)
  {
  }

  /** Over reals, on integer values the default tolerance is exact equality. */
  lemma EqualsFloatOnIntegers(a: int, b: int)
    ensures EqualsFloatDefault(a as real, b as real) <==> a == b
  {
  }
}

=== FILE: min_max.dfy ===
/** GLM's 3- and 4-argument `min`/`max` (`glm/gtx/extended_min_max.inl`,
    `glm/ext/scalar_common.inl`), their vector overloads, and the
    NaN-skipping `fmin`/`fmax`/`fclamp`. The two-argument `min(x, y)` is
    `(y < x) ? y : x` and `max(x, y)` is `(x < y) ? y : x` (from
    `func_common.inl`, which is not part of this model); floats are reals,
    and NaN is an explicit value that every comparison rejects. */
module MinMax {
  import opened RealMath
  import opened Geometry

  // ---------------------------------------------------------------- Real arguments

  function Min3(x: real, y: real, z: real): (r: real)
    ensures r <= x && r <= y && r <= z
    ensures r == x || r == y || r == z
  {
    Min(Min(x, y), z)
  }

  function Min4(x: real, y: real, z: real, w: real): (r: real)
    ensures r <= x && r <= y && r <= z && r <= w
    ensures r == x || r == y || r == z || r == w
  {
    Min(Min(x, y), Min(z, w))
  }

  function Max3(x: real, y: real, z: real): (r: real)
    ensures r >= x && r >= y && r >= z
    ensures r == x || r == y || r == z
  {
    Max(Max(x, y), z)
  }

  function Max4(x: real, y: real, z: real, w: real): (r: real)
    ensures r >= x && r >= y && r >= z && r >= w
    ensures r == x || r == y || r == z || r == w
  {
    Max(Max(x, y), Max(z, w))
  }

  /** The 4-argument forms pair the arguments, yet agree with folding them
      left to right. */
  lemma Min4IsFold(x: real, y: real, z: real, w: real)
    ensures Min4(x, y, z, w) == Min(Min3(x, y, z), w)
    ensures Max4(x, y, z, w) == Max(Max3(x, y, z), w)
  {
  }

  // ---------------------------------------------------------------- Vector overloads

  function MinV(a: Vec3, b: Vec3): Vec3 { Vec3(Min(a.x, b.x), Min(a.y, b.y), Min(a.z, b.z)) }
  function MaxV(a: Vec3, b: Vec3): Vec3 { Vec3(Max(a.x, b.x), Max(a.y, b.y), Max(a.z, b.z)) }

  /** `min(C<T> x, C<T> y, C<T> z)` and the overload taking scalars `y` and
      `z`, which are broadcast. */
  function Min3V(x: Vec3, y: Vec3, z: Vec3): Vec3 { MinV(MinV(x, y), z) }
  function Min3VS(x: Vec3, y: real, z: real): Vec3 { MinV(MinV(x, Splat(y)), Splat(z)) }
  function Min4V(x: Vec3, y: Vec3, z: Vec3, w: Vec3): Vec3 { MinV(MinV(x, y), MinV(z, w)) }
  function Max3V(x: Vec3, y: Vec3, z: Vec3): Vec3 { MaxV(MaxV(x, y), z) }
  function Max3VS(x: Vec3, y: real, z: real): Vec3 { MaxV(MaxV(x, Splat(y)), Splat(z)) }
  function Max4V(x: Vec3, y: Vec3, z: Vec3, w: Vec3): Vec3 { MaxV(MaxV(x, y), MaxV(z, w)) }

  /** The vector overloads apply the scalar rule to each component. */
  lemma VectorOverloadsComponentwise(x: Vec3, y: Vec3, z: Vec3, w: Vec3, s: real, t: real)
    ensures Min3V(x, y, z) == Vec3(Min3(x.x, y.x, z.x), Min3(x.y, y.y, z.y), Min3(x.z, y.z, z.z))
    ensures Min3VS(x, s, t) == Vec3(Min3(x.x, s, t), Min3(x.y, s, t), Min3(x.z, s, t))
    ensures Min4V(x, y, z, w) == Vec3(Min4(x.x, y.x, z.x, w.x), Min4(x.y, y.y, z.y, w.y), Min4(x.z, y.z, z.z, w.z))
    ensures Max3V(x, y, z) == Vec3(Max3(x.x, y.x, z.x), Max3(x.y, y.y, z.y), Max3(x.z, y.z, z.z))
    ensures Max3VS(x, s, t) == Vec3(Max3(x.x, s, t), Max3(x.y, s, t), Max3(x.z, s, t))
    ensures Max4V(x, y, z, w) == Vec3(Max4(x.x, y.x, z.x, w.x), Max4(x.y, y.y, z.y, w.y), Max4(x.z, y.z, z.z, w.z))
  {
  }

  // ---------------------------------------------------------------- NaN-skipping forms

  /** A float: a number or NaN. */
  datatype FloatVal = Num(v: real) | NaN

  /** The numbers among `xs`, in order. */
  function Numbers(xs: seq<FloatVal>): (ns: seq<real>)
    ensures |ns| <= |xs|
  {
    if |xs| == 0 then []
    else if xs[0].NaN? then Numbers(xs[1..])
    else [xs[0].v] + Numbers(xs[1..])
  }

  /** The least of a non-empty list of numbers. */
  function Least(ns: seq<real>): (r: real)
    requires |ns| > 0
    ensures forall i :: 0 <= i < |ns| ==> r <= ns[i]
    ensures exists i :: 0 <= i < |ns| && r == ns[i]
  {
    if |ns| == 1 then ns[0]
    else
      var m := Least(ns[1..]);
      assert ns[1..][0] == ns[1];
      if m < ns[0] then m else ns[0]
  }

  function Greatest(ns: seq<real>): (r: real)
    requires |ns| > 0
    ensures forall i :: 0 <= i < |ns| ==> r >= ns[i]
    ensures exists i :: 0 <= i < |ns| && r == ns[i]
  {
    if |ns| == 1 then ns[0]
    else
      var m := Greatest(ns[1..]);
      assert ns[1..][0] == ns[1];
      if ns[0] < m then m else ns[0]
  }

  /** What an `fmin` over `xs` means: the least number among them, or NaN
      when there is none. */
  function MinOfNumbers(xs: seq<FloatVal>): FloatVal {
    var ns := Numbers(xs);
    if |ns| == 0 then NaN else Num(Least(ns))
  }

  function MaxOfNumbers(xs: seq<FloatVal>): FloatVal {
    var ns := Numbers(xs);
    if |ns| == 0 then NaN else Num(Greatest(ns))
  }

  /** Two-argument `fmin` / `fmax`: a NaN argument yields the other one. */
  function FMin2(a: FloatVal, b: FloatVal): FloatVal {
    if a.NaN? then b else if b.NaN? then a else Num(Min(a.v, b.v))
  }

  function FMax2(a: FloatVal, b: FloatVal): FloatVal {
    if a.NaN? then b else if b.NaN? then a else Num(Max(a.v, b.v))
  }

  /** `fmin(a, b, c)` as written. */
  function FMin3(a: FloatVal, b: FloatVal, c: FloatVal): FloatVal {
    if a.NaN? then FMin2(b, c)
    else if b.NaN? then FMin2(a, c)
    else if c.NaN? then Num(Min(a.v, b.v))
    else Num(Min3(a.v, b.v, c.v))
  }

  /** `fmin(a, b, c, d)` as written; `min(a, fmin(c, d))` with both `c` and
      `d` NaN keeps `a`, since NaN never compares below it. */
  function FMin4(a: FloatVal, b: FloatVal, c: FloatVal, d: FloatVal): FloatVal {
    if a.NaN? then FMin3(b, c, d)
    else if b.NaN? then (var cd := FMin2(c, d); if cd.NaN? then a else Num(Min(a.v, cd.v)))
    else if c.NaN? then FMin2(Num(Min(a.v, b.v)), d)
    else if d.NaN? then Num(Min3(a.v, b.v, c.v))
    else Num(Min4(a.v, b.v, c.v, d.v))
  }

  function FMax3(a: FloatVal, b: FloatVal, c: FloatVal): FloatVal {
    if a.NaN? then FMax2(b, c)
    else if b.NaN? then FMax2(a, c)
    else if c.NaN? then Num(Max(a.v, b.v))
    else Num(Max3(a.v, b.v, c.v))
  }

  function FMax4(a: FloatVal, b: FloatVal, c: FloatVal, d: FloatVal): FloatVal {
    if a.NaN? then FMax3(b, c, d)
    else if b.NaN? then (var cd := FMax2(c, d); if cd.NaN? then a else Num(Max(a.v, cd.v)))
    else if c.NaN? then FMax2(Num(Max(a.v, b.v)), d)
    else if d.NaN? then Num(Max3(a.v, b.v, c.v))
    else Num(Max4(a.v, b.v, c.v, d.v))
  }

  lemma NumbersOfOne(a: FloatVal)
    ensures Numbers([a]) == if a.NaN? then [] else [a.v]
  {
    assert [a][1..] == [];
  }

  /** The numbers among three arguments are the numeric arguments. */
  lemma NumbersOfThree(a: FloatVal, b: FloatVal, c: FloatVal)
    ensures forall x :: x in Numbers([a, b, c]) <==> (a.Num? && x == a.v) || (b.Num? && x == b.v) || (c.Num? && x == c.v)
    ensures |Numbers([a, b, c])| == 0 <==> a.NaN? && b.NaN? && c.NaN?
  {
    assert [a, b, c][1..] == [b, c] && [b, c][1..] == [c];
    NumbersOfOne(c);
  }

  lemma NumbersOfFour(a: FloatVal, b: FloatVal, c: FloatVal, d: FloatVal)
    ensures forall x :: x in Numbers([a, b, c, d]) <==>
      (a.Num? && x == a.v) || (b.Num? && x == b.v) || (c.Num? && x == c.v) || (d.Num? && x == d.v)
    ensures |Numbers([a, b, c, d])| == 0 <==> a.NaN? && b.NaN? && c.NaN? && d.NaN?
  {
    assert [a, b, c, d][1..] == [b, c, d];
    NumbersOfThree(b, c, d);
  }

  /** A member of the list below (above) all the others is its least
      (greatest) element. */
  lemma LeastUnique(ns: seq<real>, m: real)
    requires m in ns && forall x :: x in ns ==> m <= x
    ensures Least(ns) == m
  {
    var j :| 0 <= j < |ns| && ns[j] == m;
    assert Least(ns) <= ns[j];
    var i :| 0 <= i < |ns| && Least(ns) == ns[i];
    assert ns[i] in ns;
  }

  lemma GreatestUnique(ns: seq<real>, m: real)
    requires m in ns && forall x :: x in ns ==> m >= x
    ensures Greatest(ns) == m
  {
    var j :| 0 <= j < |ns| && ns[j] == m;
    assert Greatest(ns) >= ns[j];
    var i :| 0 <= i < |ns| && Greatest(ns) == ns[i];
    assert ns[i] in ns;
  }

  /** Every NaN argument of the 3-argument forms is skipped: the result is
      the least (greatest) of the numeric arguments, NaN only when all are. */
  lemma FMinMax3Spec(a: FloatVal, b: FloatVal, c: FloatVal)
    ensures FMin3(a, b, c) == MinOfNumbers([a, b, c])
    ensures FMax3(a, b, c) == MaxOfNumbers([a, b, c])
  {
    NumbersOfThree(a, b, c);
    var ns := Numbers([a, b, c]);
    if |ns| > 0 {
      LeastUnique(ns, FMin3(a, b, c).v);
      GreatestUnique(ns, FMax3(a, b, c).v);
    }
  }

  /** The same for the 4-argument forms. */
  lemma FMinMax4Spec(a: FloatVal, b: FloatVal, c: FloatVal, d: FloatVal)
    ensures FMin4(a, b, c, d) == MinOfNumbers([a, b, c, d])
    ensures FMax4(a, b, c, d) == MaxOfNumbers([a, b, c, d])
  {
    NumbersOfFour(a, b, c, d);
    var ns := Numbers([a, b, c, d]);
    if |ns| > 0 {
      LeastUnique(ns, FMin4(a, b, c, d).v);
      GreatestUnique(ns, FMax4(a, b, c, d).v);
    }
  }

  /** Without NaN the NaN-skipping forms are the plain ones. */
  lemma FMinNoNaN(a: real, b: real, c: real, d: real)
    ensures FMin3(Num(a), Num(b), Num(c)) == Num(Min3(a, b, c))
    ensures FMin4(Num(a), Num(b), Num(c), Num(d)) == Num(Min4(a, b, c, d))
    ensures FMax3(Num(a), Num(b), Num(c)) == Num(Max3(a, b, c))
    ensures FMax4(Num(a), Num(b), Num(c), Num(d)) == Num(Max4(a, b, c, d))
  {
  }

  /** `fclamp(x, minVal, maxVal)`: `fmin(fmax(x, minVal), maxVal)`. */
  function FClamp(x: FloatVal, minVal: FloatVal, maxVal: FloatVal): (r: FloatVal)
    ensures minVal.Num? && maxVal.Num? && minVal.v <= maxVal.v ==> r.Num? && minVal.v <= r.v <= maxVal.v
    ensures x.Num? && minVal.Num? && maxVal.Num? && minVal.v <= x.v <= maxVal.v ==> r == x
    ensures x.NaN? && minVal.Num? && maxVal.Num? && minVal.v <= maxVal.v ==> r == minVal
  {
    FMin2(FMax2(x, minVal), maxVal)
  }
}

=== FILE: model_loading.dfy ===
/** The bookkeeping of `learnopengl/model.h` around Assimp: the suffix test
    and directory extraction on paths, the choice of image loader flags,
    the per-type numbering of sampler uniforms in `MeshModel::Draw`, the
    conversion of an Assimp mesh (axis flips, default texture coordinates,
    face indices in order, diffuse then specular textures), the scratch
    vectors emptied after each mesh, the depth-first walk over the node
    tree, and the scene bounding box.

    Assimp, SOIL and OpenGL are not modelled: an imported scene is a value
    of `AiScene`, a texture keeps the flags its image would be loaded with
    instead of a GL texture name, and a sampler is the uniform name and
    texture unit `glUniform1i` would receive. */
module ModelLoading {
  import opened Geometry
  import opened Wrappers
  import Scene
  import CInt

  // ---------------------------------------------------------------- Paths

  /** The last `k` characters of `ending` equal the last `k` of `value`:
      `std::equal` over the two reverse iterators, `k` steps in. */
  function MatchFromBack(value: string, ending: string, k: nat): (r: bool)
    requires |ending| <= |value| && k <= |ending|
    ensures r <==> value[|value| - k..] == ending[|ending| - k..]
  {
    if k == 0 then true
    else
      var r := MatchFromBack(value, ending, k - 1) && ending[|ending| - k] == value[|value| - k];
      assert value[|value| - k..] == [value[|value| - k]] + value[|value| - (k - 1)..];
      assert ending[|ending| - k..] == [ending[|ending| - k]] + ending[|ending| - (k - 1)..];
      r
  }

  /** `ends_with(value, ending)`. */
  function EndsWith(value: string, ending: string): (r: bool)
    ensures r <==> |ending| <= |value| && value[|value| - |ending|..] == ending
  {
    if |ending| > |value| then false
    else
      assert ending[|ending| - |ending|..] == ending;
      MatchFromBack(value, ending, |ending|)
  }

  /** `ends_with` holds exactly when `value` is some string followed by `ending`. */
  lemma EndsWithIffConcat(value: string, ending: string)
    ensures EndsWith(value, ending) <==> exists front :: value == front + ending
  {
    if EndsWith(value, ending) {
      var front := value[..|value| - |ending|];
      assert value == front + ending;
    }
    if exists front :: value == front + ending {
      var front :| value == front + ending;
      assert value[|value| - |ending|..] == ending;
    }
  }

  /** `s.find_last_of(c)`: the position of the last `c`, `None` for `npos`. */
  function FindLastOf(s: string, c: char): (r: Option<nat>)
    ensures r.Some? ==> r.value < |s| && s[r.value] == c && c !in s[r.value + 1..]
    ensures r.None? <==> c !in s
  {
    if |s| == 0 then None
    else if s[|s| - 1] == c then Some(|s| - 1)
    else
      var r := FindLastOf(s[..|s| - 1], c);
      assert s == s[..|s| - 1] + [s[|s| - 1]];
      assert r.Some? ==> s[r.value + 1..] == s[..|s| - 1][r.value + 1..] + [s[|s| - 1]];
      r
  }

  const Backslash: char := '\\'

  /** `path.substr(0, path.find_last_of('\\'))`: everything before the last
      backslash, or the whole path when it has none (`substr(0, npos)`). */
  function Directory(path: string): (d: string)
    ensures d <= path
  {
    match FindLastOf(path, Backslash)
    case None => path
    case Some(i) => path[..i]
  }

  /** `directory + '\\' + filename` in `TextureFromFile`. */
  function JoinPath(directory: string, file: string): string {
    directory + [Backslash] + file
  }

  /** Splitting at the last backslash and joining again gives the path back;
      a path without one is its own directory. */
  lemma DirectoryJoinRoundTrip(path: string)
    ensures Backslash in path ==>
      |Directory(path)| < |path| && path == JoinPath(Directory(path), path[|Directory(path)| + 1..]) &&
      Backslash !in path[|Directory(path)| + 1..]
    ensures Backslash !in path ==> Directory(path) == path
  {
    var r := FindLastOf(path, Backslash);
    if r.Some? {
      var i := r.value;
      assert path == path[..i] + [path[i]] + path[i + 1..];
    }
  }

  /** The directory of a joined path is the directory it was joined to, as
      long as the file name itself holds no backslash. */
  lemma DirectoryOfJoin(directory: string, file: string)
    requires Backslash !in file
    ensures Directory(JoinPath(directory, file)) == directory
  {
    var p := JoinPath(directory, file);
    assert p[|directory|] == Backslash;
    assert p[|directory| + 1..] == file;
    var r := FindLastOf(p, Backslash);
    assert r.value == |directory|;
  }

  // ---------------------------------------------------------------- Image loading

  /** SOIL's `force_channels` values (from `SOIL.h`). */
  const SoilLoadAuto: bv8 := 0
  const SoilLoadRgba: bv8 := 4

  /** The `force_channels` argument `TextureFromFile` passes to
      `SOIL_load_image` for `filename`, or `None` when it loads no image. */
  function LoadFlags(filename: string): Option<bv8> {
    var first := if EndsWith(filename, ".png") || EndsWith(filename, ".jpg") then Some(SoilLoadRgba) else None;
    if EndsWith(filename, ".dds") || EndsWith(filename, ".tga") then Some(SoilLoadAuto | SoilLoadRgba) else first
  }

  /** The four recognised extensions. */
  predicate HasImageExtension(filename: string) {
    |filename| >= 4 && filename[|filename| - 4..] in {".png", ".jpg", ".dds", ".tga"}
  }

  /** An image is loaded exactly for the four extensions, and because
      `SOIL_LOAD_AUTO` is 0 both branches ask for four channels. */
  lemma LoadFlagsSpec(filename: string)
    ensures LoadFlags(filename).Some? <==> HasImageExtension(filename)
    ensures LoadFlags(filename).Some? ==> LoadFlags(filename).value == SoilLoadRgba
  {
    assert SoilLoadAuto | SoilLoadRgba == SoilLoadRgba;
    var ext := if |filename| >= 4 then filename[|filename| - 4..] else "";
    assert EndsWith(filename, ".png") <==> |filename| >= 4 && ext == ".png";
    assert EndsWith(filename, ".jpg") <==> |filename| >= 4 && ext == ".jpg";
    assert EndsWith(filename, ".dds") <==> |filename| >= 4 && ext == ".dds";
    assert EndsWith(filename, ".tga") <==> |filename| >= 4 && ext == ".tga";
  }

  /** `TextureFromFile(path, directory)`: the flags its image is loaded with. */
  function TextureFromFile(path: string, directory: string): Option<bv8> {
    LoadFlags(JoinPath(directory, path))
  }

  /** Only the file's own extension decides: the directory never matters
      once the name has four characters. */
  lemma TextureFromFileIgnoresDirectory(path: string, directory: string)
    requires |path| >= 4
    ensures TextureFromFile(path, directory) == LoadFlags(path)
  {
    var f := JoinPath(directory, path);
    assert f[|f| - 4..] == path[|path| - 4..];
    LoadFlagsSpec(f);
    LoadFlagsSpec(path);
  }

  // ---------------------------------------------------------------- Data

  /** `glm::vec2` texture coordinates. */
  datatype TexCoord = TexCoord(u: real, v: real)

  /** `Vertex`; a normal the mesh does not supply is left uninitialised,
      written `None` here. */
  datatype Vertex = Vertex(position: Vec3, normal: Option<Vec3>, texCoords: TexCoord)

  /** `Texture`: its sampler type name, the path Assimp reported and the
      flags its image was loaded with (in place of the GL texture name). */
  datatype Texture = Texture(typeName: string, path: string, loadFlags: Option<bv8>)

  datatype MeshModel = MeshModel(vertices: seq<Vertex>, indices: seq<nat>, textures: seq<Texture>)

  /** The diffuse and specular texture paths of an `aiMaterial`. */
  datatype Material = Material(diffuse: seq<string>, specular: seq<string>)

  /** An `aiMesh`: positions, optional normals and first texture-coordinate
      set, faces as index lists, and its material's index. */
  datatype AiMesh = AiMesh(positions: seq<Vec3>, normals: Option<seq<Vec3>>, texCoords: Option<seq<TexCoord>>,
                           faces: seq<seq<nat>>, materialIndex: nat)

  datatype AiNode = AiNode(transformation: Mat4, meshes: seq<nat>, children: seq<AiNode>)

  /** An `aiScene`; `root` is `None` for a missing root node. */
  datatype AiScene = AiScene(flags: nat, root: Option<AiNode>, meshes: seq<AiMesh>, materials: seq<Material>)

  /** `AI_SCENE_FLAGS_INCOMPLETE` (from Assimp's `scene.h`). */
  const AiSceneFlagsIncomplete: nat := 1

  /** What Assimp guarantees about an imported mesh: per-vertex arrays as
      long as the position array, and a material that exists. */
  predicate WellFormedMesh(m: AiMesh, materialCount: nat) {
    (m.normals.Some? ==> |m.normals.value| == |m.positions|) &&
    (m.texCoords.Some? ==> |m.texCoords.value| == |m.positions|) &&
    m.materialIndex < materialCount
  }

  predicate WellFormedScene(scene: AiScene) {
    forall m :: m in scene.meshes ==> WellFormedMesh(m, |scene.materials|)
  }

  predicate AllBelow(ks: seq<nat>, n: nat) {
    forall i :: 0 <= i < |ks| ==> ks[i] < n
  }

  /** Every mesh index in the subtree names a mesh of the scene. */
  predicate ValidNode(nd: AiNode, meshCount: nat)
    decreases nd
  {
    AllBelow(nd.meshes, meshCount) && ValidNodes(nd.children, meshCount)
  }

  predicate ValidNodes(cs: seq<AiNode>, meshCount: nat)
    decreases cs
  {
    cs == [] || (ValidNode(cs[0], meshCount) && ValidNodes(cs[1..], meshCount))
  }

  // ---------------------------------------------------------------- Sampler naming

  const Diffuse: string := "texture_diffuse"
  const Specular: string := "texture_specular"
  const Normal: string := "texture_normal"
  const Height: string := "texture_height"

  predicate KnownType(t: string) {
    t == Diffuse || t == Specular || t == Normal || t == Height
  }

  /** The decimal digits `std::stringstream` writes for `n`. */
  function Decimal(n: nat): (s: string)
    ensures |s| >= 1
    decreases n
  {
    if n < 10 then [Digit(n)] else Decimal(n / 10) + [Digit(n % 10)]
  }

  function Digit(d: nat): char
    requires d < 10
  {
    ['0', '1', '2', '3', '4', '5', '6', '7', '8', '9'][d]
  }

  function DigitValue(c: char): nat {
    if '0' <= c <= '9' then (c - '0') as nat else 0
  }

  /** Reading decimal digits back: the reference for `Decimal`. */
  function ParseDecimal(s: string): nat
    decreases |s|
  {
    if s == [] then 0 else 10 * ParseDecimal(s[..|s| - 1]) + DigitValue(s[|s| - 1])
  }

  lemma {:induction false} DecimalRoundTrip(n: nat)
    ensures ParseDecimal(Decimal(n)) == n
    decreases n
  {
    if n >= 10 {
      DecimalRoundTrip(n / 10);
      var s := Decimal(n);
      assert s[..|s| - 1] == Decimal(n / 10);
      assert DigitValue(Digit(n % 10)) == n % 10;
    } else {
      assert DigitValue(Digit(n)) == n;
    }
  }

  /** Different numbers are written differently. */
  lemma DecimalInjective(a: nat, b: nat)
    requires a != b
    ensures Decimal(a) != Decimal(b)
  {
    DecimalRoundTrip(a);
    DecimalRoundTrip(b);
  }

  /** How many of `ts` have type `t`. */
  function CountType(ts: seq<Texture>, t: string): nat
    decreases |ts|
  {
    if ts == [] then 0 else CountType(ts[..|ts| - 1], t) + (if ts[|ts| - 1].typeName == t then 1 else 0)
  }

  /** The value of the `GLuint` counter of type `t` after the textures
      `prior`: one more than their number of that type, wrapping. */
  function Counter(prior: seq<Texture>, t: string): nat {
    CInt.Wrap32(1 + CountType(prior, t))
  }

  /** The `number` for a texture of type `t` preceded by `prior`: its rank
      among the textures of that type counting from 1, or nothing for an
      unrecognised type. */
  function SamplerNumber(prior: seq<Texture>, t: string): string {
    if KnownType(t) then Decimal(Counter(prior, t)) else ""
  }

  /** The uniform `glUniform1i` sets and the texture unit it receives. */
  datatype Sampler = Sampler(name: string, unit: nat)

  /** The samplers of `MeshModel::Draw`, texture by texture. */
  function Samplers(ts: seq<Texture>): (ss: seq<Sampler>)
    ensures |ss| == |ts|
  {
    seq(|ts|, i requires 0 <= i < |ts| => Sampler(ts[i].typeName + SamplerNumber(ts[..i], ts[i].typeName), i))
  }

  /** The loop of `MeshModel::Draw` with its four counters. */
  method DrawSamplers(ts: seq<Texture>) returns (ss: seq<Sampler>)
    ensures ss == Samplers(ts)
  {
    var diffuseNr, specularNr, normalNr, heightNr := 1, 1, 1, 1;
    ss := [];
    var i := 0;
    while i < |ts|
      invariant 0 <= i <= |ts|
      invariant ss == Samplers(ts[..i])
      invariant diffuseNr == Counter(ts[..i], Diffuse) && specularNr == Counter(ts[..i], Specular)
      invariant normalNr == Counter(ts[..i], Normal) && heightNr == Counter(ts[..i], Height)
    {
      CounterStep(ts, i);
      var name := ts[i].typeName;
      var number := "";
      if name == Diffuse {
        number := Decimal(diffuseNr);
        diffuseNr := CInt.Wrap32(diffuseNr + 1);
      } else if name == Specular {
        number := Decimal(specularNr);
        specularNr := CInt.Wrap32(specularNr + 1);
      } else if name == Normal {
        number := Decimal(normalNr);
        normalNr := CInt.Wrap32(normalNr + 1);
      } else if name == Height {
        number := Decimal(heightNr);
        heightNr := CInt.Wrap32(heightNr + 1);
      }
      assert number == SamplerNumber(ts[..i], name);
      ss := ss + [Sampler(name + number, i)];
      i := i + 1;
    }
    assert ts[..i] == ts;
  }

  /** One iteration: the counter of the texture's own type steps, the other
      counters stay, and the sampler list grows by one. */
  lemma CounterStep(ts: seq<Texture>, i: nat)
    requires i < |ts|
    ensures forall t :: (Counter(ts[..i + 1], t) ==
      if ts[i].typeName == t then CInt.Wrap32(Counter(ts[..i], t) + 1) else Counter(ts[..i], t))
    ensures Samplers(ts[..i + 1]) == Samplers(ts[..i]) + [Sampler(ts[i].typeName + SamplerNumber(ts[..i], ts[i].typeName), i)]
  {
    assert ts[..i + 1][..i] == ts[..i];
    forall t
      ensures Counter(ts[..i + 1], t) == (if ts[i].typeName == t then CInt.Wrap32(Counter(ts[..i], t) + 1) else Counter(ts[..i], t))
    {
      CInt.Wrap32Add(1 + CountType(ts[..i], t), if ts[i].typeName == t then 1 else 0);
    }
    var a, b := Samplers(ts[..i + 1]), Samplers(ts[..i]);
    forall k | 0 <= k < i
      ensures a[k] == b[k]
    {
      assert ts[..i + 1][..k] == ts[..i][..k];
    }
  }

  /** Each texture unit is the texture's position, and two textures of the
      same recognised type never share a uniform name (below 2^32 - 1
      textures, where the counters cannot wrap). */
  lemma SamplerNamesDistinct(ts: seq<Texture>, i: nat, j: nat)
    requires i < j < |ts| < CInt.Two32 - 1
    requires ts[i].typeName == ts[j].typeName && KnownType(ts[i].typeName)
    ensures Samplers(ts)[i].unit == i && Samplers(ts)[j].unit == j
    ensures Samplers(ts)[i].name != Samplers(ts)[j].name
  {
    var t := ts[i].typeName;
    CountPrefixGrows(ts, i, j, t);
    CountBound(ts[..j], t);
    var a, b := 1 + CountType(ts[..i], t), 1 + CountType(ts[..j], t);
    assert Counter(ts[..i], t) == a && Counter(ts[..j], t) == b;
    DecimalInjective(a, b);
    var ni, nj := Samplers(ts)[i].name, Samplers(ts)[j].name;
    assert ni == t + Decimal(a) && nj == t + Decimal(b);
    assert ni[|t|..] == Decimal(a) && nj[|t|..] == Decimal(b);
  }

  lemma {:induction false} CountBound(ts: seq<Texture>, t: string)
    ensures CountType(ts, t) <= |ts|
    decreases |ts|
  {
    if ts != [] {
      CountBound(ts[..|ts| - 1], t);
    }
  }

  /** A later prefix counts the texture at `i` as well. */
  lemma {:induction false} CountPrefixGrows(ts: seq<Texture>, i: nat, j: nat, t: string)
    requires i < j <= |ts| && ts[i].typeName == t
    ensures CountType(ts[..j], t) >= CountType(ts[..i], t) + 1
    decreases j
  {
    assert ts[..j][..j - 1] == ts[..j - 1];
    if j - 1 > i {
      CountPrefixGrows(ts, i, j - 1, t);
    } else {
      assert ts[..j][j - 1] == ts[i];
    }
  }

  // ---------------------------------------------------------------- Meshes

  /** The axis flip of positions and of the scene box: x and z negated. */
  function Flip(p: Vec3): Vec3 { Vec3(-p.x, p.y, -p.z) }

  lemma FlipInvolution(p: Vec3)
    ensures Flip(Flip(p)) == p
  {
  }

  /** One iteration of the vertex loop of `processMesh`. */
  function ConvertVertex(m: AiMesh, i: nat): (v: Vertex)
    requires (m.normals.Some? ==> |m.normals.value| == |m.positions|) && (m.texCoords.Some? ==> |m.texCoords.value| == |m.positions|)
    requires i < |m.positions|
    ensures Flip(v.position) == m.positions[i]
    ensures v.normal.Some? <==> m.normals.Some?
    ensures m.normals.Some? ==> v.normal.value == m.normals.value[i]
    ensures v.texCoords == (if m.texCoords.Some? then m.texCoords.value[i] else TexCoord(0.0, 0.0))
  {
    var p := m.positions[i];
    Vertex(Vec3(-p.x, p.y, -p.z),
           if m.normals.Some? then Some(m.normals.value[i]) else None,
           if m.texCoords.Some? then TexCoord(m.texCoords.value[i].u, m.texCoords.value[i].v) else TexCoord(0.0, 0.0))
  }

  function MeshVertices(m: AiMesh): (vs: seq<Vertex>)
    requires (m.normals.Some? ==> |m.normals.value| == |m.positions|) && (m.texCoords.Some? ==> |m.texCoords.value| == |m.positions|)
    ensures |vs| == |m.positions|
  {
    seq(|m.positions|, i requires 0 <= i < |m.positions| => ConvertVertex(m, i))
  }

  /** The face loop of `processMesh`: each face's indices pushed in order. */
  method AppendFaceIndices(indices: seq<nat>, faces: seq<seq<nat>>) returns (r: seq<nat>)
    ensures r == indices + Scene.Flatten(faces)
  {
    r := indices;
    var f := 0;
    while f < |faces|
      invariant 0 <= f <= |faces|
      invariant r == indices + Scene.Flatten(faces[..f])
    {
      var face := faces[f];
      var j := 0;
      assert Scene.Flatten(faces[..f]) + face[..0] == Scene.Flatten(faces[..f]);
      while j < |face|
        invariant 0 <= j <= |face|
        invariant r == indices + Scene.Flatten(faces[..f]) + face[..j]
      {
        assert face[..j + 1] == face[..j] + [face[j]];
        r := r + [face[j]];
        j := j + 1;
      }
      assert faces[..f + 1][..f] == faces[..f];
      assert face[..j] == face;
      f := f + 1;
    }
    assert faces[..f] == faces;
  }

  lemma {:induction false} FlattenAppend<T>(a: seq<seq<T>>, b: seq<seq<T>>)
    ensures Scene.Flatten(a + b) == Scene.Flatten(a) + Scene.Flatten(b)
    decreases |b|
  {
    if b == [] {
      assert a + b == a;
    } else {
      var b0, last := b[..|b| - 1], b[|b| - 1];
      assert (a + b)[..|a + b| - 1] == a + b0;
      assert (a + b)[|a + b| - 1] == last;
      assert Scene.Flatten(a + b) == Scene.Flatten(a + b0) + last;
      FlattenAppend(a, b0);
      assert Scene.Flatten(b) == Scene.Flatten(b0) + last;
    }
  }

  /** Index `j` of face `f` lands after the indices of all earlier faces. */
  lemma FaceIndexPosition(faces: seq<seq<nat>>, f: nat, j: nat)
    requires f < |faces| && j < |faces[f]|
    ensures |Scene.Flatten(faces[..f])| + j < |Scene.Flatten(faces)|
    ensures Scene.Flatten(faces)[|Scene.Flatten(faces[..f])| + j] == faces[f][j]
  {
    assert faces == faces[..f] + ([faces[f]] + faces[f + 1..]);
    FlattenAppend(faces[..f], [faces[f]] + faces[f + 1..]);
    FlattenAppend([faces[f]], faces[f + 1..]);
    assert Scene.Flatten([faces[f]]) == Scene.Flatten([faces[f]][..0]) + faces[f];
  }

  function LoadMaterialTextures(paths: seq<string>, typeName: string, directory: string): (ts: seq<Texture>)
    ensures |ts| == |paths|
    ensures forall i :: 0 <= i < |ts| ==> ts[i].typeName == typeName && ts[i].path == paths[i]
  {
    seq(|paths|, i requires 0 <= i < |paths| => Texture(typeName, paths[i], TextureFromFile(paths[i], directory)))
  }

  /** The textures `processMesh` keeps: diffuse maps, then specular maps. */
  function MeshTextures(mat: Material, directory: string): seq<Texture> {
    LoadMaterialTextures(mat.diffuse, Diffuse, directory) + LoadMaterialTextures(mat.specular, Specular, directory)
  }

  /** `m_vertices`, `m_indices` and `m_textures`, which `processMesh` appends to. */
  datatype Scratch = Scratch(vertices: seq<Vertex>, indices: seq<nat>, textures: seq<Texture>)

  const EmptyScratch: Scratch := Scratch([], [], [])

  /** `processMesh`: append the mesh's data to the scratch vectors and build
      the mesh from their whole contents. */
  function ProcessMesh(s: Scratch, m: AiMesh, materials: seq<Material>, directory: string): (r: (MeshModel, Scratch))
    requires WellFormedMesh(m, |materials|)
    ensures r.1 == Scratch(r.0.vertices, r.0.indices, r.0.textures)
    ensures |r.0.vertices| == |s.vertices| + |m.positions|
    ensures s.vertices <= r.0.vertices && s.indices <= r.0.indices && s.textures <= r.0.textures
    ensures forall i :: 0 <= i < |m.positions| ==> Flip(r.0.vertices[|s.vertices| + i].position) == m.positions[i]
  {
    var vs := s.vertices + MeshVertices(m);
    var ix := s.indices + Scene.Flatten(m.faces);
    var ts := s.textures + MeshTextures(materials[m.materialIndex], directory);
    (MeshModel(vs, ix, ts), Scratch(vs, ix, ts))
  }

  /** `afterProcessMesh`. */
  function AfterProcessMesh(s: Scratch): (r: Scratch)
    ensures r.vertices == [] && r.indices == [] && r.textures == []
  {
    Scratch(if |s.vertices| > 0 then [] else s.vertices,
            if |s.indices| > 0 then [] else s.indices,
            if |s.textures| > 0 then [] else s.textures)
  }

  /** The mesh `processMesh` builds from empty scratch vectors: only its own data. */
  function FreshMesh(m: AiMesh, materials: seq<Material>, directory: string): MeshModel
    requires WellFormedMesh(m, |materials|)
  {
    MeshModel(MeshVertices(m), Scene.Flatten(m.faces), MeshTextures(materials[m.materialIndex], directory))
  }

  // ---------------------------------------------------------------- Node walk

  /** The state `processNode` works on: the meshes so far, the scratch
      vectors and the model's directory. */
  datatype Loader = Loader(meshes: seq<MeshModel>, scratch: Scratch, directory: string)

  /** One iteration of the mesh loop of `processNode`. */
  function MeshStep(ld: Loader, k: nat, scene: AiScene): Loader
    requires WellFormedScene(scene) && k < |scene.meshes|
  {
    var (mm, s) := ProcessMesh(ld.scratch, scene.meshes[k], scene.materials, ld.directory);
    Loader(ld.meshes + [mm], AfterProcessMesh(s), ld.directory)
  }

  function ProcessMeshes(ld: Loader, ks: seq<nat>, scene: AiScene): Loader
    requires WellFormedScene(scene) && AllBelow(ks, |scene.meshes|)
    decreases |ks|
  {
    if ks == [] then ld else ProcessMeshes(MeshStep(ld, ks[0], scene), ks[1..], scene)
  }

  /** `processNode`: the node's own meshes, then each child's subtree. */
  function ProcessNode(ld: Loader, nd: AiNode, scene: AiScene): Loader
    requires WellFormedScene(scene) && ValidNode(nd, |scene.meshes|)
    decreases nd
  {
    ProcessChildren(ProcessMeshes(ld, nd.meshes, scene), nd.children, scene)
  }

  function ProcessChildren(ld: Loader, cs: seq<AiNode>, scene: AiScene): Loader
    requires WellFormedScene(scene) && ValidNodes(cs, |scene.meshes|)
    decreases cs
  {
    if cs == [] then ld else ProcessChildren(ProcessNode(ld, cs[0], scene), cs[1..], scene)
  }

  /** The mesh indices of a subtree in the order `processNode` meets them. */
  function MeshOrder(nd: AiNode): seq<nat>
    decreases nd
  {
    nd.meshes + MeshOrderAll(nd.children)
  }

  function MeshOrderAll(cs: seq<AiNode>): seq<nat>
    decreases cs
  {
    if cs == [] then [] else MeshOrder(cs[0]) + MeshOrderAll(cs[1..])
  }

  lemma {:induction false} MeshOrderValid(nd: AiNode, n: nat)
    requires ValidNode(nd, n)
    ensures AllBelow(MeshOrder(nd), n)
    decreases nd
  {
    MeshOrderAllValid(nd.children, n);
  }

  lemma {:induction false} MeshOrderAllValid(cs: seq<AiNode>, n: nat)
    requires ValidNodes(cs, n)
    ensures AllBelow(MeshOrderAll(cs), n)
    decreases cs
  {
    if cs != [] {
      MeshOrderValid(cs[0], n);
      MeshOrderAllValid(cs[1..], n);
    }
  }

  /** The fresh meshes for a list of mesh indices. */
  function FreshMeshes(ks: seq<nat>, scene: AiScene, directory: string): (ms: seq<MeshModel>)
    requires WellFormedScene(scene) && AllBelow(ks, |scene.meshes|)
    ensures |ms| == |ks|
    decreases |ks|
  {
    if ks == [] then [] else [FreshMesh(scene.meshes[ks[0]], scene.materials, directory)] + FreshMeshes(ks[1..], scene, directory)
  }

  lemma {:induction false} FreshMeshesAppend(a: seq<nat>, b: seq<nat>, scene: AiScene, directory: string)
    requires WellFormedScene(scene) && AllBelow(a, |scene.meshes|) && AllBelow(b, |scene.meshes|)
    ensures FreshMeshes(a + b, scene, directory) == FreshMeshes(a, scene, directory) + FreshMeshes(b, scene, directory)
    decreases |a|
  {
    if a != [] {
      assert (a + b)[1..] == a[1..] + b;
      FreshMeshesAppend(a[1..], b, scene, directory);
    } else {
      assert a + b == b;
    }
  }

  /** With empty scratch vectors, each step appends exactly the fresh mesh
      and leaves the vectors empty again. */
  lemma MeshStepFresh(ld: Loader, k: nat, scene: AiScene)
    requires WellFormedScene(scene) && k < |scene.meshes| && ld.scratch == EmptyScratch
    ensures MeshStep(ld, k, scene) ==
      Loader(ld.meshes + [FreshMesh(scene.meshes[k], scene.materials, ld.directory)], EmptyScratch, ld.directory)
  {
    var m := scene.meshes[k];
    assert m in scene.meshes;
    var e := EmptyScratch;
    assert e.vertices + MeshVertices(m) == MeshVertices(m);
    assert e.indices + Scene.Flatten(m.faces) == Scene.Flatten(m.faces);
    assert e.textures + MeshTextures(scene.materials[m.materialIndex], ld.directory) ==
      MeshTextures(scene.materials[m.materialIndex], ld.directory);
  }

  lemma {:induction false} ProcessMeshesFresh(ld: Loader, ks: seq<nat>, scene: AiScene)
    requires WellFormedScene(scene) && (AllBelow(ks, |scene.meshes|)) && ld.scratch == EmptyScratch
    ensures ProcessMeshes(ld, ks, scene) == Loader(ld.meshes + FreshMeshes(ks, scene, ld.directory), EmptyScratch, ld.directory)
    decreases |ks|
  {
    if ks != [] {
      MeshStepFresh(ld, ks[0], scene);
      var ld' := MeshStep(ld, ks[0], scene);
      ProcessMeshesFresh(ld', ks[1..], scene);
      assert ld.meshes + FreshMeshes(ks, scene, ld.directory) ==
        ld'.meshes + FreshMeshes(ks[1..], scene, ld.directory);
    }
  }

  /** Starting from empty scratch vectors, walking a subtree appends one
      fresh mesh per mesh reference in depth-first order, and the scratch
      vectors end empty. */
  lemma {:induction false} ProcessNodeFresh(ld: Loader, nd: AiNode, scene: AiScene)
    requires WellFormedScene(scene) && ValidNode(nd, |scene.meshes|) && ld.scratch == EmptyScratch
    ensures AllBelow(MeshOrder(nd), |scene.meshes|)
    ensures ProcessNode(ld, nd, scene) == Loader(ld.meshes + FreshMeshes(MeshOrder(nd), scene, ld.directory), EmptyScratch, ld.directory)
    decreases nd
  {
    MeshOrderValid(nd, |scene.meshes|);
    MeshOrderAllValid(nd.children, |scene.meshes|);
    ProcessMeshesFresh(ld, nd.meshes, scene);
    var ld' := ProcessMeshes(ld, nd.meshes, scene);
    ProcessChildrenFresh(ld', nd.children, scene);
    FreshMeshesAppend(nd.meshes, MeshOrderAll(nd.children), scene, ld.directory);
  }

  lemma {:induction false} ProcessChildrenFresh(ld: Loader, cs: seq<AiNode>, scene: AiScene)
    requires WellFormedScene(scene) && ValidNodes(cs, |scene.meshes|) && ld.scratch == EmptyScratch
    ensures AllBelow(MeshOrderAll(cs), |scene.meshes|)
    ensures ProcessChildren(ld, cs, scene) == Loader(ld.meshes + FreshMeshes(MeshOrderAll(cs), scene, ld.directory), EmptyScratch, ld.directory)
    decreases cs
  {
    MeshOrderAllValid(cs, |scene.meshes|);
    if cs != [] {
      ProcessNodeFresh(ld, cs[0], scene);
      var ld' := ProcessNode(ld, cs[0], scene);
      ProcessChildrenFresh(ld', cs[1..], scene);
      MeshOrderValid(cs[0], |scene.meshes|);
      MeshOrderAllValid(cs[1..], |scene.meshes|);
      FreshMeshesAppend(MeshOrder(cs[0]), MeshOrderAll(cs[1..]), scene, ld.directory);
    }
  }

  // ---------------------------------------------------------------- Scene bounding box

  /** The `aisgl_min` / `aisgl_max` macros. */
  function AisglMin(x: real, y: real): real { if x < y then x else y }
  function AisglMax(x: real, y: real): real { if y > x then y else x }

  /** One iteration of the vertex loop of `get_bounding_box_for_node`, on an
      already flipped point. */
  function BoxStep(bd: Scene.Bounds, p: Vec3): (r: Scene.Bounds)
    ensures r == Scene.Include(bd, p)
  {
    Scene.Bounds(Vec3(AisglMin(bd.lo.x, p.x), AisglMin(bd.lo.y, p.y), AisglMin(bd.lo.z, p.z)),
                 Vec3(AisglMax(bd.hi.x, p.x), AisglMax(bd.hi.y, p.y), AisglMax(bd.hi.z, p.z)))
  }

  /** The vertices of one mesh under the accumulated transform, flipped. */
  function MeshPoints(m: AiMesh, t: Mat4): (ps: seq<Vec3>)
    ensures |ps| == |m.positions|
  {
    seq(|m.positions|, i requires 0 <= i < |m.positions| => Flip(TransformPoint(t, m.positions[i])))
  }

  /** The points of the meshes `ks`, mesh by mesh. */
  function OwnPoints(ks: seq<nat>, scene: AiScene, t: Mat4): seq<Vec3>
    requires AllBelow(ks, |scene.meshes|)
    decreases |ks|
  {
    if ks == [] then [] else MeshPoints(scene.meshes[ks[0]], t) + OwnPoints(ks[1..], scene, t)
  }

  /** The vertex loops of one node, threading the box. */
  function FoldPoints(bd: Scene.Bounds, ps: seq<Vec3>): Scene.Bounds
    decreases |ps|
  {
    if ps == [] then bd else FoldPoints(BoxStep(bd, ps[0]), ps[1..])
  }

  /** `get_bounding_box_for_node`: compose the node's transformation onto
      the accumulated one, fold the node's vertices, then recurse into the
      children with the composed matrix (restored afterwards). */
  function NodeBox(bd: Scene.Bounds, nd: AiNode, scene: AiScene, trafo: Mat4): Scene.Bounds
    requires ValidNode(nd, |scene.meshes|)
    decreases nd
  {
    var t := MatMul(trafo, nd.transformation);
    ChildrenBox(FoldPoints(bd, OwnPoints(nd.meshes, scene, t)), nd.children, scene, t)
  }

  function ChildrenBox(bd: Scene.Bounds, cs: seq<AiNode>, scene: AiScene, t: Mat4): Scene.Bounds
    requires ValidNodes(cs, |scene.meshes|)
    decreases cs
  {
    if cs == [] then bd else ChildrenBox(NodeBox(bd, cs[0], scene, t), cs[1..], scene, t)
  }

  /** Every vertex of the subtree, under its accumulated transform, flipped,
      in visiting order. */
  function NodePoints(nd: AiNode, scene: AiScene, trafo: Mat4): seq<Vec3>
    requires ValidNode(nd, |scene.meshes|)
    decreases nd
  {
    var t := MatMul(trafo, nd.transformation);
    OwnPoints(nd.meshes, scene, t) + ChildrenPoints(nd.children, scene, t)
  }

  function ChildrenPoints(cs: seq<AiNode>, scene: AiScene, t: Mat4): seq<Vec3>
    requires ValidNodes(cs, |scene.meshes|)
    decreases cs
  {
    if cs == [] then [] else NodePoints(cs[0], scene, t) + ChildrenPoints(cs[1..], scene, t)
  }

  lemma {:induction false} FoldPointsIsAccumulate(bd: Scene.Bounds, ps: seq<Vec3>)
    ensures FoldPoints(bd, ps) == Scene.Accumulate(bd, ps)
    decreases |ps|
  {
    if ps != [] {
      FoldPointsIsAccumulate(BoxStep(bd, ps[0]), ps[1..]);
    }
  }

  lemma {:induction false} AccumulateAppend(bd: Scene.Bounds, a: seq<Vec3>, b: seq<Vec3>)
    ensures Scene.Accumulate(bd, a + b) == Scene.Accumulate(Scene.Accumulate(bd, a), b)
    decreases |a|
  {
    if a != [] {
      assert (a + b)[0] == a[0] && (a + b)[1..] == a[1..] + b;
      AccumulateAppend(Scene.Include(bd, a[0]), a[1..], b);
    } else {
      assert a + b == b;
    }
  }

  /** The recursive walk computes the same box as one fold over all the
      subtree's points in visiting order. */
  lemma {:induction false} NodeBoxIsFold(bd: Scene.Bounds, nd: AiNode, scene: AiScene, trafo: Mat4)
    requires ValidNode(nd, |scene.meshes|)
    ensures NodeBox(bd, nd, scene, trafo) == Scene.Accumulate(bd, NodePoints(nd, scene, trafo))
    decreases nd
  {
    var t := MatMul(trafo, nd.transformation);
    var own := OwnPoints(nd.meshes, scene, t);
    FoldPointsIsAccumulate(bd, own);
    ChildrenBoxIsFold(FoldPoints(bd, own), nd.children, scene, t);
    AccumulateAppend(bd, own, ChildrenPoints(nd.children, scene, t));
  }

  lemma {:induction false} ChildrenBoxIsFold(bd: Scene.Bounds, cs: seq<AiNode>, scene: AiScene, t: Mat4)
    requires ValidNodes(cs, |scene.meshes|)
    ensures ChildrenBox(bd, cs, scene, t) == Scene.Accumulate(bd, ChildrenPoints(cs, scene, t))
    decreases cs
  {
    if cs != [] {
      NodeBoxIsFold(bd, cs[0], scene, t);
      ChildrenBoxIsFold(NodeBox(bd, cs[0], scene, t), cs[1..], scene, t);
      AccumulateAppend(bd, NodePoints(cs[0], scene, t), ChildrenPoints(cs[1..], scene, t));
    }
  }

  /** The box `get_bounding_box` starts from: min at 1e10, max at -1e10. */
  const BoxStart: Scene.Bounds := Scene.Bounds(Splat(10000000000.0), Splat(-10000000000.0))

  /** `get_bounding_box`: the walk from the root with the identity matrix. */
  function SceneBox(root: AiNode, scene: AiScene): (bd: Scene.Bounds)
    requires ValidNode(root, |scene.meshes|)
    ensures forall p :: p in NodePoints(root, scene, Identity) ==> Scene.LeV(bd.lo, p) && Scene.LeV(p, bd.hi)
    ensures Scene.LeV(bd.lo, BoxStart.lo) && Scene.LeV(BoxStart.hi, bd.hi)
  {
    NodeBoxIsFold(BoxStart, root, scene, Identity);
    NodeBox(BoxStart, root, scene, Identity)
  }

  /** For a scene with at least one vertex, all within (-1e10, 1e10), every
      face of the box touches some transformed vertex; a scene without
      vertices keeps the inverted starting box. */
  lemma SceneBoxTight(root: AiNode, scene: AiScene, k: nat)
    requires ValidNode(root, |scene.meshes|) && k < 3
    ensures var ps := NodePoints(root, scene, Identity); var bd := SceneBox(root, scene);
      (ps == [] ==> bd == BoxStart) &&
      (ps != [] && (forall p :: p in ps ==> Scene.LeV(BoxStart.hi, p) && Scene.LeV(p, BoxStart.lo)) ==>
        (exists i :: 0 <= i < |ps| && Scene.Coord(ps[i], k) == Scene.Coord(bd.lo, k)) &&
        (exists i :: 0 <= i < |ps| && Scene.Coord(ps[i], k) == Scene.Coord(bd.hi, k)))
  {
    var ps := NodePoints(root, scene, Identity);
    var bd := SceneBox(root, scene);
    NodeBoxIsFold(BoxStart, root, scene, Identity);
    Scene.AccumulateAttained(BoxStart, ps, k);
    if ps != [] && (forall p :: p in ps ==> Scene.LeV(BoxStart.hi, p) && Scene.LeV(p, BoxStart.lo)) {
      assert ps[0] in ps;
      if Scene.Coord(bd.hi, k) == Scene.Coord(BoxStart.hi, k) {
        assert Scene.Coord(ps[0], k) == Scene.Coord(bd.hi, k);
      }
      if Scene.Coord(bd.lo, k) == Scene.Coord(BoxStart.lo, k) {
        assert Scene.Coord(ps[0], k) == Scene.Coord(bd.lo, k);
      }
    }
  }

  // ---------------------------------------------------------------- loadModel

  /** The parts of a `Model` that loading fills in. */
  datatype Model = Model(meshes: seq<MeshModel>, directory: string, sceneBox: Option<Scene.Bounds>)

  const EmptyModel: Model := Model([], "", None)

  /** `loadModel(path)`, with `ReadFile`'s result as `imported` (`None` for a
      null scene): a missing scene or root node, or flags equal to
      `AI_SCENE_FLAGS_INCOMPLETE`, leave the model empty. */
  function LoadModel(path: string, imported: Option<AiScene>): (m: Model)
    requires imported.Some? ==> WellFormedScene(imported.value)
    requires imported.Some? && imported.value.root.Some? ==> ValidNode(imported.value.root.value, |imported.value.meshes|)
  {
    if imported.None? || imported.value.flags == AiSceneFlagsIncomplete || imported.value.root.None? then EmptyModel
    else
      var scene := imported.value;
      var root := scene.root.value;
      var box := SceneBox(root, scene);
      var directory := Directory(path);
      var ld := ProcessNode(Loader([], EmptyScratch, directory), root, scene);
      Model(ld.meshes, directory, Some(box))
  }

  /** A successful load holds one mesh per mesh reference of the node tree,
      in depth-first order, each built from that mesh alone, the directory
      of the path, and a box around every transformed vertex. */
  lemma {:induction false} LoadModelSpec(path: string, scene: AiScene)
    requires WellFormedScene(scene) && scene.root.Some? && ValidNode(scene.root.value, |scene.meshes|)
    requires scene.flags != AiSceneFlagsIncomplete
    ensures AllBelow(MeshOrder(scene.root.value), |scene.meshes|)
    ensures var m := LoadModel(path, Some(scene));
      m.meshes == FreshMeshes(MeshOrder(scene.root.value), scene, Directory(path)) &&
      m.directory == Directory(path) && m.sceneBox.Some? &&
      forall p :: p in NodePoints(scene.root.value, scene, Identity) ==>
        Scene.LeV(m.sceneBox.value.lo, p) && Scene.LeV(p, m.sceneBox.value.hi)
  {
    var root := scene.root.value;
    var ld := Loader([], EmptyScratch, Directory(path));
    ProcessNodeFresh(ld, root, scene);
    assert LoadModel(path, Some(scene)).meshes == ProcessNode(ld, root, scene).meshes;
  }
}

=== FILE: multiple_area_lights.dfy ===
/** The CPU side of the multiple area-lights demo
    (`src/8.guest/2022/7.area_lights/2.multiple_area_lights/multiple_area_lights.cpp`):
    `configureAreaLights`, which scatters sixteen lights with random offsets,
    rotations and colours; the same clamped parameter helpers as the
    single-light demo; `do_movement` without the light-moving and intensity
    keys; and `key_callback` without the B case.

    Random floats come from a stream of values in [0, 1), six per light in
    the order drawn. Like the single-light demo, the callback indexes
    `keys[key]` without a bound check: `KeyCallbackAsWritten` yields `None`
    for an access outside the array and `KeyCallback` skips such keys. */
module MultipleAreaLights {
  import opened Wrappers
  import opened RealMath
  import opened Geometry
  import opened Glfw
  import AreaLight

  /** `NUM_AREA_LIGHTS`. */
  const NumAreaLights: nat := 16

  /** `glm::two_pi<float>()`: the float nearest to 2 pi. */
  const TwoPi: real := 6.28318548202514648

  /** The `AreaLight` struct: a default intensity of 4 and two-sided
      lighting unless changed. */
  datatype Light = Light(offset: Vec3, yRotation: real, color: Vec3, intensity: real, twoSided: bool)

  /** The random floats handed out, in the order drawn. */
  predicate UnitStream(rs: seq<real>) {
    forall k :: 0 <= k < |rs| ==> 0.0 <= rs[k] < 1.0
  }

  /** Each light draws x, z, the rotation and three colour channels. */
  const DrawsPerLight: nat := 6

  /** `x = (x > 0.5f) ? x : -x`: draws above one half keep their sign, the
      rest are negated, so the sign records which half the draw fell in and
      the magnitude is the draw itself. */
  function SignedDraw(r: real): (v: real)
    requires 0.0 <= r < 1.0
    ensures (-0.5 <= v <= 0.0) || (0.5 < v < 1.0)
    ensures v > 0.0 <==> r > 0.5
    ensures Abs(v) == r
  {
    if r > 0.5 then r else -r
  }

  /** An offset coordinate: the signed draw scaled by 8, in [-4, 0] or
      (4, 8); nothing falls in (0, 4]. */
  function OffsetCoord(r: real): (c: real)
    requires 0.0 <= r < 1.0
    ensures (-4.0 <= c <= 0.0) || (4.0 < c < 8.0)
    ensures Abs(c) == 8.0 * r
  {
    SignedDraw(r) * 8.0
  }

  /** The light `configureAreaLights` builds in iteration `i` from the six
      draws starting at `6 * i`. */
  function ConfigureLight(rs: seq<real>, i: nat): (l: Light)
    requires i < NumAreaLights && |rs| >= DrawsPerLight * NumAreaLights && UnitStream(rs)
    ensures l.offset.y == 0.0
    ensures (-4.0 <= l.offset.x <= 0.0) || (4.0 < l.offset.x < 8.0)
    ensures (-4.0 <= l.offset.z <= 0.0) || (4.0 < l.offset.z < 8.0)
    ensures 0.0 <= l.yRotation < TwoPi
    ensures 0.0 <= l.color.x < 1.0 && 0.0 <= l.color.y < 1.0 && 0.0 <= l.color.z < 1.0
    ensures l.intensity == 4.0 && l.twoSided
  {
    var b := DrawsPerLight * i;
    assert 0.0 <= rs[b + 2] < 1.0;
    RotationInRange(rs[b + 2]);
    Light(Vec3(OffsetCoord(rs[b]), 0.0, OffsetCoord(rs[b + 1])), rs[b + 2] * TwoPi,
          Vec3(rs[b + 3], rs[b + 4], rs[b + 5]), 4.0, true)
  }

  /** A draw in [0, 1) times `two_pi` is an angle in [0, `two_pi`). */
  lemma RotationInRange(r: real)
    requires 0.0 <= r < 1.0
    ensures 0.0 <= r * TwoPi < TwoPi
  {
    assert TwoPi - r * TwoPi == (1.0 - r) * TwoPi;
  }

  /** The loop of `configureAreaLights`: exactly `NUM_AREA_LIGHTS` lights,
      light `i` from the draws of iteration `i`. No light sits in the band
      (0, 4] on either horizontal axis, and every light lies on the floor
      plane. */
  method ConfigureAreaLights(rs: seq<real>) returns (lights: seq<Light>)
    requires |rs| >= DrawsPerLight * NumAreaLights && UnitStream(rs)
    ensures |lights| == NumAreaLights
    ensures forall i :: 0 <= i < NumAreaLights ==> lights[i] == ConfigureLight(rs, i)
    ensures forall i :: 0 <= i < |lights| ==>
              lights[i].offset.y == 0.0 && !(0.0 < lights[i].offset.x <= 4.0) && !(0.0 < lights[i].offset.z <= 4.0)
  {
    lights := [];
    var i := 0;
    while i < NumAreaLights
      invariant 0 <= i <= NumAreaLights && |lights| == i
      invariant forall k :: 0 <= k < i ==> lights[k] == ConfigureLight(rs, k)
    {
      lights := lights + [ConfigureLight(rs, i)];
      i := i + 1;
    }
  }

  // ---------------------------------------------------------------- Parameters

  /** The set-up calls only `incrementRoughness(0)`, which uploads the start
      roughness unchanged; the other two helpers are never called. */
  lemma SetupKeepsStart()
    ensures AreaLight.IncrementRoughness(AreaLight.StartParams, 0.0) == AreaLight.StartParams
  {
  }

  // ---------------------------------------------------------------- Movement

  /** The demo's globals apart from the camera and the lights. */
  datatype MultiState = MultiState(keys: seq<bool>, params: AreaLight.LightParams, wireframe: int, closeRequested: bool)

  predicate ValidState(s: MultiState) {
    |s.keys| == KeyCount && 0 <= s.wireframe < 0x1_0000
  }

  const InitialState: MultiState := MultiState(AllUp, AreaLight.StartParams, 0, false)

  /** `do_movement(dt)`: the camera calls of the single-light demo, then R
      steps the roughness; the intensity keys are commented out and nothing
      moves the lights. */
  function DoMovement(s: MultiState, dt: real): (r: (MultiState, seq<AreaLight.Step>))
    requires ValidState(s)
    ensures ValidState(r.0) && r.0.keys == s.keys && r.0.wireframe == s.wireframe
    ensures r.0.closeRequested == s.closeRequested
    ensures r.1 == AreaLight.CameraSteps(s.keys, dt)
    ensures AreaLight.InRange(s.params) ==> AreaLight.InRange(r.0.params)
    ensures !s.keys[KeyR] ==> r.0.params == s.params
    ensures s.keys[KeyR] ==>
              r.0.params == AreaLight.IncrementRoughness(s.params, if s.keys[KeyLeftShift] then 0.01 else -0.01)
    ensures r.0.params.intensity == s.params.intensity && r.0.params.twoSided == s.params.twoSided
  {
    var p := if s.keys[KeyR] then AreaLight.IncrementRoughness(s.params, AreaLight.ShiftStep(s.keys, 0.01)) else s.params;
    (s.(params := p), AreaLight.CameraSteps(s.keys, dt))
  }

  /** Where the two demos' `do_movement` agree: the camera calls and the
      roughness; they differ only in intensity (I) and the light position. */
  lemma DoMovementMatchesSingleLight(s: MultiState, translate: Vec3, dt: real)
    requires ValidState(s)
    ensures var single := AreaLight.DoMovement(Lift(s, translate), dt);
            single.1 == DoMovement(s, dt).1 &&
            single.0.params.roughness == DoMovement(s, dt).0.params.roughness &&
            (!s.keys[KeyI] ==> single.0.params == DoMovement(s, dt).0.params)
  {
  }

  /** The single-light state with the same keys, parameters and flags. */
  function Lift(s: MultiState, translate: Vec3): AreaLight.AreaState {
    AreaLight.AreaState(s.keys, s.params, translate, s.wireframe, s.closeRequested)
  }

  // ---------------------------------------------------------------- Key callback

  /** `key_callback` as written: `None` where `keys[key]` lies outside the
      array. */
  function KeyCallbackAsWritten(s: MultiState, key: int, action: int): (r: Option<MultiState>)
    requires ValidState(s)
  {
    if action == Press then
      if key == KeyEscape then Some(s.(closeRequested := true))
      else
        match Set(s.keys, key, true)
        case None => None
        case Some(keys) => Some(s.(keys := keys))
    else if action == Release then
      if key == KeySpace then Some(s.(wireframe := AreaLight.ToggleWireframe(s.wireframe)))
      else
        match Set(s.keys, key, false)
        case None => None
        case Some(keys) => Some(s.(keys := keys))
    else Some(s)
  }

  /** `key_callback` with the missing bound check: a key outside the array
      changes no flag. Every press but Escape records the key, B included;
      the parameters never change. */
  function KeyCallback(s: MultiState, key: int, action: int): (r: MultiState)
    requires ValidState(s)
    ensures ValidState(r) && r.params == s.params
    ensures r.closeRequested <==> s.closeRequested || (action == Press && key == KeyEscape)
    ensures r.wireframe == (if action == Release && key == KeySpace then AreaLight.ToggleWireframe(s.wireframe) else s.wireframe)
    ensures action == Press && key != KeyEscape && InArray(key) ==> r.keys == s.keys[key := true]
    ensures action == Release && key != KeySpace && InArray(key) ==> r.keys == s.keys[key := false]
    ensures (!InArray(key) || (action == Press && key == KeyEscape) ||
             (action == Release && key == KeySpace) || (action != Press && action != Release)) ==>
              r.keys == s.keys
  {
    if action == Press then
      if key == KeyEscape then s.(closeRequested := true)
      else if InArray(key) then s.(keys := s.keys[key := true])
      else s
    else if action == Release then
      if key == KeySpace then s.(wireframe := AreaLight.ToggleWireframe(s.wireframe))
      else if InArray(key) then s.(keys := s.keys[key := false])
      else s
    else s
  }

  /** The written callback fails exactly when it indexes outside the array,
      and otherwise agrees with the checked one. */
  lemma AsWrittenFailsOutsideArray(s: MultiState, key: int, action: int)
    requires ValidState(s)
    ensures KeyCallbackAsWritten(s, key, action).None? <==>
              !InArray(key) && ((action == Press && key != KeyEscape) || (action == Release && key != KeySpace))
    ensures KeyCallbackAsWritten(s, key, action).Some? ==> KeyCallbackAsWritten(s, key, action).value == KeyCallback(s, key, action)
  {
  }

  /** Concretely: an unknown key (-1) released in the initial state writes
      `keys[-1]`. */
  lemma UnknownKeyOverflows()
    ensures KeyCallbackAsWritten(InitialState, KeyUnknown, Release).None?
  {
  }

  /** Apart from B, which here is an ordinary key, the callback is the
      single-light demo's. */
  lemma CallbackMatchesSingleLight(s: MultiState, translate: Vec3, key: int, action: int)
    requires ValidState(s)
    ensures var single := AreaLight.KeyCallback(Lift(s, translate), key, action);
            !(action == Press && key == KeyB) ==> Lift(KeyCallback(s, key, action), translate) == single
    ensures var single := AreaLight.KeyCallback(Lift(s, translate), key, action);
            action == Press && key == KeyB ==>
              KeyCallback(s, key, action).keys[KeyB] && single.keys == s.keys &&
              single.params.twoSided != KeyCallback(s, key, action).params.twoSided
  {
  }
}

=== FILE: particles.dfy ===
/** The particle pool of Breakout's `ParticleGenerator`
    (`src/7.in_practice/3.2d_game/0.full_source/particle_generator.cpp`): a
    fixed array of particles, a search for a dead slot that starts where the
    previous search succeeded, respawning from a game object, and per-frame
    ageing. `rand()` values are parameters; shader, texture and vertex-array
    calls are left out. */
module Particles {
  import opened Geometry
  import opened Wrappers

  /** `glm::vec2` over reals. */
  datatype Vec2 = Vec2(x: real, y: real)

  function Add2(a: Vec2, b: Vec2): Vec2 { Vec2(a.x + b.x, a.y + b.y) }
  function Scale2(a: Vec2, s: real): Vec2 { Vec2(a.x * s, a.y * s) }

  /** `Particle`: position, velocity, colour and remaining life. */
  datatype Particle = Particle(position: Vec2, velocity: Vec2, color: Vec4, life: real)

  /** The default constructor: zero vectors, white opaque colour, no life. */
  const DefaultParticle: Particle := Particle(Vec2(0.0, 0.0), Vec2(0.0, 0.0), Vec4(1.0, 1.0, 1.0, 1.0), 0.0)

  /** The only parts of a `GameObject` a respawn reads. */
  datatype GameObject = GameObject(position: Vec2, velocity: Vec2)

  /** A slot the search may hand out. */
  predicate Unused(p: Particle) { p.life <= 0.0 }

  /** `init`: `amount` default particles. */
  function Init(amount: nat): (ps: seq<Particle>)
    ensures |ps| == amount
    ensures forall i :: 0 <= i < amount ==> ps[i] == DefaultParticle && Unused(ps[i])
  {
    seq(amount, _ => DefaultParticle)
  }

  // ---------------------------------------------------------------- Slot search

  /** The first unused slot in `[lo, hi)`, as a reference for the search loops. */
  function FirstDeadFrom(ps: seq<Particle>, lo: nat, hi: nat): (r: Option<nat>)
    requires lo <= hi <= |ps|
    ensures r.Some? ==> lo <= r.value < hi && Unused(ps[r.value]) &&
                        forall j :: lo <= j < r.value ==> !Unused(ps[j])
    ensures r.None? <==> forall j :: lo <= j < hi ==> !Unused(ps[j])
    decreases hi - lo
  {
    if lo == hi then None
    else if Unused(ps[lo]) then Some(lo)
    else FirstDeadFrom(ps, lo + 1, hi)
  }

  /** What `firstUnusedParticle` returns: the first unused slot at or after
      `lastUsed`, else the first one before it, else slot 0. */
  function FirstUnused(ps: seq<Particle>, lastUsed: nat): (i: nat)
    requires lastUsed <= |ps|
    ensures (i < |ps| && Unused(ps[i])) || (i == 0 && forall j :: 0 <= j < |ps| ==> !Unused(ps[j]))
  {
    match FirstDeadFrom(ps, lastUsed, |ps|)
    case Some(i) => i
    case None => FirstDeadFrom(ps, 0, lastUsed).GetOr(0)
  }

  /** The two loops of `firstUnusedParticle`; `newLast` is the value the
      global `lastUsedParticle` holds afterwards. */
  method FirstUnusedParticle(ps: seq<Particle>, lastUsed: nat) returns (i: nat, newLast: nat)
    requires lastUsed <= |ps|
    ensures i == FirstUnused(ps, lastUsed) && newLast == i
  {
    var k := lastUsed;
    while k < |ps|
      invariant lastUsed <= k <= |ps|
      invariant forall j :: lastUsed <= j < k ==> !Unused(ps[j])
    {
      if ps[k].life <= 0.0 {
        return k, k;
      }
      k := k + 1;
    }
    k := 0;
    while k < lastUsed
      invariant 0 <= k <= lastUsed
      invariant forall j :: 0 <= j < k ==> !Unused(ps[j])
    {
      if ps[k].life <= 0.0 {
        return k, k;
      }
      k := k + 1;
    }
    return 0, 0;
  }

  /** The search hands out a live slot only when every slot is alive, and
      then it hands out slot 0. */
  lemma FirstUnusedReusesDead(ps: seq<Particle>, lastUsed: nat, j: nat)
    requires lastUsed <= |ps| && j < |ps| && Unused(ps[j])
    ensures FirstUnused(ps, lastUsed) < |ps| && Unused(ps[FirstUnused(ps, lastUsed)])
  {
  }

  /** On a fresh pool every slot is unused, so the search returns
      `lastUsed` itself when that is a slot. */
  lemma FreshPoolSearch(amount: nat, lastUsed: nat)
    requires lastUsed < amount
    ensures FirstUnused(Init(amount), lastUsed) == lastUsed
  {
    assert Unused(Init(amount)[lastUsed]);
  }

  // ---------------------------------------------------------------- Respawn and ageing

  /** Two `rand()` results, which are never negative. */
  datatype Draw = Draw(offsetRand: nat, colorRand: nat)

  /** `respawnParticle`: a position jittered by `((r % 100) - 50) / 10`
      on both axes, a grey level `0.5 + (r % 100) / 100`, full alpha, one unit
      of life and a tenth of the object's velocity. */
  function Respawn(source: GameObject, offset: Vec2, d: Draw): (p: Particle)
    ensures p.life == 1.0 && p.color.w == 1.0
    ensures p.color.x == p.color.y == p.color.z && 0.5 <= p.color.x < 1.5
    ensures p.velocity == Scale2(source.velocity, 0.1)
    ensures var jx := p.position.x - (source.position.x + offset.x);
            var jy := p.position.y - (source.position.y + offset.y);
            jx == jy && -5.0 <= jx <= 4.9
  {
    var jitter := ((d.offsetRand % 100) - 50) as real / 10.0;
    var grey := 0.5 + (d.colorRand % 100) as real / 100.0;
    Particle(Add2(Add2(source.position, Vec2(jitter, jitter)), offset),
             Scale2(source.velocity, 0.1),
             Vec4(grey, grey, grey, 1.0),
             1.0)
  }

  /** One particle's step in `Update`: life drops by `dt`; a particle still
      alive afterwards moves against its velocity and fades. */
  function Age(p: Particle, dt: real): (r: Particle)
    ensures r.life == p.life - dt && r.velocity == p.velocity
    ensures r.color.x == p.color.x && r.color.y == p.color.y && r.color.z == p.color.z
    ensures r.life <= 0.0 ==> r == p.(life := p.life - dt)
    ensures r.life > 0.0 ==> Add2(r.position, Scale2(p.velocity, dt)) == p.position &&
                             r.color.w + 2.5 * dt == p.color.w
  {
    var life := p.life - dt;
    if life > 0.0 then
      Particle(Vec2(p.position.x - p.velocity.x * dt, p.position.y - p.velocity.y * dt),
               p.velocity,
               p.color.(w := p.color.w - dt * 2.5),
               life)
    else p.(life := life)
  }

  /** The spawning loop of `Update`, as a reference: each draw takes the slot
      the search returns and records it as the last used one. */
  function SpawnAll(ps: seq<Particle>, lastUsed: nat, source: GameObject, offset: Vec2, draws: seq<Draw>): (r: (seq<Particle>, nat))
    requires lastUsed <= |ps| && (|draws| > 0 ==> |ps| > 0)
    ensures |r.0| == |ps| && r.1 <= |ps| && (|draws| > 0 ==> r.1 < |ps|)
    ensures |draws| == 0 ==> r == (ps, lastUsed)
    ensures |draws| > 0 ==> r.0[r.1] == Respawn(source, offset, draws[|draws| - 1])
    ensures forall i :: 0 <= i < |ps| ==>
              r.0[i] == ps[i] || exists n :: 0 <= n < |draws| && r.0[i] == Respawn(source, offset, draws[n])
    decreases |draws|
  {
    if |draws| == 0 then (ps, lastUsed)
    else
      var k := FirstUnused(ps, lastUsed);
      var ps' := ps[k := Respawn(source, offset, draws[0])];
      var r := SpawnAll(ps', k, source, offset, draws[1..]);
      assert forall n :: 0 <= n < |draws| - 1 ==> draws[1..][n] == draws[n + 1];
      assert forall i :: 0 <= i < |ps| && r.0[i] != ps[i] ==>
        r.0[i] != ps'[i] || (i == k && r.0[i] == Respawn(source, offset, draws[0]));
      r
  }

  /** The slots a search may hand out. */
  function UnusedSlots(ps: seq<Particle>): set<nat> {
    set i: nat | i < |ps| && Unused(ps[i])
  }

  /** Respawning into an unused slot uses it up. */
  lemma RespawnUsesSlot(ps: seq<Particle>, k: nat, p: Particle)
    requires k < |ps| && Unused(ps[k]) && !Unused(p)
    ensures UnusedSlots(ps[k := p]) == UnusedSlots(ps) - {k}
    ensures |UnusedSlots(ps[k := p])| == |UnusedSlots(ps)| - 1
  {
    var s := UnusedSlots(ps);
    assert UnusedSlots(ps[k := p]) == s - {k};
    assert s == (s - {k}) + {k};
  }

  /** With at least as many unused slots as draws, spawning overwrites no
      live particle: the search keeps finding dead slots. */
  lemma {:induction false} SpawnAllKeepsLive(ps: seq<Particle>, lastUsed: nat, source: GameObject, offset: Vec2, draws: seq<Draw>)
    requires lastUsed <= |ps| && (|draws| > 0 ==> |ps| > 0)
    requires |UnusedSlots(ps)| >= |draws|
    ensures forall i :: 0 <= i < |ps| && !Unused(ps[i]) ==> SpawnAll(ps, lastUsed, source, offset, draws).0[i] == ps[i]
    decreases |draws|
  {
    if |draws| > 0 {
      var j :| j in UnusedSlots(ps);
      FirstUnusedReusesDead(ps, lastUsed, j);
      var k := FirstUnused(ps, lastUsed);
      var p := Respawn(source, offset, draws[0]);
      var ps' := ps[k := p];
      RespawnUsesSlot(ps, k, p);
      SpawnAllKeepsLive(ps', k, source, offset, draws[1..]);
      assert SpawnAll(ps, lastUsed, source, offset, draws) == SpawnAll(ps', k, source, offset, draws[1..]);
      forall i | 0 <= i < |ps| && !Unused(ps[i])
        ensures SpawnAll(ps, lastUsed, source, offset, draws).0[i] == ps[i]
      {
        assert i != k && ps'[i] == ps[i];
      }
    }
  }

  /** `Update(dt, object, newParticles, offset)`: spawn one particle per
      draw, then age every particle. Returns the pool and the new value of
      `lastUsedParticle`. */
  method Update(ps: seq<Particle>, lastUsed: nat, dt: real, source: GameObject, offset: Vec2, draws: seq<Draw>)
    returns (qs: seq<Particle>, newLast: nat)
    requires lastUsed <= |ps| && (|draws| > 0 ==> |ps| > 0)
    ensures newLast == SpawnAll(ps, lastUsed, source, offset, draws).1
    ensures |qs| == |ps|
    ensures forall i :: 0 <= i < |qs| ==> qs[i] == Age(SpawnAll(ps, lastUsed, source, offset, draws).0[i], dt)
  {
    var cur: seq<Particle>, last: nat := ps, lastUsed;
    var n := 0;
    while n < |draws|
      invariant 0 <= n <= |draws|
      invariant |cur| == |ps| && last <= |cur|
      invariant n > 0 ==> last < |cur|
      invariant SpawnAll(cur, last, source, offset, draws[n..]) == SpawnAll(ps, lastUsed, source, offset, draws)
    {
      var k, l := FirstUnusedParticle(cur, last);
      assert draws[n..][0] == draws[n] && draws[n..][1..] == draws[n + 1..];
      cur := cur[k := Respawn(source, offset, draws[n])];
      last := l;
      n := n + 1;
    }
    assert draws[n..] == [];
    qs := cur;
    var i := 0;
    while i < |qs|
      invariant 0 <= i <= |qs| == |cur|
      invariant forall j :: 0 <= j < i ==> qs[j] == Age(cur[j], dt)
      invariant forall j :: i <= j < |qs| ==> qs[j] == cur[j]
    {
      qs := qs[i := Age(qs[i], dt)];
      i := i + 1;
    }
    newLast := last;
  }

  /** A respawned slot is alive for any step shorter than its unit of life. */
  lemma RespawnSurvivesShortStep(source: GameObject, offset: Vec2, d: Draw, dt: real)
    requires dt < 1.0
    ensures Age(Respawn(source, offset, d), dt).life > 0.0
    ensures Age(Respawn(source, offset, d), dt).color.w == 1.0 - 2.5 * dt
  {
  }
}

=== FILE: real_math.dfy ===
/** Scalar functions on reals shared by the shader, GLM and demo models:
    `floor`, `fract`, GLSL `mod` (section 8.3 of the GLSL 4.30 specification:
    `mod(x, y) = x - y * floor(x / y)`), `abs`, and two-argument min/max with
    the `a < b ? a : b` shape of `std::min`. */
module RealMath {

  function Floor(x: real): int { x.Floor }

  function Fract(x: real): real { x - Floor(x) as real }

  function Abs(x: real): real { if x < 0.0 then -x else x }

  function Min(a: real, b: real): real { if b < a then b else a }

  function Max(a: real, b: real): real { if a < b then b else a }

  /** GLSL `mod`. */
  function GlslMod(x: real, y: real): real
    requires y != 0.0
  {
    x - y * (Floor(x / y) as real)
  }

  lemma FloorSpec(x: real)
    ensures Floor(x) as real <= x < Floor(x) as real + 1.0
  {
  }

  lemma FractRange(x: real)
    ensures 0.0 <= Fract(x) < 1.0
    ensures x - Fract(x) == Floor(x) as real
  {
  }

  /** `fract` forgets whole numbers. */
  lemma FractShift(x: real, n: int)
    ensures Fract(x + n as real) == Fract(x)
  {
    assert Floor(x + n as real) == Floor(x) + n;
  }

  /** For a positive modulus GLSL `mod` lands in `[0, y)` and differs from
      `x` by a whole multiple of `y`, whatever the sign of `x`. */
  lemma GlslModRange(x: real, y: real)
    requires y > 0.0
    ensures 0.0 <= GlslMod(x, y) < y
    ensures Fract((x - GlslMod(x, y)) / y) == 0.0
  {
    var q := x / y;
    var f := Floor(q) as real;
    FloorSpec(q);
    var d := q - f;
    assert 0.0 <= d < 1.0;
    assert x == y * q;
    assert GlslMod(x, y) == y * d;
    assert y * d < y;
    assert (x - GlslMod(x, y)) / y == f;
  }

  /** Adding a whole multiple of the modulus does not change GLSL `mod`. */
  lemma GlslModPeriodic(x: real, y: real, n: int)
    requires y > 0.0
    ensures GlslMod(x + y * n as real, y) == GlslMod(x, y)
  {
    assert (x + y * n as real) / y == x / y + n as real;
    assert Floor(x / y + n as real) == Floor(x / y) + n;
  }

  /** On `[0, y)` GLSL `mod` is the identity. */
  lemma GlslModSmall(x: real, y: real)
    requires 0.0 <= x < y
    ensures GlslMod(x, y) == x
  {
    assert 0.0 <= x / y < 1.0;
    assert Floor(x / y) == 0;
  }
}

=== FILE: ref_counted.dfy ===
/** The reference counter of `irrKlang/ik_IRefCounted.h`. An object is its
    own state (`T`, which `grab` and `drop` never touch) together with the
    counter; `drop` reports whether it deleted the object. */
module RefCounting {

  datatype RefCounted<T> = RefCounted(state: T, counter: int)

  /** The constructor: a new object holds one reference. */
  function New<T>(state: T): (o: RefCounted<T>)
    ensures o.counter == 1 && o.state == state
  {
    RefCounted(state, 1)
  }

  /** `grab`: one more reference. */
  function Grab<T>(o: RefCounted<T>): (r: RefCounted<T>)
    ensures r.state == o.state && r.counter == o.counter + 1
  {
    o.(counter := o.counter + 1)
  }

  /** What `drop` leaves behind: the object was deleted (and `drop`
      returned true), or it lives on (and `drop` returned false). */
  datatype Dropped<T> = Deleted | Alive(obj: RefCounted<T>)

  /** `drop`: one reference fewer; the object is deleted exactly when the
      counter reaches zero. */
  function Drop<T>(o: RefCounted<T>): (r: Dropped<T>)
    ensures r.Deleted? <==> o.counter == 1
    ensures r.Alive? ==> r.obj.state == o.state && r.obj.counter == o.counter - 1
  {
    var c := o.counter - 1;
    if c == 0 then Deleted else Alive(o.(counter := c))
  }

  /** The value `drop` returns. */
  function DropReturns<T>(o: RefCounted<T>): bool {
    Drop(o).Deleted?
  }

  /** A grab followed by a drop restores a live object exactly. */
  lemma DropUndoesGrab<T>(o: RefCounted<T>)
    requires o.counter >= 1
    ensures Drop(Grab(o)) == Alive(o)
  {
  }

  /** `n` grabs. */
  function GrabN<T>(o: RefCounted<T>, n: nat): RefCounted<T>
    decreases n
  {
    if n == 0 then o else Grab(GrabN(o, n - 1))
  }

  /** `k` drops in a row; once the object is deleted no further drop
      happens. */
  function DropN<T>(o: RefCounted<T>, k: nat): Dropped<T>
    decreases k
  {
    if k == 0 then Alive(o)
    else match DropN(o, k - 1)
         case Deleted => Deleted
         case Alive(p) => Drop(p)
  }

  lemma {:induction false} GrabNCounter<T>(o: RefCounted<T>, n: nat)
    ensures GrabN(o, n) == o.(counter := o.counter + n)
  {
    if n > 0 {
      GrabNCounter(o, n - 1);
    }
  }

  lemma {:induction false} DropNCounter<T>(o: RefCounted<T>, k: nat)
    requires k < o.counter
    ensures DropN(o, k) == Alive(o.(counter := o.counter - k))
  {
    if k > 0 {
      DropNCounter(o, k - 1);
    }
  }

  /** After `n` grabs of a new object, the first `n` drops return false and
      leave the object alive, and drop `n + 1` returns true. */
  lemma GrabsThenDrops<T>(state: T, n: nat, k: nat)
    requires k <= n
    ensures DropN(GrabN(New(state), n), k) == Alive(RefCounted(state, n + 1 - k))
    ensures !DropReturns(RefCounted(state, n + 1 - k)) <==> k < n
    ensures DropN(GrabN(New(state), n), n + 1) == Deleted
  {
    var o := GrabN(New(state), n);
    GrabNCounter(New(state), n);
    DropNCounter(o, k);
    DropNCounter(o, n);
  }
}

=== FILE: resources.dfy ===
/** Breakout's `ResourceManager`
    (`src/7.in_practice/3.2d_game/0.full_source/resource_manager.cpp`): two
    name-indexed registries, one of shaders and one of textures, with
    `std::map::operator[]` semantics. Reading files, decoding images,
    compiling programs and creating GL textures are parameters of the
    model, and so are the default-constructed `Shader` and `Texture2D`
    (`shader.h` and `texture.h` are not part of this model). */
module Resources {
  import opened Wrappers

  /** `GL_RGBA`. */
  const GlRgba: int := 0x1908

  /** The field of a `Shader` the manager reads: its GL program name. */
  datatype Shader = Shader(id: int)

  /** The fields of a `Texture2D` the manager reads or writes. */
  datatype Texture = Texture(id: int, internalFormat: int, imageFormat: int, width: int, height: int)

  /** What `stbi_load` reports for a file. */
  datatype Image = Image(width: int, height: int, channels: int, data: seq<int>)

  /** The effects the manager delegates to code outside the model. */
  datatype Env = Env(readFile: string -> string,
                     readImage: string -> Image,
                     compile: (string, string, Option<string>) -> Shader,
                     generate: (Texture, Image) -> Texture,
                     defaultShader: Shader,
                     defaultTexture: Texture)

  datatype Registry = Registry(shaders: map<string, Shader>, textures: map<string, Texture>)

  /** `std::map::operator[]` used for reading: the entry under `key`,
      default-constructed and inserted first if the key is missing. */
  function Subscript<V>(m: map<string, V>, key: string, default: V): (r: (V, map<string, V>))
    ensures key in r.1 && r.0 == r.1[key]
    ensures r.1.Keys == m.Keys + {key}
    ensures key in m ==> r.1 == m && r.0 == m[key]
    ensures key !in m ==> r.0 == default && forall k :: k in m ==> r.1[k] == m[k]
  {
    if key in m then (m[key], m) else (default, m[key := default])
  }

  // ---------------------------------------------------------------- Loading from files

  /** `loadShaderFromFile`: read the vertex and fragment sources, and the
      geometry source only when its path is given. What the result depends
      on is stated by `LoadShaderReadsOnlyGiven` and
      `LoadShaderGeometryOnlyWhenGiven`. */
  function LoadShaderFromFile(vShaderFile: string, fShaderFile: string, gShaderFile: Option<string>, env: Env): Shader
  {
    var vertexCode := env.readFile(vShaderFile);
    var fragmentCode := env.readFile(fShaderFile);
    var geometryCode := if gShaderFile.Some? then env.readFile(gShaderFile.value) else "";
    env.compile(vertexCode, fragmentCode, if gShaderFile.Some? then Some(geometryCode) else None)
  }

  /** The format selection of `loadTextureFromFile`: with `alpha` both
      formats become RGBA, otherwise the defaults stay. */
  function TextureFormats(alpha: bool, default: Texture): (t: Texture)
    ensures alpha ==> t.internalFormat == GlRgba && t.imageFormat == GlRgba
    ensures !alpha ==> t == default
    ensures t.id == default.id && t.width == default.width && t.height == default.height
  {
    if alpha then default.(internalFormat := GlRgba, imageFormat := GlRgba) else default
  }

  /** `loadTextureFromFile`: choose the formats, then generate the texture
      from the decoded image. `LoadTextureReadsOnlyFile` and
      `LoadTextureFormats` state what the result depends on. */
  function LoadTextureFromFile(file: string, alpha: bool, env: Env): Texture
  {
    var texture := TextureFormats(alpha, env.defaultTexture);
    env.generate(texture, env.readImage(file))
  }

  /** The loaded program depends only on the compiler and on the contents of
      the files named: the geometry path, when absent, is never read, so two
      environments that agree on the vertex and fragment files load the same
      program. */
  lemma LoadShaderReadsOnlyGiven(vShaderFile: string, fShaderFile: string, gShaderFile: Option<string>, env1: Env, env2: Env)
    requires env1.compile == env2.compile
    requires env1.readFile(vShaderFile) == env2.readFile(vShaderFile)
    requires env1.readFile(fShaderFile) == env2.readFile(fShaderFile)
    requires gShaderFile.Some? ==> env1.readFile(gShaderFile.value) == env2.readFile(gShaderFile.value)
    ensures LoadShaderFromFile(vShaderFile, fShaderFile, gShaderFile, env1) == LoadShaderFromFile(vShaderFile, fShaderFile, gShaderFile, env2)
  {
  }

  /** A compiler that reports whether it was handed a geometry source sees
      one exactly when a geometry path was given, even when that file is
      empty. */
  lemma LoadShaderGeometryOnlyWhenGiven(vShaderFile: string, fShaderFile: string, gShaderFile: Option<string>, env: Env)
    ensures var probe := env.(compile := (vc: string, fc: string, gc: Option<string>) => Shader(if gc.Some? then 1 else 0));
      LoadShaderFromFile(vShaderFile, fShaderFile, gShaderFile, probe).id == 1 <==> gShaderFile.Some?
  {
  }

  /** The loaded texture depends only on the generator, the default texture
      and the image the named file holds. */
  lemma LoadTextureReadsOnlyFile(file: string, alpha: bool, env1: Env, env2: Env)
    requires env1.generate == env2.generate && env1.defaultTexture == env2.defaultTexture
    requires env1.readImage(file) == env2.readImage(file)
    ensures LoadTextureFromFile(file, alpha, env1) == LoadTextureFromFile(file, alpha, env2)
  {
  }

  /** When generating keeps the formats it is handed, as `Texture2D::Generate`
      does, the loaded texture is RGBA on both formats with `alpha` and has
      the default formats without it. */
  lemma LoadTextureFormats(file: string, alpha: bool, env: Env)
    requires forall t, img :: env.generate(t, img).internalFormat == t.internalFormat && env.generate(t, img).imageFormat == t.imageFormat
    ensures alpha ==> LoadTextureFromFile(file, alpha, env).internalFormat == GlRgba && LoadTextureFromFile(file, alpha, env).imageFormat == GlRgba
    ensures !alpha ==> LoadTextureFromFile(file, alpha, env).internalFormat == env.defaultTexture.internalFormat &&
                       LoadTextureFromFile(file, alpha, env).imageFormat == env.defaultTexture.imageFormat
  {
    var t := TextureFormats(alpha, env.defaultTexture);
    assert LoadTextureFromFile(file, alpha, env) == env.generate(t, env.readImage(file));
  }

  // ---------------------------------------------------------------- Registry operations

  /** `LoadShader`: store the loaded program under `name`, replacing any
      previous entry, and return the stored value. */
  function LoadShader(reg: Registry, vShaderFile: string, fShaderFile: string, gShaderFile: Option<string>,
                      name: string, env: Env): (r: (Shader, Registry))
    ensures r.1.textures == reg.textures
    ensures name in r.1.shaders && r.1.shaders[name] == r.0
    ensures r.0 == LoadShaderFromFile(vShaderFile, fShaderFile, gShaderFile, env)
    ensures r.1.shaders.Keys == reg.shaders.Keys + {name}
    ensures forall n :: n in reg.shaders && n != name ==> r.1.shaders[n] == reg.shaders[n]
  {
    var stored := reg.shaders[name := LoadShaderFromFile(vShaderFile, fShaderFile, gShaderFile, env)];
    var (s, shaders) := Subscript(stored, name, env.defaultShader);
    (s, reg.(shaders := shaders))
  }

  /** `GetShader`: `Shaders[name]`, which inserts a default shader for an
      unknown name. */
  function GetShader(reg: Registry, name: string, env: Env): (r: (Shader, Registry))
    ensures r.1.textures == reg.textures
    ensures name in reg.shaders ==> r == (reg.shaders[name], reg)
    ensures name !in reg.shaders ==> r.0 == env.defaultShader && r.1.shaders == reg.shaders[name := env.defaultShader]
  {
    var (s, shaders) := Subscript(reg.shaders, name, env.defaultShader);
    (s, reg.(shaders := shaders))
  }

  /** `LoadTexture`: store the loaded texture under `name` and return it. */
  function LoadTexture(reg: Registry, file: string, alpha: bool, name: string, env: Env): (r: (Texture, Registry))
    ensures r.1.shaders == reg.shaders
    ensures name in r.1.textures && r.1.textures[name] == r.0
    ensures r.0 == LoadTextureFromFile(file, alpha, env)
    ensures r.1.textures.Keys == reg.textures.Keys + {name}
    ensures forall n :: n in reg.textures && n != name ==> r.1.textures[n] == reg.textures[n]
  {
    var stored := reg.textures[name := LoadTextureFromFile(file, alpha, env)];
    var (t, textures) := Subscript(stored, name, env.defaultTexture);
    (t, reg.(textures := textures))
  }

  /** `GetTexture`: `Textures[name]`, inserting a default texture for an
      unknown name. */
  function GetTexture(reg: Registry, name: string, env: Env): (r: (Texture, Registry))
    ensures r.1.shaders == reg.shaders
    ensures name in reg.textures ==> r == (reg.textures[name], reg)
    ensures name !in reg.textures ==> r.0 == env.defaultTexture && r.1.textures == reg.textures[name := env.defaultTexture]
  {
    var (t, textures) := Subscript(reg.textures, name, env.defaultTexture);
    (t, reg.(textures := textures))
  }

  /** What `Clear` does: the GL names it deletes; the maps themselves stay. */
  datatype Cleared = Cleared(registry: Registry, deletedPrograms: set<int>, deletedTextures: set<int>)

  /** `Clear`: delete every program and texture object; the registry keeps
      all its names and entries. */
  function Clear(reg: Registry): (c: Cleared)
    ensures c.registry == reg
    ensures forall n :: n in reg.shaders ==> reg.shaders[n].id in c.deletedPrograms
    ensures forall n :: n in reg.textures ==> reg.textures[n].id in c.deletedTextures
    ensures forall id :: id in c.deletedPrograms ==> exists n :: n in reg.shaders && reg.shaders[n].id == id
    ensures forall id :: id in c.deletedTextures ==> exists n :: n in reg.textures && reg.textures[n].id == id
  {
    Cleared(reg,
            set n | n in reg.shaders :: reg.shaders[n].id,
            set n | n in reg.textures :: reg.textures[n].id)
  }

  // ---------------------------------------------------------------- Properties

  /** After `LoadShader(..., name)`, `GetShader(name)` returns the stored
      program and inserts nothing. */
  lemma LoadThenGetShader(reg: Registry, v: string, f: string, g: Option<string>, name: string, env: Env)
    ensures var (s, reg1) := LoadShader(reg, v, f, g, name, env);
            GetShader(reg1, name, env) == (s, reg1)
  {
  }

  /** After `LoadTexture(..., name)`, `GetTexture(name)` returns the stored
      texture and inserts nothing. */
  lemma LoadThenGetTexture(reg: Registry, file: string, alpha: bool, name: string, env: Env)
    ensures var (t, reg1) := LoadTexture(reg, file, alpha, name, env);
            GetTexture(reg1, name, env) == (t, reg1)
  {
  }

  /** A read of an unknown name leaves it registered, so a second read
      changes nothing and returns the same value. */
  lemma GetShaderTwice(reg: Registry, name: string, env: Env)
    ensures var (s, reg1) := GetShader(reg, name, env);
            GetShader(reg1, name, env) == (s, reg1) && name in reg1.shaders
  {
  }

  /** Loading twice under one name keeps only the second load. */
  lemma LoadShaderOverwrites(reg: Registry, v1: string, f1: string, g1: Option<string>,
                             v2: string, f2: string, g2: Option<string>, name: string, env: Env)
    ensures LoadShader(LoadShader(reg, v1, f1, g1, name, env).1, v2, f2, g2, name, env) ==
            LoadShader(reg, v2, f2, g2, name, env)
  {
    var s1 := LoadShaderFromFile(v1, f1, g1, env);
    var s2 := LoadShaderFromFile(v2, f2, g2, env);
    assert reg.shaders[name := s1][name := s2] == reg.shaders[name := s2];
  }
}

=== FILE: round.dfy ===
/** GLM's integer rounding helpers (`glm/gtc/round.inl`): power-of-two tests
    and rounding through bit tricks on 32-bit words, and rounding to a
    multiple through C++'s truncating `%`.

    Unsigned 32-bit values are `bv32`; signed 32-bit values are the same
    words read in two's complement. `floorPowerOfTwo` has both instances;
    `roundPowerOfTwo` has the unsigned one only. Exponents are `bv32` values below 32 so
    that shifts by them stay in bit-vector arithmetic. */
module Round {
  import CInt

  const SignBit: bv32 := 0x8000_0000

  /** `1 << k`. */
  function Bit(k: bv32): bv32
    requires k < 32
  {
    (1 as bv32) << k
  }

  /** The reference notion: a word with exactly one bit set. */
  ghost predicate IsPow2(v: bv32) {
    exists k: bv32 :: k < 32 && v == Bit(k)
  }

  // ---------------------------------------------------------------------
  // isPowerOfTwo

  /** `isPowerOfTwo` for an unsigned value: `!(v & (v - 1))`. */
  predicate IsPowerOfTwo(v: bv32) {
    v & (v - 1) == 0
  }

  /** Two's-complement negation and `abs` of a signed 32-bit word; `abs` of
      the most negative value is that value again, as in C++ wrap-around. */
  function Neg(v: bv32): bv32 { 0 - v }
  predicate IsNegative(v: bv32) { v & SignBit != 0 }
  function AbsS(v: bv32): bv32 { if IsNegative(v) then Neg(v) else v }

  /** `isPowerOfTwo` for a signed value: the test is applied to `abs(v)`. */
  predicate IsPowerOfTwoSigned(v: bv32) {
    IsPowerOfTwo(AbsS(v))
  }

  /** The index of the highest set bit, scanning down from bit `k`. GLM's
      `findMSB` is not part of this model; this is the definition used in its
      place, and `FindMsbSpec` states what it computes. */
  function Scan(v: bv32, k: bv32): (r: bv32)
    requires k < 32
    ensures r <= k
    decreases k
  {
    if k == 0 || v >> k != 0 then k else Scan(v, k - 1)
  }

  function FindMsb(v: bv32): (r: bv32)
    ensures r < 32
  {
    Scan(v, 31)
  }

  lemma {:induction false} ScanSpec(v: bv32, k: bv32)
    requires k < 32 && v != 0
    requires k < 31 ==> v >> (k + 1) == 0
    ensures Bit(Scan(v, k)) <= v
    ensures Scan(v, k) < 31 ==> v < Bit(Scan(v, k) + 1)
    decreases k
  {
    if k == 0 || v >> k != 0 {
    } else {
      ScanSpec(v, k - 1);
    }
  }

  /** `1 << findMSB(v)` is the largest power of two not above `v`. */
  lemma FindMsbSpec(v: bv32)
    requires v != 0
    ensures Bit(FindMsb(v)) <= v
    ensures FindMsb(v) < 31 ==> v < Bit(FindMsb(v) + 1)
    ensures FindMsb(v) == 31 ==> SignBit <= v
  {
    ScanSpec(v, 31);
  }

  lemma BitIsPowerOfTwo(k: bv32)
    requires k < 32
    ensures IsPowerOfTwo(Bit(k)) && Bit(k) != 0
  {
  }

  /** The bit trick is exact: it holds for 0 and for the single-bit words,
      and for nothing else. */
  lemma IsPowerOfTwoCorrect(v: bv32)
    ensures IsPowerOfTwo(v) <==> v == 0 || IsPow2(v)
  {
    if v != 0 {
      FindMsbSpec(v);
      var k := FindMsb(v);
      if IsPowerOfTwo(v) {
        assert v == Bit(k);
      }
      if IsPow2(v) {
        var j: bv32 :| j < 32 && v == Bit(j);
        BitIsPowerOfTwo(j);
      }
    }
  }

  /** The signed test ignores the sign. */
  lemma IsPowerOfTwoSignedEven(v: bv32)
    requires v != SignBit
    ensures IsPowerOfTwoSigned(Neg(v)) == IsPowerOfTwoSigned(v)
    ensures !IsNegative(v) ==> IsPowerOfTwoSigned(v) == IsPowerOfTwo(v)
  {
  }

  // ---------------------------------------------------------------------
  // ceilPowerOfTwo

  /** The smearing core of `compute_ceilPowerOfTwo`: subtract one, OR in
      the right shifts by 1, 2, 4, 8 and 16, add one. */
  function Smear(v: bv32): bv32 {
    var v0 := v - 1;
    var v1 := v0 | (v0 >> 1);
    var v2 := v1 | (v1 >> 2);
    var v3 := v2 | (v2 >> 4);
    var v4 := v3 | (v3 >> 8);
    var v5 := v4 | (v4 >> 16);
    v5 + 1
  }

  /** Unsigned `ceilPowerOfTwo`: the least power of two at or above `x` when
      one fits in 32 bits; 0 and values above 2^31 wrap to 0. */
  function CeilPowerOfTwo(x: bv32): (r: bv32)
    ensures x == 0 ==> r == 0
    ensures 1 <= x <= SignBit ==> r != 0 && IsPowerOfTwo(r) && x <= r && r >> 1 < x
    ensures SignBit < x ==> r == 0
  {
    Smear(x)
  }

  /** `sign(x)` as a word: -1, 0 or 1. */
  function Sign(x: bv32): bv32 {
    if IsNegative(x) then Neg(1) else if x == 0 then 0 else 1
  }

  /** `w * sign(x)` computed by cases; `MulSign` shows it is the product. */
  function ApplySign(w: bv32, x: bv32): bv32 {
    if IsNegative(x) then Neg(w) else if x == 0 then 0 else w
  }

  lemma MulMinusOne(w: bv32)
    ensures w * 0xFFFF_FFFF == Neg(w)
  {
  }

  lemma MulSign(w: bv32, x: bv32)
    ensures w * Sign(x) == ApplySign(w, x)
  {
    var s := Sign(x);
    if IsNegative(x) {
      assert s == 0xFFFF_FFFF;
      MulMinusOne(w);
    } else if x == 0 {
      assert s == 0;
    } else {
      assert s == 1;
    }
  }

  /** Signed `ceilPowerOfTwo`: the unsigned rounding of `abs(x)`, times
      `sign(x)`. */
  function CeilPowerOfTwoSigned(x: bv32): (r: bv32)
    ensures x == 0 ==> r == 0
    ensures !IsNegative(x) ==> r == CeilPowerOfTwo(x)
  {
    ApplySign(Smear(AbsS(x)), x)
  }

  /** The case split above is the source's multiplication by the sign. */
  lemma CeilPowerOfTwoSignedIsProduct(x: bv32)
    ensures CeilPowerOfTwoSigned(x) == Smear(AbsS(x)) * Sign(x)
  {
    MulSign(Smear(AbsS(x)), x);
  }

  /** The signed rounding is odd: rounding `-x` gives `-(rounding of x)`. */
  lemma CeilPowerOfTwoSignedOdd(x: bv32)
    requires x != SignBit
    ensures CeilPowerOfTwoSigned(Neg(x)) == Neg(CeilPowerOfTwoSigned(x))
  {
    assert AbsS(Neg(x)) == AbsS(x);
    if x != 0 {
      assert IsNegative(Neg(x)) == !IsNegative(x);
    }
  }

  // ---------------------------------------------------------------------
  // floorPowerOfTwo and roundPowerOfTwo

  /** `floorPowerOfTwo`: `v` itself when the bit test passes (so 0 stays 0),
      otherwise `1 << findMSB(v)`. */
  function FloorPowerOfTwo(v: bv32): bv32 {
    if IsPowerOfTwo(v) then v else Bit(FindMsb(v))
  }

  /** For non-zero `v` the result is the greatest power of two not above `v`. */
  lemma FloorPowerOfTwoSpec(v: bv32)
    ensures v == 0 ==> FloorPowerOfTwo(v) == 0
    ensures v != 0 ==> IsPow2(FloorPowerOfTwo(v))
    ensures v != 0 ==> FloorPowerOfTwo(v) <= v && v >> 1 < FloorPowerOfTwo(v)
  {
    if v != 0 {
      FindMsbSpec(v);
      IsPowerOfTwoCorrect(v);
      var k := FindMsb(v);
      assert IsPow2(Bit(k));
    }
  }

  /** The floor power of two of a non-power below 2^31 lies strictly below
      it, and the next power of two strictly above. */
  lemma FloorBracket(v: bv32)
    requires v < SignBit && !IsPowerOfTwo(v)
    ensures FindMsb(v) < 31
    ensures FloorPowerOfTwo(v) == Bit(FindMsb(v))
    ensures Bit(FindMsb(v)) < v < Bit(FindMsb(v) + 1)
  {
    FindMsbSpec(v);
    BitIsPowerOfTwo(FindMsb(v));
  }

  /** Rounding up a value strictly between a power of two and its double
      gives the double. */
  lemma CeilBetween(v: bv32, p: bv32)
    requires p != 0 && IsPowerOfTwo(p) && p < SignBit
    requires p < v < p << 1
    ensures CeilPowerOfTwo(v) == p << 1
  {
  }

  /** Below 2^31, a value that is not a power of two lies strictly between
      its floor and ceiling powers of two, and the ceiling is twice the floor. */
  lemma FloorCeilBracket(v: bv32)
    requires v < SignBit && !IsPowerOfTwo(v)
    ensures FindMsb(v) < 31
    ensures FloorPowerOfTwo(v) == Bit(FindMsb(v))
    ensures CeilPowerOfTwo(v) == Bit(FindMsb(v) + 1)
    ensures FloorPowerOfTwo(v) < v < CeilPowerOfTwo(v)
  {
    FloorBracket(v);
    var k := FindMsb(v);
    BitIsPowerOfTwo(k);
    assert Bit(k + 1) == Bit(k) << 1;
    CeilBetween(v, Bit(k));
  }

  /** The choice at the end of `roundPowerOfTwo` between `prev` and
      `next`: `next` only when it is strictly nearer. */
  function Nearer(v: bv32, prev: bv32, next: bv32): bv32 {
    if next - v < v - prev then next else prev
  }

  /** `roundPowerOfTwo`: a power of two is kept; otherwise the nearer of
      `prev = 1 << findMSB(v)` and `next = prev << 1`. */
  function RoundPowerOfTwo(v: bv32): bv32 {
    if IsPowerOfTwo(v) then v
    else
      var prev := Bit(FindMsb(v));
      Nearer(v, prev, prev << 1)
  }

  /** Between two neighbours the choice goes to the strictly nearer one,
      and to the lower one on a tie. */
  lemma NearerSpec(v: bv32, lo: bv32, hi: bv32)
    requires lo < v < hi
    ensures Nearer(v, lo, hi) == lo <==> v - lo <= hi - v
    ensures Nearer(v, lo, hi) == hi <==> hi - v < v - lo
  {
  }

  /** Below 2^31, rounding a non-power chooses between `floorPowerOfTwo`
      and `ceilPowerOfTwo`; `NearerSpec` says which. */
  lemma RoundPowerOfTwoSpec(v: bv32)
    requires v < SignBit
    ensures IsPowerOfTwo(v) ==> RoundPowerOfTwo(v) == v
    ensures !IsPowerOfTwo(v) ==>
      FloorPowerOfTwo(v) < v < CeilPowerOfTwo(v) &&
      RoundPowerOfTwo(v) == Nearer(v, FloorPowerOfTwo(v), CeilPowerOfTwo(v))
  {
    if !IsPowerOfTwo(v) {
      FloorCeilBracket(v);
    }
  }

  /** The signed instance of `floorPowerOfTwo`: the bit test goes through
      `abs`, so a negated power of two comes back unchanged. Any other value
      gets `1 << findMSB(v)` as in the unsigned instance. */
  function FloorPowerOfTwoSigned(v: bv32): bv32 {
    if IsPowerOfTwoSigned(v) then v else Bit(FindMsb(v))
  }

  /** On non-negative values the signed and unsigned instances agree. */
  lemma FloorPowerOfTwoSignedAgrees(v: bv32)
    requires !IsNegative(v)
    ensures FloorPowerOfTwoSigned(v) == FloorPowerOfTwo(v)
  {
    IsPowerOfTwoSignedEven(v);
  }

  /** The signed instance keeps every negated power of two, `INT_MIN`
      included; the unsigned instance sends each of them except `INT_MIN`
      to `INT_MIN`, the top bit of the word. */
  lemma FloorPowerOfTwoSignedKeepsNegatedPowers(k: bv32)
    requires k < 32
    ensures FloorPowerOfTwoSigned(Neg(Bit(k))) == Neg(Bit(k))
    ensures FloorPowerOfTwo(Neg(Bit(k))) == SignBit
  {
    BitIsPowerOfTwo(k);
    if k < 31 {
      IsPowerOfTwoSignedEven(Bit(k));
    }
  }

  // ---------------------------------------------------------------------
  // Multiples

  /** The reference notions of rounding to a multiple of a positive `m`. */
  predicate IsLeastMultipleAtLeast(r: int, s: int, m: int)
    requires m > 0
  {
    r % m == 0 && s <= r < s + m
  }

  predicate IsGreatestMultipleAtMost(r: int, s: int, m: int)
    requires m > 0
  {
    r % m == 0 && s - m < r <= s
  }

  /** `isMultiple`: `v % m == 0` with C++'s `%`. */
  predicate IsMultiple(v: int, m: int)
    requires m != 0
  {
    CInt.Mod(v, m) == 0
  }

  /** Divisibility by a positive `m` does not depend on the sign of `v`. */
  lemma DivisibleNeg(v: int, m: int)
    requires m > 0 && v % m == 0
    ensures (-v) % m == 0
  {
    CInt.EuclidUnique(-v, m, -(v / m), 0);
  }

  /** The C++ test agrees with divisibility, whatever the signs. */
  lemma IsMultipleCorrect(v: int, m: int)
    requires m != 0
    ensures IsMultiple(v, m) <==> v % m == 0
  {
    var am := CInt.Abs(m);
    if m < 0 {
      CInt.EuclidUnique(v, am, -(v / m), v % m);
    }
    assert v % m == v % am;
    if v < 0 {
      if v % am == 0 {
        DivisibleNeg(v, am);
      }
      if (-v) % am == 0 {
        DivisibleNeg(-v, am);
      }
    }
  }

  /** Signed `compute_ceilMultiple<false, true>`. */
  function CeilMultiple(s: int, m: int): int
    requires m != 0
  {
    if s > 0 then
      var tmp := s - 1;
      tmp + (m - CInt.Mod(tmp, m))
    else
      s + CInt.Mod(-s, m)
  }

  lemma CeilMultipleSpec(s: int, m: int)
    requires m > 0
    ensures IsLeastMultipleAtLeast(CeilMultiple(s, m), s, m)
  {
    if s > 0 {
      var tmp := s - 1;
      var q, t := tmp / m, tmp % m;
      CInt.ModNonNeg(tmp, m);
      assert tmp == q * m + t;
      assert CeilMultiple(s, m) == (q + 1) * m;
      CInt.EuclidUnique(CeilMultiple(s, m), m, q + 1, 0);
    } else {
      var q, t := (-s) / m, (-s) % m;
      CInt.ModNonNeg(-s, m);
      assert -s == q * m + t;
      assert CeilMultiple(s, m) == (-q) * m;
      CInt.EuclidUnique(CeilMultiple(s, m), m, -q, 0);
    }
  }

  /** Signed and unsigned `compute_floorMultiple<false, _>`. */
  function FloorMultiple(s: int, m: int): int
    requires m != 0
  {
    if s >= 0 then
      s - CInt.Mod(s, m)
    else
      var tmp := s + 1;
      tmp - CInt.Mod(tmp, m) - m
  }

  lemma FloorMultipleSpec(s: int, m: int)
    requires m > 0
    ensures IsGreatestMultipleAtMost(FloorMultiple(s, m), s, m)
  {
    if s >= 0 {
      var q, t := s / m, s % m;
      CInt.ModNonNeg(s, m);
      assert s == q * m + t;
      CInt.EuclidUnique(FloorMultiple(s, m), m, q, 0);
    } else if s == -1 {
      assert FloorMultiple(s, m) == (-1) * m;
      CInt.EuclidUnique(FloorMultiple(s, m), m, -1, 0);
    } else {
      var tmp := s + 1;
      var q, t := (-tmp) / m, (-tmp) % m;
      assert -tmp == q * m + t;
      assert CInt.Mod(tmp, m) == -t;
      assert FloorMultiple(s, m) == (-(q + 1)) * m;
      CInt.EuclidUnique(FloorMultiple(s, m), m, -(q + 1), 0);
    }
  }

  /** `compute_roundMultiple<false, _>`: its body is that of
      `compute_floorMultiple`, so it rounds down rather than to nearest. */
  function RoundMultiple(s: int, m: int): int
    requires m != 0
  {
    if s >= 0 then
      s - CInt.Mod(s, m)
    else
      var tmp := s + 1;
      tmp - CInt.Mod(tmp, m) - m
  }

  lemma RoundMultipleIsFloor(s: int, m: int)
    requires m > 0
    ensures RoundMultiple(s, m) == FloorMultiple(s, m)
    ensures IsGreatestMultipleAtMost(RoundMultiple(s, m), s, m)
  {
    FloorMultipleSpec(s, m);
  }

  /** For `int`, signed overflow is undefined in C++: the computation of
      signed `ceilMultiple` is defined exactly when each value it forms, in
      the order it forms them, lies in 32 bits. */
  predicate CeilMultipleInt32(s: int, m: int)
    requires m != 0
  {
    if s > 0 then
      var tmp := s - 1;
      CInt.IsInt32(tmp) && CInt.IsInt32(m - CInt.Mod(tmp, m)) && CInt.IsInt32(tmp + (m - CInt.Mod(tmp, m)))
    else
      CInt.IsInt32(-s) && CInt.IsInt32(s + CInt.Mod(-s, m))
  }

  /** The same for `floorMultiple` (and so `roundMultiple`). */
  predicate FloorMultipleInt32(s: int, m: int)
    requires m != 0
  {
    if s >= 0 then
      CInt.IsInt32(s - CInt.Mod(s, m))
    else
      var tmp := s + 1;
      CInt.IsInt32(tmp) && CInt.IsInt32(tmp - CInt.Mod(tmp, m)) && CInt.IsInt32(tmp - CInt.Mod(tmp, m) - m)
  }

  /** On `int` arguments with a positive multiple, `ceilMultiple` avoids
      overflow exactly when the source is not `INT_MIN` (whose negation
      overflows) and the least multiple at or above it fits in 32 bits; then
      the unbounded result is the one C++ computes. */
  lemma CeilMultipleInt32Iff(s: int, m: int)
    requires CInt.IsInt32(s) && CInt.IsInt32(m) && m > 0
    ensures CeilMultipleInt32(s, m) <==> s != CInt.Int32Min && CInt.IsInt32(CeilMultiple(s, m))
  {
    if s > 0 {
      CInt.DivModSpec(s - 1, m);
    } else {
      CInt.DivModSpec(-s, m);
    }
  }

  /** On `int` arguments with a positive multiple, `floorMultiple` avoids
      overflow exactly when the greatest multiple at or below the source fits
      in 32 bits. */
  lemma FloorMultipleInt32Iff(s: int, m: int)
    requires CInt.IsInt32(s) && CInt.IsInt32(m) && m > 0
    ensures FloorMultipleInt32(s, m) <==> CInt.IsInt32(FloorMultiple(s, m))
  {
    if s >= 0 {
      CInt.DivModSpec(s, m);
    } else {
      CInt.DivModSpec(s + 1, m);
    }
  }

  /** Concretely: `ceilMultiple(INT_MAX, 2)` needs 2^31, `ceilMultiple(INT_MIN, 3)`
      negates `INT_MIN`, and `floorMultiple(INT_MIN, 3)` goes below `INT_MIN`. */
  lemma MultipleOverflowExamples()
    ensures CeilMultiple(CInt.Int32Max, 2) == 0x8000_0000 && !CeilMultipleInt32(CInt.Int32Max, 2)
    ensures !CeilMultipleInt32(CInt.Int32Min, 3)
    ensures FloorMultiple(CInt.Int32Min, 3) < CInt.Int32Min && !FloorMultipleInt32(CInt.Int32Min, 3)
  {
    CeilMultipleSpec(CInt.Int32Max, 2);
    FloorMultipleSpec(CInt.Int32Min, 3);
  }

  /** Unsigned `compute_ceilMultiple<false, false>` on 32-bit words, as
      written: `Source - 1` wraps to 2^32 - 1 when `Source` is 0. */
  function CeilMultipleUnsigned(s: nat, m: nat): nat
    requires CInt.IsUint32(s) && 0 < m && CInt.IsUint32(m)
  {
    var tmp := CInt.Wrap32(s - 1);
    CInt.Wrap32(tmp + (m - tmp % m))
  }

  /** With a zero source and a multiple that does not divide 2^32 the unsigned
      rounding returns a value that is not a multiple: `ceilMultiple(0u, 3u)`
      is 2. */
  lemma CeilMultipleUnsignedZeroSource()
    ensures CeilMultipleUnsigned(0, 3) == 2
    ensures !IsLeastMultipleAtLeast(CeilMultipleUnsigned(0, 3), 0, 3)
  {
  }

  /** The unsigned rounding with 0 handled as the signed version does: 0 is
      already a multiple. */
  function CeilMultipleUnsignedFixed(s: nat, m: nat): nat
    requires CInt.IsUint32(s) && 0 < m && CInt.IsUint32(m)
  {
    if s == 0 then 0 else CeilMultipleUnsigned(s, m)
  }

  /** Whenever the least multiple fits in 32 bits, the corrected unsigned
      rounding returns it, including for a zero source. */
  lemma CeilMultipleUnsignedFixedSpec(s: nat, m: nat)
    requires CInt.IsUint32(s) && 0 < m && CInt.IsUint32(m)
    requires CInt.IsUint32(CeilMultiple(s, m))
    ensures IsLeastMultipleAtLeast(CeilMultipleUnsignedFixed(s, m), s, m)
    ensures CeilMultipleUnsignedFixed(s, m) == CeilMultiple(s, m)
  {
    CeilMultipleSpec(s, m);
    if s > 0 {
      var tmp := s - 1;
      assert CInt.Wrap32(s - 1) == tmp;
      CInt.ModNonNeg(tmp, m);
      assert tmp + (m - tmp % m) == CeilMultiple(s, m);
    }
  }

  /** Unsigned `compute_floorMultiple<false, false>`: no wrap can occur. */
  lemma FloorMultipleUnsignedSpec(s: nat, m: nat)
    requires CInt.IsUint32(s) && 0 < m && CInt.IsUint32(m)
    ensures CInt.IsUint32(FloorMultiple(s, m))
    ensures IsGreatestMultipleAtMost(FloorMultiple(s, m), s, m)
  {
    FloorMultipleSpec(s, m);
  }
}

=== FILE: ssao.dfy ===
/** The CPU side of the SSAO demo (`src/5.advanced_lighting/9.ssao/ssao.cpp`):
    `lerp`, the 64-sample hemisphere kernel whose samples are pulled towards
    the centre, the 16 noise vectors that rotate about z, and the `draw_mode`
    keys. Random floats come from a stream of values in [0, 1); `normalize`
    is a parameter. `key_callback` is `DebouncedKeys.KeyCallback`. */
module Ssao {
  import opened Geometry
  import opened Glfw

  const KernelSize: nat := 64
  const NoiseSize: nat := 16

  /** `lerp(a, b, f)`. */
  function Lerp(a: real, b: real, f: real): real {
    a + f * (b - a)
  }

  /** `lerp` meets both ends and, between distinct ends, is strictly
      monotone in `f`. */
  lemma LerpProperties(a: real, b: real, f: real, g: real)
    ensures Lerp(a, b, 0.0) == a && Lerp(a, b, 1.0) == b
    ensures a < b && f < g ==> Lerp(a, b, f) < Lerp(a, b, g)
  {
    if a < b && f < g {
      var d := b - a;
      assert Lerp(a, b, g) - Lerp(a, b, f) == g * d - f * d;
      assert g * d - f * d == (g - f) * d;
      PositiveProduct(g - f, d);
    }
  }

  lemma PositiveProduct(p: real, q: real)
    requires p > 0.0 && q > 0.0
    ensures p * q > 0.0
  {
  }

  /** The scale of sample `i`: `lerp(0.1, 1.0, (i / 64)^2)`. */
  function KernelScale(i: nat): real
    requires i < KernelSize
  {
    var scale := i as real / 64.0;
    Lerp(0.1, 1.0, scale * scale)
  }

  /** The scales start at 0.1, grow strictly with the sample index and stay
      below 1, so later samples lie further out but never on the rim. */
  lemma KernelScaleProperties(i: nat, j: nat)
    requires i < KernelSize && j < KernelSize
    ensures KernelScale(0) == 0.1
    ensures 0.1 <= KernelScale(i) < 1.0
    ensures i < j ==> KernelScale(i) < KernelScale(j)
  {
    var fi := i as real / 64.0;
    var fj := j as real / 64.0;
    assert 0.0 <= fi < 1.0;
    SquareBelowOne(fi);
    LerpProperties(0.1, 1.0, fi * fi, 1.0);
    LerpProperties(0.1, 1.0, 0.0, fi * fi);
    if i < j {
      SquareMonotone(fi, fj);
      LerpProperties(0.1, 1.0, fi * fi, fj * fj);
    }
  }

  lemma SquareBelowOne(f: real)
    requires 0.0 <= f < 1.0
    ensures 0.0 <= f * f < 1.0
  {
    assert f * f <= f * 1.0;
  }

  lemma SquareMonotone(f: real, g: real)
    requires 0.0 <= f < g
    ensures f * f < g * g
  {
    PositiveProduct(g - f, g);
    assert g * g - f * g == (g - f) * g;
    assert f * g - f * f == f * (g - f);
    assert f * (g - f) >= 0.0;
  }

  /** The random floats the generator hands out, in the order drawn. */
  predicate UnitStream(rs: seq<real>) {
    forall k :: 0 <= k < |rs| ==> 0.0 <= rs[k] < 1.0
  }

  /** How many floats the two loops draw: four per kernel sample, two per
      noise vector. */
  const Draws: nat := 4 * KernelSize + 2 * NoiseSize

  /** Kernel sample `i`: a random direction in the +z hemisphere, normalised,
      scaled by a random length and then by `KernelScale(i)`. */
  function Sample(rs: seq<real>, i: nat, normalize: Vec3 -> Vec3): Vec3
    requires i < KernelSize && |rs| >= Draws
  {
    var b := 4 * i;
    var dir := normalize(Vec3(rs[b] * 2.0 - 1.0, rs[b + 1] * 2.0 - 1.0, rs[b + 2]));
    Scale(Scale(dir, rs[b + 3]), KernelScale(i))
  }

  /** With a `normalize` that keeps a direction in the +z half-space, every
      sample lies in the +z hemisphere: the random length is non-negative and
      the scale is at least 0.1. */
  lemma SampleInHemisphere(rs: seq<real>, i: nat, normalize: Vec3 -> Vec3)
    requires i < KernelSize && |rs| >= Draws && UnitStream(rs)
    requires forall v: Vec3 :: v.z >= 0.0 ==> normalize(v).z >= 0.0
    ensures Sample(rs, i, normalize).z >= 0.0
  {
    var b := 4 * i;
    assert 0.0 <= rs[b + 2] && 0.0 <= rs[b + 3];
    var dir := normalize(Vec3(rs[b] * 2.0 - 1.0, rs[b + 1] * 2.0 - 1.0, rs[b + 2]));
    assert dir.z >= 0.0;
    KernelScaleProperties(i, i);
    NonNegativeProduct(dir.z, rs[b + 3]);
    NonNegativeProduct(dir.z * rs[b + 3], KernelScale(i));
  }

  lemma NonNegativeProduct(p: real, q: real)
    requires p >= 0.0 && q >= 0.0
    ensures p * q >= 0.0
  {
  }

  /** Noise vector `i`: random x and y in [-1, 1), z zero. */
  function Noise(rs: seq<real>, i: nat): Vec3
    requires i < NoiseSize && |rs| >= Draws
  {
    var b := 4 * KernelSize + 2 * i;
    Vec3(rs[b] * 2.0 - 1.0, rs[b + 1] * 2.0 - 1.0, 0.0)
  }

  /** The two generation loops of `main`. */
  method KernelAndNoise(rs: seq<real>, normalize: Vec3 -> Vec3) returns (kernel: seq<Vec3>, noise: seq<Vec3>)
    requires |rs| >= Draws && UnitStream(rs)
    ensures |kernel| == KernelSize && |noise| == NoiseSize
    ensures forall i :: 0 <= i < KernelSize ==> kernel[i] == Sample(rs, i, normalize)
    ensures (forall v: Vec3 :: v.z >= 0.0 ==> normalize(v).z >= 0.0) ==>
              forall i :: 0 <= i < KernelSize ==> kernel[i].z >= 0.0
    ensures forall i :: 0 <= i < NoiseSize ==>
              noise[i].z == 0.0 && -1.0 <= noise[i].x < 1.0 && -1.0 <= noise[i].y < 1.0
  {
    kernel := [];
    var i := 0;
    while i < KernelSize
      invariant 0 <= i <= KernelSize && |kernel| == i
      invariant forall k :: 0 <= k < i ==> kernel[k] == Sample(rs, k, normalize)
    {
      kernel := kernel + [Sample(rs, i, normalize)];
      i := i + 1;
    }
    noise := [];
    i := 0;
    while i < NoiseSize
      invariant 0 <= i <= NoiseSize && |noise| == i
      invariant forall k :: 0 <= k < i ==> noise[k] == Noise(rs, k)
    {
      noise := noise + [Noise(rs, i)];
      i := i + 1;
    }
    if forall v: Vec3 :: v.z >= 0.0 ==> normalize(v).z >= 0.0 {
      forall k | 0 <= k < KernelSize
        ensures kernel[k].z >= 0.0
      {
        SampleInHemisphere(rs, k, normalize);
      }
    }
    forall k | 0 <= k < NoiseSize
      ensures noise[k].z == 0.0 && -1.0 <= noise[k].x < 1.0 && -1.0 <= noise[k].y < 1.0
    {
      var b := 4 * KernelSize + 2 * k;
      assert 0.0 <= rs[b] < 1.0 && 0.0 <= rs[b + 1] < 1.0;
    }
  }

  /** The `draw_mode` tests of `Do_Movement`: keys 1 to 4 in turn, each
      overwriting the last. */
  function DrawMode(keys: seq<bool>, mode: int): (m: int)
    requires |keys| == KeyCount
  {
    var m1 := if keys[Key1] then 1 else mode;
    var m2 := if keys[Key2] then 2 else m1;
    var m3 := if keys[Key3] then 3 else m2;
    if keys[Key4] then 4 else m3
  }

  /** Which of the mode keys are held, by mode number. */
  function HeldModes(keys: seq<bool>): set<int>
    requires |keys| == KeyCount
  {
    (if keys[Key1] then {1} else {}) + (if keys[Key2] then {2} else {}) +
    (if keys[Key3] then {3} else {}) + (if keys[Key4] then {4} else {})
  }

  /** The highest held mode key wins; with none held the mode stays. */
  lemma DrawModeHighestWins(keys: seq<bool>, mode: int)
    requires |keys| == KeyCount
    ensures HeldModes(keys) == {} ==> DrawMode(keys, mode) == mode
    ensures HeldModes(keys) != {} ==>
              DrawMode(keys, mode) in HeldModes(keys) &&
              forall n :: n in HeldModes(keys) ==> n <= DrawMode(keys, mode)
  {
    var held := HeldModes(keys);
    assert keys[Key1] <==> 1 in held;
    assert keys[Key2] <==> 2 in held;
    assert keys[Key3] <==> 3 in held;
    assert keys[Key4] <==> 4 in held;
    assert forall n :: n in held ==> 1 <= n <= 4;
  }
}

=== FILE: vec2.dfy ===
/** `glm::tvec2<T>` for an integer `T` (`glm/detail/type_vec2.inl`): the
    constructors, component access, the componentwise arithmetic operators
    in their vector, scalar and `tvec1` forms, the compound assignments,
    increment and decrement, negation and equality. `T` is taken as an
    unbounded integer; `/` and `%` are C++'s truncating operators. */
module GlmVec2 {
  import CInt

  datatype Vec2 = Vec2(x: int, y: int)

  /** `tvec1<T>`: a single component. */
  datatype Vec1 = Vec1(x: int)

  // ---------------------------------------------------------------- Constructors and access

  /** The default constructor: both components zero. */
  const Default: Vec2 := Vec2(0, 0)

  /** The scalar constructor: the scalar in both components. */
  function Broadcast(s: int): Vec2 {
    Vec2(s, s)
  }

  /** `length()`: the number of components. */
  const Length: nat := 2

  /** `operator[]`: component `i`, with `0 <= i < length()` asserted. */
  function Index(v: Vec2, i: int): (c: int)
    requires 0 <= i < Length
    ensures i == 0 ==> c == v.x
    ensures i == 1 ==> c == v.y
  {
    if i == 0 then v.x else v.y
  }

  /** A vector is determined by its two indexed components, and the scalar
      constructor puts the scalar at every index. */
  lemma IndexDetermines(v: Vec2, w: Vec2, s: int)
    ensures v == w <==> forall i :: 0 <= i < Length ==> Index(v, i) == Index(w, i)
    ensures forall i :: 0 <= i < Length ==> Index(Broadcast(s), i) == s
    ensures Vec2(Index(v, 0), Index(v, 1)) == v
  {
    if forall i :: 0 <= i < Length ==> Index(v, i) == Index(w, i) {
      assert Index(v, 0) == Index(w, 0) && Index(v, 1) == Index(w, 1);
    }
  }

  // ---------------------------------------------------------------- Binary arithmetic

  /** The arithmetic operators the vector lifts. */
  datatype Op = Plus | Minus | Times | Quot | Rem

  /** Whether `a op b` is defined for integers: C++ leaves division and
      remainder by zero undefined. */
  predicate Defined(op: Op, b: int) {
    (op.Quot? || op.Rem?) ==> b != 0
  }

  /** One integer operation as C++ performs it. */
  function Apply(op: Op, a: int, b: int): int
    requires Defined(op, b)
  {
    match op
    case Plus => a + b
    case Minus => a - b
    case Times => a * b
    case Quot => CInt.Div(a, b)
    case Rem => CInt.Mod(a, b)
  }

  predicate DefinedFor(op: Op, w: Vec2) {
    Defined(op, w.x) && Defined(op, w.y)
  }

  /** `v1 op v2` for two vectors. */
  function Binary(op: Op, v1: Vec2, v2: Vec2): (r: Vec2)
    requires DefinedFor(op, v2)
    ensures forall i :: 0 <= i < Length ==> Index(r, i) == Apply(op, Index(v1, i), Index(v2, i))
  {
    Vec2(Apply(op, v1.x, v2.x), Apply(op, v1.y, v2.y))
  }

  /** `v op scalar`. */
  function BinaryScalarRight(op: Op, v: Vec2, scalar: int): Vec2
    requires Defined(op, scalar)
  {
    Vec2(Apply(op, v.x, scalar), Apply(op, v.y, scalar))
  }

  /** `scalar op v`. */
  function BinaryScalarLeft(op: Op, scalar: int, v: Vec2): Vec2
    requires DefinedFor(op, v)
  {
    Vec2(Apply(op, scalar, v.x), Apply(op, scalar, v.y))
  }

  /** `v1 op v2` with a `tvec1` on the right. */
  function BinaryVec1Right(op: Op, v1: Vec2, v2: Vec1): Vec2
    requires Defined(op, v2.x)
  {
    Vec2(Apply(op, v1.x, v2.x), Apply(op, v1.y, v2.x))
  }

  /** `v1 op v2` with a `tvec1` on the left. */
  function BinaryVec1Left(op: Op, v1: Vec1, v2: Vec2): Vec2
    requires DefinedFor(op, v2)
  {
    Vec2(Apply(op, v1.x, v2.x), Apply(op, v1.x, v2.y))
  }

  /** The scalar and `tvec1` forms are the vector form with the scalar
      broadcast to both components. */
  lemma ScalarFormsBroadcast(op: Op, v: Vec2, s: int)
    ensures Defined(op, s) ==> BinaryScalarRight(op, v, s) == Binary(op, v, Broadcast(s)) &&
                               BinaryVec1Right(op, v, Vec1(s)) == Binary(op, v, Broadcast(s))
    ensures DefinedFor(op, v) ==> BinaryScalarLeft(op, s, v) == Binary(op, Broadcast(s), v) &&
                                  BinaryVec1Left(op, Vec1(s), v) == Binary(op, Broadcast(s), v)
  {
  }

  /** Subtraction undoes addition, and the default vector is the identity
      of both. */
  lemma AddSubInverse(v: Vec2, w: Vec2)
    ensures Binary(Minus, Binary(Plus, v, w), w) == v
    ensures Binary(Plus, Binary(Minus, v, w), w) == v
    ensures Binary(Plus, v, Default) == v && Binary(Plus, Default, v) == v
  {
  }

  /** Componentwise C++ division: quotient times divisor plus remainder
      rebuilds the dividend, and each remainder is smaller than its divisor. */
  lemma QuotRemRebuild(v: Vec2, w: Vec2)
    requires DefinedFor(Quot, w)
    ensures Binary(Plus, Binary(Times, w, Binary(Quot, v, w)), Binary(Rem, v, w)) == v
    ensures CInt.Abs(Binary(Rem, v, w).x) < CInt.Abs(w.x) && CInt.Abs(Binary(Rem, v, w).y) < CInt.Abs(w.y)
  {
    CInt.DivModSpec(v.x, w.x);
    CInt.DivModSpec(v.y, w.y);
  }

  // ---------------------------------------------------------------- Compound assignment

  /** `v op= w`: update `x`, then `y`, and yield the updated vector. */
  method CompoundAssign(op: Op, v: Vec2, w: Vec2) returns (self: Vec2)
    requires DefinedFor(op, w)
    ensures self == Binary(op, v, w)
  {
    self := v;
    self := self.(x := Apply(op, self.x, w.x));
    self := self.(y := Apply(op, self.y, w.y));
  }

  /** `v op= scalar`, and `v op= tvec1` which reads its one component. */
  method CompoundAssignScalar(op: Op, v: Vec2, scalar: int) returns (self: Vec2)
    requires Defined(op, scalar)
    ensures self == Binary(op, v, Broadcast(scalar))
    ensures self == BinaryScalarRight(op, v, scalar)
  {
    self := v;
    self := self.(x := Apply(op, self.x, scalar));
    self := self.(y := Apply(op, self.y, scalar));
  }

  // ---------------------------------------------------------------- Increment and decrement

  /** Prefix `++`: both components up by one. */
  function PreIncrement(v: Vec2): Vec2 {
    Vec2(v.x + 1, v.y + 1)
  }

  /** Prefix `--`: both components down by one. */
  function PreDecrement(v: Vec2): Vec2 {
    Vec2(v.x - 1, v.y - 1)
  }

  /** Postfix `++`: the value before the increment, and the incremented
      vector left behind. */
  function PostIncrement(v: Vec2): (r: (Vec2, Vec2))
    ensures r.0 == v && r.1 == Binary(Plus, v, Broadcast(1))
  {
    var result := v;
    (result, PreIncrement(v))
  }

  /** Postfix `--`. */
  function PostDecrement(v: Vec2): (r: (Vec2, Vec2))
    ensures r.0 == v && r.1 == Binary(Minus, v, Broadcast(1))
  {
    var result := v;
    (result, PreDecrement(v))
  }

  /** Increment and decrement undo each other and are adding or subtracting
      the broadcast one. */
  lemma IncrementDecrement(v: Vec2)
    ensures PreDecrement(PreIncrement(v)) == v && PreIncrement(PreDecrement(v)) == v
    ensures PreIncrement(v) == Binary(Plus, v, Broadcast(1))
    ensures PreDecrement(v) == Binary(Minus, v, Broadcast(1))
  {
  }

  // ---------------------------------------------------------------- Unary operators and equality

  /** Unary `+`: the vector itself. */
  function UnaryPlus(v: Vec2): Vec2 {
    v
  }

  /** Unary `-`: both components negated. */
  function Negate(v: Vec2): Vec2 {
    Vec2(-v.x, -v.y)
  }

  /** Negation is an involution, is subtraction from the default vector and
      is the additive inverse; unary `+` changes nothing. */
  lemma NegateProperties(v: Vec2, w: Vec2)
    ensures Negate(Negate(v)) == v
    ensures Negate(v) == Binary(Minus, Default, v)
    ensures Binary(Plus, v, Negate(v)) == Default
    ensures Binary(Minus, w, v) == Binary(Plus, w, Negate(v))
    ensures UnaryPlus(v) == v
  {
  }

  /** `operator==`: both components equal. */
  function Eq(v1: Vec2, v2: Vec2): (r: bool)
    ensures r <==> v1 == v2
  {
    (v1.x == v2.x) && (v1.y == v2.y)
  }

  /** `operator!=`: some component differs. */
  function Ne(v1: Vec2, v2: Vec2): (r: bool)
    ensures r <==> !Eq(v1, v2)
  {
    (v1.x != v2.x) || (v1.y != v2.y)
  }
}

=== FILE: vec3d.dfy ===
/** `irrklang::vec3d<T>` from `irrKlang/ik_vec3d.h` instantiated with an
    integer `T` (the header's `vec3di`). Component arithmetic is exact:
    `ik_s32` overflow is not modelled. Conversions from float to `T`
    truncate toward zero, and `/` on `T` is C++ integer division. */
module Vec3d {
  import CInt
  import IrrTypes

  datatype Vec3i = Vec3i(x: int, y: int, z: int)

  /** The default constructor. */
  const Zero: Vec3i := Vec3i(0, 0, 0)

  function Neg(a: Vec3i): Vec3i { Vec3i(-a.x, -a.y, -a.z) }
  function Add(a: Vec3i, b: Vec3i): Vec3i { Vec3i(a.x + b.x, a.y + b.y, a.z + b.z) }
  function Sub(a: Vec3i, b: Vec3i): Vec3i { Vec3i(a.x - b.x, a.y - b.y, a.z - b.z) }
  function Mul(a: Vec3i, b: Vec3i): Vec3i { Vec3i(a.x * b.x, a.y * b.y, a.z * b.z) }
  function MulScalar(a: Vec3i, v: int): Vec3i { Vec3i(a.x * v, a.y * v, a.z * v) }

  /** `operator/(const vec3d<T>&)`: componentwise C++ division. */
  function Div(a: Vec3i, b: Vec3i): Vec3i
    requires b.x != 0 && b.y != 0 && b.z != 0
  {
    Vec3i(CInt.Div(a.x, b.x), CInt.Div(a.y, b.y), CInt.Div(a.z, b.z))
  }

  /** `operator<=`, `operator>=`, `operator==` and `operator!=`, written as
      the header writes them. */
  predicate Le(a: Vec3i, b: Vec3i) { a.x <= b.x && a.y <= b.y && a.z <= b.z }
  predicate Ge(a: Vec3i, b: Vec3i) { a.x >= b.x && a.y >= b.y && a.z >= b.z }
  predicate Eq(a: Vec3i, b: Vec3i) { b.x == a.x && b.y == a.y && b.z == a.z }
  predicate Ne(a: Vec3i, b: Vec3i) { b.x != a.x || b.y != a.y || b.z != a.z }

  /** `equals`: `equalsfloat` with the default tolerance on each component. */
  predicate EqualsTolerant(a: Vec3i, b: Vec3i) {
    IrrTypes.EqualsFloatDefault(a.x as real, b.x as real) &&
    IrrTypes.EqualsFloatDefault(a.y as real, b.y as real) &&
    IrrTypes.EqualsFloatDefault(a.z as real, b.z as real)
  }

  function Dot(a: Vec3i, b: Vec3i): int { a.x * b.x + a.y * b.y + a.z * b.z }

  function Cross(a: Vec3i, p: Vec3i): Vec3i {
    Vec3i(a.y * p.z - a.z * p.y, a.z * p.x - a.x * p.z, a.x * p.y - a.y * p.x)
  }

  function LengthSq(a: Vec3i): int { Dot(a, a) }

  // ---------------------------------------------------------------- Algebra

  /** Addition and subtraction undo each other, and negation is an
      involution. */
  lemma AddSubInverse(a: Vec3i, b: Vec3i)
    ensures Sub(Add(a, b), b) == a && Add(Sub(a, b), b) == a
    ensures Neg(Neg(a)) == a && Add(a, Neg(a)) == Zero
  {
  }

  /** `==` is equality of vectors, `!=` is its negation, and `equals` with
      the tolerance, compared over reals, agrees with both on integer
      components. */
  lemma EqualityOperators(a: Vec3i, b: Vec3i)
    ensures Eq(a, b) <==> a == b
    ensures Ne(a, b) <==> !Eq(a, b)
    ensures EqualsTolerant(a, b) <==> a == b
  {
    IrrTypes.EqualsFloatOnIntegers(a.x, b.x);
    IrrTypes.EqualsFloatOnIntegers(a.y, b.y);
    IrrTypes.EqualsFloatOnIntegers(a.z, b.z);
  }

  /** `<=` and `>=` are converse orders, and together they force equality. */
  lemma OrderOperators(a: Vec3i, b: Vec3i)
    ensures Ge(a, b) <==> Le(b, a)
    ensures Le(a, b) && Ge(a, b) ==> a == b
  {
  }

  lemma DotCommutative(a: Vec3i, b: Vec3i)
    ensures Dot(a, b) == Dot(b, a)
  {
  }

  /** The cross product is anticommutative, vanishes on parallel equal
      operands, and is orthogonal to both operands. */
  lemma CrossProperties(a: Vec3i, b: Vec3i)
    ensures Cross(b, a) == Neg(Cross(a, b))
    ensures Cross(a, a) == Zero
    ensures Dot(a, Cross(a, b)) == 0 && Dot(b, Cross(a, b)) == 0
  {
  }

  // ---------------------------------------------------------------- Other members

  /** `getAs4Values`: the three components, then zero. */
  function As4Values(a: Vec3i): (r: seq<int>)
    ensures |r| == 4 && r[3] == 0
    ensures Vec3i(r[0], r[1], r[2]) == a
  {
    [a.x, a.y, a.z, 0]
  }

  /** Float to integer conversion, truncating toward zero. */
  function Trunc(r: real): (n: int)
    ensures r >= 0.0 ==> n as real <= r < n as real + 1.0
    ensures r < 0.0 ==> n as real - 1.0 < r <= n as real
  {
    if r >= 0.0 then r.Floor else -((-r).Floor)
  }

  /** `getInterpolated(other, d)`: `other * (1 - d) + this * d`, computed
      in float and truncated back to `T`. */
  function Interpolated(a: Vec3i, other: Vec3i, d: real): Vec3i {
    var inv := 1.0 - d;
    Vec3i(Trunc(other.x as real * inv + a.x as real * d),
          Trunc(other.y as real * inv + a.y as real * d),
          Trunc(other.z as real * inv + a.z as real * d))
  }

  /** A factor of 1 yields this vector and a factor of 0 yields `other`. */
  lemma InterpolatedEnds(a: Vec3i, other: Vec3i)
    ensures Interpolated(a, other, 1.0) == a
    ensures Interpolated(a, other, 0.0) == other
  {
  }

  /** The truncated square root: `(T)getLength()` of an integer vector. */
  function FloorSqrt(n: nat): (r: nat)
    ensures r * r <= n < (r + 1) * (r + 1)
  {
    if n == 0 then 0
    else
      var s := FloorSqrt(n - 1);
      if (s + 1) * (s + 1) <= n then s + 1 else s
  }

  /** `normalize` on integer components: unchanged when the truncated length
      is 0; otherwise scaled by `(T)1.0 / l`, the integer reciprocal. */
  function Normalize(a: Vec3i): Vec3i {
    var l := FloorSqrt(LengthSq(a));
    if l == 0 then a else MulScalar(a, CInt.Div(1, l))
  }

  /** `normalize` leaves the zero vector alone; on integer components it
      also leaves unit-ish vectors (squared length 1 to 3) alone and
      collapses every longer vector to zero. */
  lemma NormalizeCases(a: Vec3i)
    ensures LengthSq(a) == 0 ==> a == Zero && Normalize(a) == a
    ensures 1 <= LengthSq(a) <= 3 ==> Normalize(a) == a
    ensures LengthSq(a) >= 4 ==> Normalize(a) == Zero
  {
    var n := LengthSq(a);
    if n == 0 {
      SquaresZero(a);
    } else if n <= 3 {
      FloorSqrtSmall(n);
    } else {
      FloorSqrtLarge(n);
    }
  }

  lemma SquaresZero(a: Vec3i)
    requires LengthSq(a) == 0
    ensures a == Zero
  {
    assert a.x * a.x >= 0 && a.y * a.y >= 0 && a.z * a.z >= 0;
  }

  lemma FloorSqrtSmall(n: nat)
    requires 1 <= n <= 3
    ensures FloorSqrt(n) == 1
  {
  }

  lemma FloorSqrtLarge(n: nat)
    requires n >= 4
    ensures FloorSqrt(n) >= 2 && CInt.Div(1, FloorSqrt(n)) == 0
  {
    var l := FloorSqrt(n);
    assert (l + 1) * (l + 1) > 4;
    SquareAbove(l + 1, 2);
    assert 1 / l == 0;
  }

  lemma SquareAbove(a: nat, b: nat)
    requires a * a > b * b
    ensures a > b
  {
  }

  // ---------------------------------------------------------------- Division by a scalar

  /** `operator/(const T v)` as written: `T i = (T)1.0 / v`, then multiply.
      For an integer `T` the reciprocal is an integer division. */
  function DivScalarAsWritten(a: Vec3i, v: int): Vec3i
    requires v != 0
  {
    MulScalar(a, CInt.Div(1, v))
  }

  /** Every divisor other than 1 and -1 turns the quotient into the zero
      vector, e.g. (10, 20, 30) / 2 is (0, 0, 0). */
  lemma DivScalarAsWrittenCollapses(a: Vec3i, v: int)
    requires v >= 2 || v <= -2
    ensures DivScalarAsWritten(a, v) == Zero
    ensures DivScalarAsWritten(Vec3i(10, 20, 30), 2) == Zero
  {
  }

  /** The division the operator evidently intends: each component divided
      by `v` with C++ integer division. */
  function DivScalar(a: Vec3i, v: int): (r: Vec3i)
    requires v != 0
    ensures CInt.Abs(a.x - v * r.x) < CInt.Abs(v) && CInt.Abs(a.y - v * r.y) < CInt.Abs(v) &&
            CInt.Abs(a.z - v * r.z) < CInt.Abs(v)
  {
    CInt.DivModSpec(a.x, v);
    CInt.DivModSpec(a.y, v);
    CInt.DivModSpec(a.z, v);
    Vec3i(CInt.Div(a.x, v), CInt.Div(a.y, v), CInt.Div(a.z, v))
  }

  /** Dividing a multiple of `v` gives the exact quotient, e.g.
      (10, 20, 30) / 2 is (5, 10, 15); for 1 and -1 both readings agree. */
  lemma DivScalarExact(q: Vec3i, v: int)
    requires v != 0
    ensures DivScalar(MulScalar(q, v), v) == q
    ensures DivScalar(Vec3i(10, 20, 30), 2) == Vec3i(5, 10, 15)
    ensures (v == 1 || v == -1) ==> DivScalarAsWritten(q, v) == DivScalar(q, v)
  {
    DivExact(q.x, v);
    DivExact(q.y, v);
    DivExact(q.z, v);
    DivExact(5, 2);
    DivExact(10, 2);
    DivExact(15, 2);
  }

  lemma DivExact(q: int, v: int)
    requires v != 0
    ensures CInt.Div(q * v, v) == q
  {
    CInt.DivModSpec(q * v, v);
    var d := CInt.Div(q * v, v);
    if d != q {
      assert v * (q - d) == CInt.Mod(q * v, v);
      CInt.MulAtLeast(CInt.Abs(q - d), CInt.Abs(v));
    }
  }
}

=== FILE: wrap.dfy ===
/** The texture-coordinate wrap modes of `glm/gtx/wrap.inl` on a scalar:
    `clamp`, `repeat`, `mirrorClamp` and `mirrorRepeat`. The vector forms
    apply the same rule to each component. */
module Wrap {
  import opened RealMath

  /** `clamp(t)`: `glm::clamp(t, 0, 1)`, i.e. `min(max(t, 0), 1)`. */
  function Clamp(t: real): (r: real)
    ensures 0.0 <= r <= 1.0
    ensures 0.0 <= t <= 1.0 ==> r == t
    ensures t < 0.0 ==> r == 0.0
    ensures t > 1.0 ==> r == 1.0
  {
    Min(Max(t, 0.0), 1.0)
  }

  /** `repeat(t)`: `fract(t)`. */
  function Repeat(t: real): (r: real)
    ensures 0.0 <= r < 1.0
    ensures (t - r).Floor as real == t - r
  {
    FractRange(t);
    Fract(t)
  }

  /** `mirrorClamp(t)`: `fract(abs(t))`. */
  function MirrorClamp(t: real): (r: real)
    ensures 0.0 <= r < 1.0
  {
    FractRange(Abs(t));
    Fract(Abs(t))
  }

  /** `mirrorRepeat(t)` as written: with `a = |t|`, the whole part's parity
      `mod(floor(a), 2)` plus the fractional part decides between the
      fractional part and its mirror image. */
  function MirrorRepeat(t: real): real {
    var a := Abs(t);
    var clamp := GlslMod(Floor(a) as real, 2.0);
    var floor := Floor(a) as real;
    var rest := a - floor;
    var mirror := clamp + rest;
    if mirror >= 1.0 then 1.0 - rest else rest
  }

  /** The triangle wave `mirrorRepeat` means: the fractional part of `a` on
      even unit intervals, its mirror image on odd ones. */
  function Triangle(a: real): real {
    var n := Floor(a);
    var rest := a - n as real;
    if n % 2 == 0 then rest else 1.0 - rest
  }

  lemma ParityMod(n: int)
    ensures GlslMod(n as real, 2.0) == (n % 2) as real
  {
    var q := n / 2;
    assert (n as real) / 2.0 == q as real + (n % 2) as real / 2.0;
    assert Floor((n as real) / 2.0) == q;
  }

  /** `mirrorRepeat` is the triangle wave of `|t|`. */
  lemma MirrorRepeatIsTriangle(t: real)
    ensures MirrorRepeat(t) == Triangle(Abs(t))
  {
    var a := Abs(t);
    ParityMod(Floor(a));
    FloorSpec(a);
  }

  /** `repeat` has period 1. */
  lemma RepeatPeriodic(t: real)
    ensures Repeat(t + 1.0) == Repeat(t)
  {
    FractShift(t, 1);
  }

  /** `mirrorClamp` and `mirrorRepeat` are even. */
  lemma MirrorEven(t: real)
    ensures MirrorClamp(-t) == MirrorClamp(t)
    ensures MirrorRepeat(-t) == MirrorRepeat(t)
  {
  }

  /** `mirrorRepeat` lies in [0, 1], is the identity on [0, 1) and the
      mirror `2 - t` on [1, 2). */
  lemma MirrorRepeatShape(t: real)
    ensures 0.0 <= MirrorRepeat(t) <= 1.0
    ensures 0.0 <= t < 1.0 ==> MirrorRepeat(t) == t
    ensures 1.0 <= t < 2.0 ==> MirrorRepeat(t) == 2.0 - t
  {
    MirrorRepeatIsTriangle(t);
    FloorSpec(Abs(t));
    if 0.0 <= t < 1.0 {
      assert Floor(t) == 0;
    } else if 1.0 <= t < 2.0 {
      assert Floor(t) == 1;
    }
  }

  lemma TriangleShift(a: real, k: int)
    ensures Triangle(a + 2.0 * k as real) == Triangle(a)
  {
    assert Floor(a + 2.0 * k as real) == Floor(a) + 2 * k;
    assert (Floor(a) + 2 * k) % 2 == Floor(a) % 2;
  }

  /** The mirror of the triangle wave at 2 is the wave itself. */
  lemma TriangleReflect(s: real)
    requires 0.0 <= s <= 2.0
    ensures Triangle(2.0 - s) == Triangle(s)
  {
    if s == 0.0 {
      assert Floor(2.0) == 2;
    } else if s < 1.0 {
      assert Floor(s) == 0;
      assert Floor(2.0 - s) == 1;
    } else if s == 1.0 {
      assert Floor(1.0) == 1;
    } else if s < 2.0 {
      assert Floor(s) == 1;
      assert Floor(2.0 - s) == 0;
    } else {
      assert Floor(0.0) == 0;
      assert Floor(2.0) == 2;
    }
  }

  /** `mirrorRepeat` has period 2, on both sides of zero. */
  lemma MirrorRepeatPeriodic(t: real)
    ensures MirrorRepeat(t + 2.0) == MirrorRepeat(t)
  {
    MirrorRepeatIsTriangle(t);
    MirrorRepeatIsTriangle(t + 2.0);
    if t >= 0.0 {
      TriangleShift(t, 1);
    } else if t < -2.0 {
      TriangleShift(-t - 2.0, 1);
    } else {
      TriangleReflect(t + 2.0);
    }
  }
}

=== FILE: wrappers.dfy ===
/** Option and Result values used for the error paths of the modelled code
    (a failed lookup, an `assert(0)`, an out-of-range index). */
module Wrappers {

  datatype Option<+T> = None | Some(value: T) {
    function GetOr(default: T): T {
      match this
      case Some(v) => v
      case None => default
    }
  }

  datatype Result<+T, +E> = Ok(value: T) | Err(error: E)
}
